=== FILE: README.md ===
# openprocurement.search — a Dafny model of the indexer's decision logic

openprocurement.search copies documents from the Prozorro public-procurement API into
Elasticsearch and answers search queries over them. Documents include tenders, plans,
auctions, lots, assets, OCDS releases and organisations. This project models the
parts of it that decide things, and proves properties about them. Elasticsearch, HTTP,
SQLite, files and the clock are replaced by explicit state or by oracle parameters.

- **Index-name store** (`NameStore`, `ShDict`). Two file-backed string maps that record
  which Elasticsearch index is current for each index key. Each has an in-memory cache,
  an optional on-disk map (`None` when the file is missing or unreadable) and a
  `lastsync` time. `SharedFileDict` merges with the file on every write and `shdict`
  overwrites the file with the cache.
- **Write engine** (`WriteEngine`, `Bulk`, `Engine`):
  - The backend is a map from (index, doc type, id) to (version, data), with
    external-version semantics: a write succeeds only for a strictly newer version.
  - `index_item` is a bounded retry loop, driven by a sequence of attempt outcomes.
  - The bulk buffer de-duplicates items before it writes them. Failed batches fall
    back to item-by-item writes.
  - The engine also resolves current index names and keeps the master/slave
    heartbeat, including its 10-second write throttle and its 60-second read cache.
  - `search` result shaping is part of the engine.
- **Index lifecycle** (`Lifecycle`, `IndexKinds`):
  - Index generations are named `<key>_<epoch>` and rotate through the keys `<key>`,
    `<key>.next` and `<key>.prev` of the name store.
  - The indexing loop runs in passes and stops on the heartbeat or on a pass whose
    length is a multiple of 500.
  - Each index kind has its own reindex schedule, its tender exclusion rules
    (`test_noindex`) and its organisation forwarding.
- **Sources** (`Sources`, `Ocds`, `Orgs`):
  - Listings are paged and end on the page-stop rules.
  - References are filtered by a window over their `dateModified` strings, compared in
    string order.
  - Fetches are retried a bounded number of times and heal a stale `dateModified`.
  - A content-cache admission rule decides what may be cached.
  - Documents are normalised: tender awards and contracts, lot references and OCDS
    releases.
  - Organisations pass through a de-duplicating queue and a registry decoder with an
    evicting cache.
- **Rank updater** (`RankUpdate`). `update_orgs.py` counts organisation codes and
  rewrites the `rank` of organisations that are mentioned often.
- **Search server** (`SearchServer`). The query-body builders, the `/plans` limit, the
  organisation-suggest branches, the `/heartbeat` endpoint and index-name renaming.
- **Maintenance tools** (`Cleanup`). How `clean_indexes.py` and `optimize_indexes.py`
  select their candidates.

Shared helpers:
- `Wrappers`: `Option`, Python exceptions as `Result`, and enumeration orders.
- `Strs`: Python string order, `rsplit`, and integer parsing and printing.
- `Json`: JSON values.

Python 2 dictionary iteration order is not determined by the code. Where the result
depends on it, the model takes an explicit `order` sequence that enumerates the keys.
Every external call is a parameter: a map, a function `nat -> Outcome`, or a sequence
consumed in order.

## Model

| member | source | states |
|---|---|---|
| NameStore.Fresh | openprocurement/search/utils.py:11-15 | a new store has an empty cache, `lastsync` 0 and a one-second expiry, whatever the file holds |
| NameStore.Read | openprocurement/search/utils.py:47-53 | a successful read replaces the cache with the file's map and sets `lastsync` to now; a failed read changes nothing |
| NameStore.RefreshIdempotent | openprocurement/search/utils.py:44-45 | a second expiry-driven refresh at the same time does nothing, because the first one renewed `lastsync` |
| NameStore.Get | openprocurement/search/utils.py:32-35 | `get` re-reads only when more than `expire` seconds have passed since the last read; it returns the cached value or the default |
| NameStore.GetItem | openprocurement/search/utils.py:27-30 | `[]` refreshes like `get` and raises `KeyError` exactly when the key is absent |
| NameStore.Pop | openprocurement/search/utils.py:37-38 | `pop` removes the key from the cache only, never from the file, and never raises |
| NameStore.PopThenGet | openprocurement/search/utils.py:32-38 | after `pop` a `get` of that key finds nothing until the cache expires and then sees the file value again; every other key reads as before |
| NameStore.Write | openprocurement/search/utils.py:55-68 | a write overlays the cache on the re-read file when `reread` is set, then pops `pop_key` without a default, raising `KeyError` iff it is in neither; the file then equals the cache, and `lastsync` moves only when the re-read succeeded |
| NameStore.SetItem | openprocurement/search/utils.py:17-25 | assigning the cached value does nothing; a truthy value sets the key in cache and file; a falsy value removes it from both, raising `KeyError` iff the file lacks it |
| NameStore.Update | openprocurement/search/utils.py:40-42 | `update(items)` makes both the cache and the file exactly `items`, with no merge |
| NameStore.WriteMergesDisk | openprocurement/search/utils.py:59-62 | keys found only on disk survive a write, and the cache wins on shared keys |
| NameStore.DeleteAbsentRaises | openprocurement/search/utils.py:63-64 | removing a key that is absent from both cache and file raises `KeyError` |
| NameStore.SetThenGet | openprocurement/search/utils.py:17-35 | on a synced store, `get` right after a truthy assignment returns the assigned value |
| NameStore.DeleteThenGet | openprocurement/search/utils.py:23-35 | after a falsy assignment that did not raise, `get` finds nothing |
| NameStore.SyncedDeleteRaises | openprocurement/search/utils.py:63-64 | on a synced store, a falsy assignment raises iff the key is unset |
| NameStore.SyncedPreserved | openprocurement/search/utils.py:55-68 | read, `get` and assignment keep the file equal to the cache, and an assignment changes exactly the one key |
| NameStore.SyncedGet | openprocurement/search/utils.py:32-35 | on a synced store, `get` returns the cached value whether or not it re-reads |
| ShDict.Read | openprocurement/search/shdict.py:41-47 | a successful read replaces the cache and sets `lastsync`; a failed one changes neither |
| ShDict.Write | openprocurement/search/shdict.py:49-55 | a write dumps exactly the cache, with no merge, and sets `lastsync` to now |
| ShDict.SetItem | openprocurement/search/shdict.py:16-23 | assigning the cached value is a no-op; a truthy value sets the key, a falsy one removes it without error; the whole cache is then written |
| ShDict.Get | openprocurement/search/shdict.py:30-33 | `get` re-reads the file exactly when more than `expire` seconds have passed since the last sync, and otherwise leaves the dictionary untouched; it returns the (possibly refreshed) cached value or the default |
| ShDict.GetItem | openprocurement/search/shdict.py:25-28 | `[]` raises `KeyError` exactly when the key is absent |
| ShDict.NoReadAfterWrite | openprocurement/search/shdict.py:38-39 | a `get` within `expire` seconds of an assignment leaves the dictionary untouched, so it does not re-read |
| ShDict.SetThenGet | openprocurement/search/shdict.py:16-33 | `get` after an assignment returns the assigned value at any later time |
| ShDict.WriteDropsDiskOnlyKeys | openprocurement/search/shdict.py:49-54 | keys present only in the file are gone after a write |
| WriteEngine.ExtWrite | openprocurement/search/engine.py:430-435 | an external-version write stores the item iff its version is strictly newer than the stored one; otherwise it is a conflict that changes nothing |
| WriteEngine.TestExists | openprocurement/search/engine.py:406-418 | `test_exists` returns `None` iff the id is absent, and otherwise whether the stored version is at least the item's |
| WriteEngine.GrowsTransitive | openprocurement/search/engine.py:430-435 | the "only newer versions replace" order between backends is transitive |
| WriteEngine.ExistsStable | openprocurement/search/engine.py:406-418 | once an id is stored at version ≥ v, it stays stored at version ≥ v after any later write |
| WriteEngine.ApplyIdempotent | openprocurement/search/engine.py:430-435 | writing the same item twice equals writing it once, and a write never lowers a stored version |
| WriteEngine.ApplyOrderIrrelevant | openprocurement/search/engine.py:430-435 | two versions of the same document end with the newer one stored, whichever arrives first |
| WriteEngine.IndexFrom | openprocurement/search/engine.py:428-450 | the retry loop makes at most 5 attempts before re-raising, gives up with `None` after the 3rd failure under `ignore_errors`, and returns `None` early when `test_exists` shows the item already stored at ≥ its version |
| WriteEngine.IndexItem | openprocurement/search/engine.py:426-452 | a single-item write makes 1 to 5 attempts; under `ignore_errors` it never raises and stops by the 3rd; without it, a result that does not raise leaves the item stored at ≥ its version |
| WriteEngine.StopsWhenStored | openprocurement/search/engine.py:449-450 | a failure that leaves the item stored at ≥ its version ends the loop with `None` |
| WriteEngine.DeadBackend | openprocurement/search/engine.py:437-448 | with every attempt failing and nothing stored, the loop re-raises after exactly 5 attempts, or gives up after 3 under `ignore_errors` |
| Bulk.Dedup | openprocurement/search/engine.py:471-494 | the batch keeps at most one item per id, none already stored at ≥ its version, and every unstored item's id is kept at a version at least its own |
| Bulk.DedupKeepsLatestHighest | openprocurement/search/engine.py:479-486 | for a repeated id the later item wins unless an earlier one has a strictly higher version |
| Bulk.ApplyBatch | openprocurement/search/engine.py:495-498 | a successful batch stores every selected item at its version and changes no other document |
| Bulk.Fallback | openprocurement/search/engine.py:466-469 | item-by-item writes never lower a version; without an exception every remaining item ends stored, and under `ignore_errors` none raises |
| Bulk.BatchStoresAll | openprocurement/search/engine.py:471-498 | after a successful batch, every buffered item is stored at ≥ its version |
| Bulk.FlushOne | openprocurement/search/engine.py:464-504 | a buffer of fewer than 50 items, or one after a failed batch, never gives a batch error; a completed flush stores every item; only an unignored error raises |
| Bulk.FlushFrom | openprocurement/search/engine.py:465-504 | a completed pass empties all buffers and clears `bulk_errors`; otherwise every buffer is kept, and a batch error sets `bulk_errors` |
| Bulk.FlushFromStep | openprocurement/search/engine.py:465-504 | flushing from buffer `i` is flushing buffer `i` and then the rest |
| Bulk.FlushFromStoresAll | openprocurement/search/engine.py:465-507 | a flush without an exception stores every buffered item at ≥ its version |
| Bulk.FlushBulk | openprocurement/search/engine.py:463-507 | a completed flush empties all buffers and clears `bulk_errors`; an exception keeps all buffers |
| Bulk.FlushCompletedStoresAll | openprocurement/search/engine.py:463-507 | after a completed flush every item that was buffered is in the backend |
| Bulk.WithList | openprocurement/search/engine.py:455-456 | the buffer for an index gets the item appended, and no other buffer changes |
| Bulk.BulkIndexAsWritten | openprocurement/search/engine.py:454-461 | the source's `bulk_index`: with fewer than 100 items buffered, the item is appended to its index's list and the answer is True |
| Bulk.BulkIndexLosesItem | openprocurement/search/engine.py:457-460 | when 100 or more items are buffered and the flush completes, the result is True yet every buffer is empty, so the new item is neither stored nor buffered |
| Bulk.BulkIndex | openprocurement/search/engine.py:454-461 | the corrected `bulk_index` ends a successful call with the new item last in its index's buffer; a raised flush keeps the buffers |
| Bulk.BulkIndexKeepsEverything | openprocurement/search/engine.py:454-461 | the corrected `bulk_index` leaves every item either stored or buffered |
| Engine.PyStr | openprocurement/search/engine.py:155 | `str(None)` is `'None'` and `str(s)` is `s` |
| Engine.SetIndex | openprocurement/search/engine.py:154-155 | `set_index(key, None)` on a synced store stores the string `'None'` and does not raise |
| Engine.GetName | openprocurement/search/engine.py:149-152 | an unset or empty name reads as `None`; otherwise the stored name is returned |
| Engine.Resolve | openprocurement/search/engine.py:164-168 | a key resolves to its current name, else `.prev`, else `.next` |
| Engine.Resolved | openprocurement/search/engine.py:157-171 | the keys that resolve, in order, each replaced by its name; with every key resolvable there is one name per key |
| Engine.ResolveEach | openprocurement/search/engine.py:161-170 | the lookup loop takes one to three lookups per key, each with its own clock reading; it keeps the file and the expiry and finds at most one name per key |
| Engine.GetCurrentIndexes | openprocurement/search/engine.py:157-171 | when no lookup's clock reading crosses the expiry, the answer is the comma-join of the names `Resolved` finds over the map refreshed at the first lookup |
| Engine.ResolveEachIsSnapshot | openprocurement/search/utils.py:34-45 | while no lookup crosses the expiry, the store re-reads at most once, at the first lookup, so every lookup sees that one snapshot and the loop agrees with `Resolved` |
| Engine.OneReadingIsSnapshot | openprocurement/search/utils.py:44-45 | with one clock reading for the whole call and a non-negative expiry, no lookup crosses the expiry, so the answer is `Resolved` over one refreshed map |
| Engine.CrossingSeesTwoMaps | openprocurement/search/utils.py:34-45 | a lookup that crosses the expiry can re-read the file in the middle of the loop: after a `pop` left the cache behind the file, the first key misses and the second is found in the file, an answer that no single map gives |
| Engine.AllResolved | openprocurement/search/engine.py:157-171 | when every key resolves and no lookup crosses the expiry, the loop finds exactly one name per key, in key order |
| Engine.IndexByType | openprocurement/search/engine.py:509-514 | `index_by_type` answers from the first registered index only |
| Engine.IndexByTypeOnlyFirst | openprocurement/search/engine.py:509-514 | an index registered after the first is never found, even when its type matches |
| Engine.BeatText | openprocurement/search/engine.py:300 | the heartbeat file text ends with a newline |
| Engine.ParseLine | openprocurement/search/engine.py:304-305 | a line without its trailing newline parses as a decimal integer |
| Engine.MasterHeartbeatSave | openprocurement/search/engine.py:295-301 | the master writes the time only when at least 10 seconds have passed since its last write |
| Engine.MasterHeartbeatRead | openprocurement/search/engine.py:302-306 | a missing file raises `IOError` and an empty file reads as 0 |
| Engine.HeartbeatRoundTrip | openprocurement/search/engine.py:293-309 | saving a heartbeat and reading it back yields the saved time |
| Engine.HeartbeatThrottle | openprocurement/search/engine.py:296-298 | two saves within 10 seconds write once |
| Engine.TestHeartbeat | openprocurement/search/engine.py:311-344 | within 60 s of the last check the cached value is returned without a fetch; a failed fetch keeps the previous value; a reply carrying index names overwrites the names store |
| Engine.Heartbeat | openprocurement/search/engine.py:525-553 | the answer is False once `should_exit` is set and True in master mode; in slave mode it is True iff now minus the master's heartbeat exceeds `slave_wakeup`, and the source is asked to reset exactly when it is False |
| Engine.DeadMasterWakesSlave | openprocurement/search/engine.py:543-547 | when the fetch fails and the last heartbeat is older than `slave_wakeup`, the slave wakes and keeps the stale value |
| Engine.Sources | openprocurement/search/engine.py:281-285 | the items are the `_source` of each hit, in order; a hit without `_source` raises |
| Engine.EffectiveLimit | openprocurement/search/engine.py:265-266 | a non-zero limit is kept, and 0 gives the default of 10 |
| Engine.SearchResult | openprocurement/search/engine.py:258-291 | no index gives `current index not found`; a failed search gives its message and no items; a reply without hits passes its error through or reports `bad response`; otherwise the start, the total (0 when absent) and the items |
| Engine.SearchItemsAreSources | openprocurement/search/engine.py:281-291 | the result's items have the same length as the hits and hold their sources |
| Lifecycle.KeysDistinct | openprocurement/search/index/__init__.py:52-53 | the current, `.next` and `.prev` keys of an index key are pairwise distinct |
| Lifecycle.GenName | openprocurement/search/index/__init__.py:62 | a generation name is `<key>_<now>` |
| Lifecycle.AgeOf | openprocurement/search/index/__init__.py:39-40 | the only exception is `ValueError`, and a name without `_` always raises it |
| Lifecycle.AgeOfGenName | openprocurement/search/index/__init__.py:39-40 | a generation created at time t has age now − t, so the suffix round-trips |
| Lifecycle.IndexAge | openprocurement/search/index/__init__.py:34-40 | a given name is aged by its suffix; with none the current name is used, and with no current index the age is now itself |
| Lifecycle.NeedReindex | openprocurement/search/index/__init__.py:42-43 | the base rule asks for a reindex iff the current key is unset |
| Lifecycle.SetCurrentIfEmpty | openprocurement/search/index/__init__.py:65-68 | filling an empty current entry never raises and returns the generation unchanged |
| Lifecycle.NewIndex | openprocurement/search/index/__init__.py:51-69 | a created generation is named `<key>_<now>`, a returned name is never empty, and the only exception is `ValueError` from a bad suffix |
| Lifecycle.SetNonEmpty | openprocurement/search/utils.py:17-22 | setting a non-empty value on a synced store with no empty values does not raise, keeps it so, and changes only that key |
| Lifecycle.RemovePresent | openprocurement/search/utils.py:23-25 | removing a present key from such a store does not raise, keeps it so, and drops only that key |
| Lifecycle.GoodGet | openprocurement/search/utils.py:32-35 | a `get` on such a store keeps it unchanged in content and returns the cached value |
| Lifecycle.NewIndexColdStart | openprocurement/search/index/__init__.py:61-68 | on a cold start `<key>_<now>` is created, and both current and `.next` name it |
| Lifecycle.NewIndexReusesNext | openprocurement/search/index/__init__.py:54-59 | a `.next` generation that is not current and at most 86400 s old is returned as not created, and the store is unchanged |
| Lifecycle.NewIndexDropsStaleNext | openprocurement/search/index/__init__.py:59-64 | a `.next` older than a day is replaced by `<key>_<now>`, returned as created, and current stays as it was |
| Lifecycle.DeleteIndex | openprocurement/search/index/__init__.py:71-74 | `delete_index` goes through `set_index`: `None` or a non-empty name is recorded as `.prev` in printed form (`'None'` for `None`) without raising; an empty name changes nothing when the cache already holds `''` there, and otherwise removes `.prev` and raises iff the file lacks it |
| Lifecycle.DeleteIndexRecords | openprocurement/search/index/__init__.py:71-74 | on a synced store with no empty values, `.prev` takes the printed name (`'None'` for `None`) and nothing else changes |
| Lifecycle.SetCurrent | openprocurement/search/index/__init__.py:76-88 | the only exceptions are `KeyError` from a removal and `AssertionError` from the read-back |
| Lifecycle.SetCurrentPromotes | openprocurement/search/index/__init__.py:76-88 | a new name becomes current, the old current (or `'None'`) moves to `.prev`, and `.next` is cleared iff it names the new name |
| Lifecycle.SetCurrentSame | openprocurement/search/index/__init__.py:76-88 | promoting the current name changes only `.next`, which is cleared iff it names it |
| Lifecycle.IndexedExtremes | openprocurement/search/index/__init__.py:136-140 | a pass counts 0 iff no reference was both unstored and truthily written, and its whole length iff every one was |
| Lifecycle.IndexedAppend | openprocurement/search/index/__init__.py:136-140 | the count of two passes run back to back is the sum of their counts |
| Lifecycle.DrainFrom | openprocurement/search/index/__init__.py:133-155 | a refused heartbeat ends the loop at once; a pass with a raising reference ends the run with the first such exception and no count; a pass whose length is a multiple of 500 is the last one run and counts its truthy writes |
| Lifecycle.DrainPassesRan | openprocurement/search/index/__init__.py:133-155 | with the heartbeat always granting work, every pass before the last ran to its end with a length that is not a multiple of 500 |
| Lifecycle.DrainRaises | openprocurement/search/index/__init__.py:136-140 | a run that raised ended in a pass holding a raising reference, with the exception of the first one |
| Lifecycle.DrainCounts | openprocurement/search/index/__init__.py:129-157 | with the heartbeat always granting work, the count totals the truthy writes of every pass run, and only the last pass is a multiple of 500 |
| Lifecycle.FiveHundredStops | openprocurement/search/index/__init__.py:141-155 | a first pass of exactly 500 references ends the run |
| Lifecycle.IndexSource | openprocurement/search/index/__init__.py:114-157 | an explicit name is used as given; otherwise the current name; otherwise, for a slave, the current name after one heartbeat; the loop runs iff one of these names exists, and without a name nothing is written to the file beyond that heartbeat |
| Lifecycle.IndexSourceFollowsPromotion | openprocurement/search/index/__init__.py:76-88 | after `set_current(name)` the incremental `index_source()` writes into `name` |
| Lifecycle.Process | openprocurement/search/index/__init__.py:159-167 | without a due and allowed reindex only the incremental pass runs; otherwise `Create` appears iff `new_index` made a new generation, a raising full pass ends the run with its exception before finish and promote, and the run ends with promote and the incremental pass iff it succeeds |
| Lifecycle.Reindex | openprocurement/search/index/__init__.py:159-165 | the reindex branch records `Create` iff the generation is new, always runs the full pass, stops with its exception before finish and promote when it raises, and otherwise leaves the store `set_current` gives; it ends with promote and the incremental pass iff it succeeds |
| Lifecycle.ColdStartProcess | openprocurement/search/index/__init__.py:159-167 | a first run on an empty store whose full pass does not raise leaves `<key>_<now>` current, no `.next`, and nothing else changed |
| Lifecycle.ProcessReindexStore | openprocurement/search/index/__init__.py:159-165 | a reindex run leaves the store that promoting the generation from `new_index` gives |
| IndexKinds.ReindexOptions | openprocurement/search/index/tender.py:14-17 | an option given in the configuration wins; otherwise the kind's default reindex and check strings apply |
| IndexKinds.DefaultOptions | openprocurement/search/index/plan.py:14-17 | with no configuration, plans use `'10,7'` and `'1,1'`, OCDS `'6,6'` and `'100000,0'`, the other kinds `'5,6'` and `'1,1'`; `auctions2` reads `auction2_*` options |
| IndexKinds.NeedReindex | openprocurement/search/index/tender.py:23-31 | no current index asks for a reindex; a set force flag answers True and is cleared; an unset flag is left alone; orgs reindex iff there is no current index |
| IndexKinds.NeedReindexByAge | openprocurement/search/index/tender.py:29-31 | for an unforced current generation, the answer is whether it is older than `max_age` and the weekday is at least `reindex_day` |
| IndexKinds.ForceOnce | openprocurement/search/index/tender.py:26-28 | a forced reindex is answered once and the flag is then cleared |
| IndexKinds.ActiveAwards | openprocurement/search/index/tender.py:55-61 | no award counts iff none is active or cancelled and none has complaints |
| IndexKinds.ActiveContracts | openprocurement/search/index/tender.py:66-69 | no contract counts iff none is active |
| IndexKinds.TestNoindex | openprocurement/search/index/tender.py:46-78 | negotiations are excluded iff no award counts, reporting iff no contract is active, stage-2 dialogues iff `draft.stage2`; others never |
| IndexKinds.NoindexOnlyAfterCutoff | openprocurement/search/index/tender.py:49 | tenders with `tenderID` ≤ `'UA-2016-05-31'` are never excluded |
| IndexKinds.TenderTestExists | openprocurement/search/index/tender.py:39-44 | the `noindex_` index is consulted only when the main lookup finds nothing and a prefix is set |
| IndexKinds.IndexItemPlan | openprocurement/search/index/__init__.py:106-112 | an excluded item is not written; otherwise a present procuring entity is forwarded as an `org` and the item is written |
| IndexKinds.OnlyTendersFilter | openprocurement/search/index/__init__.py:93-112 | for every kind but orgs, an item is written iff it is not a tender that `test_noindex` excludes, and an excluded tender sorts after `UA-2016-05-31` |
| IndexKinds.OrgsIndexItem | openprocurement/search/index/orgs.py:27-34 | a successful write returns the engine's result; a failure gives `None` under `ignore_errors` or when already stored, and re-raises otherwise |
| IndexKinds.OrgsItemStoredOrRaises | openprocurement/search/index/orgs.py:27-34 | over the engine's single-item write (called without `ignore_errors`), the orgs index re-raises the backend's exception iff errors are not ignored and the item is not stored at its version; a write that returned leaves the item stored and its result is passed on; stored versions never drop |
| IndexKinds.ProcessKind | openprocurement/search/index/__init__.py:159-167 | an error from the reindex decision ends the run with no step; a promotion happens only when reindexing is allowed and the decision is True; with a current orgs index only the incremental pass runs; the force flag is cleared only when it decided a reindex |
| IndexKinds.ProcessKindByAge | openprocurement/search/index/tender.py:23-31 | for an unforced current generation with reindexing allowed, only the incremental pass runs iff the generation is not older than `max_age` or the weekday is before `reindex_day` |
| Sources.PatchVersion | openprocurement/search/source/tender.py:43-50 | meta keeps its id and `dateModified`, and gets the family's doc type and the version of its `dateModified` |
| Sources.NormBound | openprocurement/search/source/tender.py:78-80 | a bound is kept only when it is empty or begins with `'20'`; otherwise it becomes `None` |
| Sources.Reset | openprocurement/search/source/dgf_lot.py:143-150 | reset normalises the lower bound; lot and asset sources also normalise the upper bound, record the reset time and clear `should_reset`; the others have no upper bound |
| Sources.UnguardedBound | openprocurement/search/source/tender.py:115-117 | with no upper bound, a reference is in the window iff its date is not before the lower bound |
| Sources.Scan | openprocurement/search/source/dgf_lot.py:203-215 | each reference is either skipped or fetched; yielded references lie in the window and carry the family's doc type; `last_skipped` is set iff something was skipped, and names the last reference when that one was skipped |
| Sources.ScanYieldsKept | openprocurement/search/source/dgf_lot.py:199-215 | the yielded references are exactly the in-window ones, in order, with their versions patched |
| Sources.Consumed | openprocurement/search/source/tender.py:112-114 | the loop gets to every reference before the first one that sees `should_exit` |
| Sources.Items | openprocurement/search/source/tender.py:108-118 | `items` yields the versioned in-window references that come before `should_exit` is seen, resetting first when not connected |
| Sources.PreloadFrom | openprocurement/search/source/tender.py:82-106 | pages are gathered until an error, an empty or short page, or the limit; an exit after a fetch gives `[]` |
| Sources.PreloadFromContinues | openprocurement/search/source/tender.py:84-104 | every page before the last one was full and seen without exit |
| Sources.PreloadFromUnderLimit | openprocurement/search/source/tender.py:103-104 | the limit was not reached before the last page |
| Sources.PreloadFromStops | openprocurement/search/source/tender.py:85-104 | the last page is an error, an exit, empty, short, or reaches the limit |
| Sources.Preload | openprocurement/search/source/tender.py:82-106 | at most one reset; the gathered references (or `[]` on exit), where every earlier page was full, the limit was not reached before the last page, and the last page gives a stop reason |
| Sources.PreloadErrorStops | openprocurement/search/source/tender.py:85-90 | an error on the first page resets once and gathers nothing |
| Sources.PreloadRetry | openprocurement/search/source/dgf_lot.py:168-192 | failed main fetches count towards at most 4; every page before the last was an error or full; the gathered references are those of the pages fetched |
| Sources.FastRefs | openprocurement/search/source/dgf_lot.py:155-166 | the fast client's references, or none when it failed |
| Sources.PreloadRegistry | openprocurement/search/source/dgf_lot.py:152-197 | the fast references come first, then the gathered pages, with at most 4 resets |
| Sources.PreloadRegistryGivesUp | openprocurement/search/source/dgf_lot.py:168-181 | four failed main fetches end the preload with only the fast references |
| Sources.Heal | openprocurement/search/source/tender.py:138-143 | after the heal, meta's `dateModified` equals the data's, and meta is re-versioned iff they differed |
| Sources.Finish | openprocurement/search/source/tender.py:138-145 | a finished document keeps the fetched id and date; non-plan meta is healed; plans attach the listing reference unchanged; auctions, assets and plans always finish |
| Sources.GetFrom | openprocurement/search/source/tender.py:120-137 | at most 5 attempts; a loop left by `break` returns an accepted fetch (the right id and a `dateModified` not older; any document for plans); a re-raise carries the transport or assertion error of the last attempt; a loop left by `should_exit` stops at an attempt that sees it and can raise only `KeyError` |
| Sources.GetFromExit | openprocurement/search/source/tender.py:120-137 | a loop left by `should_exit` returns what the loop variable held: the last fetched document, accepted or not, for tenders and auctions, nothing for plans, and `KeyError` for lots and assets |
| Sources.HeldIsLastFetched | openprocurement/search/source/tender.py:120-124 | the loop variable after a run of attempts is the document of the last attempt whose fetch returned one, and the starting value when no fetch did; it is empty iff the start was empty and no fetch returned a document |
| Sources.LoopResets | openprocurement/search/source/tender.py:129-137 | the loop resets at most 3 times for tenders, auctions and plans, and at most twice for lots and assets |
| Sources.LoopRaisesLate | openprocurement/search/source/dgf_lot.py:234-238 | a transport or assertion error is re-raised only at the 5th attempt, or at the 2nd for lots and assets under `ignore_errors` |
| Sources.LoopRetriesOnlyFailures | openprocurement/search/source/tender.py:123-137 | every attempt before the successful one failed |
| Sources.GetDoc | openprocurement/search/source/dgf_lot.py:222-259 | a cached lot or asset is finished without fetching; otherwise a loop ending on an accepted fetch finishes that document, with meta's `dateModified` equal to the document's; an exit finishes the last fetched document for tenders and auctions, and otherwise gives the exit result |
| Sources.ExitResult | openprocurement/search/source/tender.py:137-144 | on `should_exit` plans return only meta, lots and assets raise `KeyError` on the empty document, tenders and auctions return the held document or raise `KeyError` when none was fetched |
| Sources.ExitKeepsRejected | openprocurement/search/source/tender.py:122-144 | a tender or auction whose first fetch was rejected and whose loop then exits returns that rejected document, healed |
| Sources.GetGivesUp | openprocurement/search/source/tender.py:129-131 | with every fetch failing, `get` re-raises after 5 attempts and 3 resets (2 for lots and assets), or after 2 attempts for lots and assets under `ignore_errors` |
| Sources.LoopGivesUp | openprocurement/search/source/dgf_lot.py:234-245 | the fetch loop alone gives up under the same bounds |
| Sources.DeadFrom | openprocurement/search/source/dgf_lot.py:234-245 | from any attempt on, a dead upstream re-raises the transport error after the 5th attempt having spent the whole remaining reset budget, or, for lots and assets under `ignore_errors`, at the 2nd attempt (or the next one, when starting later) without a reset |
| Sources.GetAll | openprocurement/search/source/tender.py:147-162 | with 10 or more references and concurrency ≥ 2 the result is `NameError`; otherwise `get(ref)` for each reference in order, stopping at the first exception |
| Sources.MarkActive | openprocurement/search/source/tender.py:54-56 | an active award or contract gets `activeDate := date` with other keys unchanged; a non-active one is unchanged; a non-dict raises `AttributeError` |
| Sources.MarkAll | openprocurement/search/source/tender.py:53-56 | marking a list marks each element, and raises iff some element is not a dict |
| Sources.PatchList | openprocurement/search/source/tender.py:53-60 | a missing field stays missing; a list field has each element marked and the other keys keep their values; an empty dict or string iterates nothing, a non-empty one raises `AttributeError`, and any other value raises `TypeError` |
| Sources.PatchTender | openprocurement/search/source/tender.py:52-61 | only `awards` and `contracts` may change, and no key is added or removed |
| Sources.MarkActiveIdempotent | openprocurement/search/source/tender.py:55-56 | marking twice equals marking once |
| Sources.MarkAllIdempotent | openprocurement/search/source/tender.py:53-56 | marking a list twice equals marking it once |
| Sources.PatchListIdempotent | openprocurement/search/source/tender.py:57-60 | patching a field twice equals patching it once |
| Sources.PatchTenderIdempotent | openprocurement/search/source/tender.py:52-61 | `patch_tender` is idempotent |
| Sources.FirstIsDict | openprocurement/search/source/dgf_lot.py:75 | for a list, whether its first element is a dict; a string counts as not a dict; other values raise |
| Sources.MoveRefs | openprocurement/search/source/dgf_lot.py:74-76 | a truthy non-dict list or string moves to the Refs field only when that field is absent; otherwise the data is unchanged or an error is raised |
| Sources.PatchLot | openprocurement/search/source/dgf_lot.py:71-80 | `patch_lot` raises only `KeyError` or `TypeError` |
| Sources.PatchLotIdempotent | openprocurement/search/source/dgf_lot.py:71-80 | `patch_lot` is idempotent |
| Sources.PatchLotRenames | openprocurement/search/source/dgf_lot.py:71-80 | keys other than `assets` and `auctions` keep their values, and a moved `assets` or `auctions` value reappears under its Refs key |
| Sources.CacheAllow | openprocurement/search/source/dgf_lot.py:217-220 | a missing document is not cached and one without a status raises; otherwise caching is allowed iff the status is allow-listed and `dateModified` is strictly before the cutoff |
| Sources.CacheAllowMonotone | openprocurement/search/source/dgf_lot.py:217-220 | a later cutoff admits everything an earlier one did |
| Sources.ActiveNeverCached | openprocurement/search/source/dgf_lot.py:34 | an `active` document is never cached under the default allow list |
| Sources.LotNeedReset | openprocurement/search/source/dgf_lot.py:82-92 | reset when asked; otherwise never within 3600 s of the last reset, then after `reseteach` hours or at `resethour` |
| Sources.AssetNeedReset | openprocurement/search/source/asset.py:76-82 | reset when asked, after more than 3600·`reseteach` seconds, or at hour `resethour` once an hour has passed |
| Sources.ResetTimerDefaults | openprocurement/search/source/asset.py:79-80 | with the default of 0, any positive elapsed time resets an asset source but not a lot source |
| Ocds.FillStart | openprocurement/search/source/ocds.py:40-43 | `startDate` is copied from `endDate` only when it is missing |
| Ocds.PyIn | openprocurement/search/source/ocds.py:40-53 | the `in` test is key membership on a dict, the substring test on a string and element equality on a list, and raises `TypeError` on any other value |
| Ocds.FixPeriod | openprocurement/search/source/ocds.py:40-43 | a dict period gets the `startDate` fix; a string or list that names `startDate`, or does not name `endDate`, passes unchanged, and any other one raises `TypeError` |
| Ocds.Classify | openprocurement/search/source/ocds.py:44-50 | a dict entry without a classification, or with a CPV one, is unchanged, and a non-CPV classification is appended to `additionalClassifications`, which is created if absent; a string or list entry is skipped exactly when the `in` test misses, and raises `TypeError` otherwise; a number, boolean or `None` raises `TypeError` |
| Ocds.ClassifyAll | openprocurement/search/source/ocds.py:44-50 | every item is classified and the item count is kept; the walk succeeds exactly when every item does |
| Ocds.ClassifyEntries | openprocurement/search/source/ocds.py:44-50 | a list `items` is classified entry by entry; a dict passes unchanged exactly when each key, as a string entry, passes; a string always passes unchanged; anything else is not iterable |
| Ocds.CharactersPassClassify | openprocurement/search/source/ocds.py:44-46 | every one-character string passes the classification fix unchanged, so a string `items` is left as it was |
| Ocds.NonDictEntries | openprocurement/search/source/ocds.py:44-47 | `"abc"` and a list without the element are skipped; a string containing `classification`, a list holding it, and an integer raise `TypeError` |
| Ocds.Last5 | openprocurement/search/source/ocds.py:52 | the last five characters, or the whole string when it is shorter |
| Ocds.FillPostalCode | openprocurement/search/source/ocds.py:51-54 | an existing `postalCode` is kept; a missing one is filled from the street address exactly when it ends in five digits; no existing key changes |
| Ocds.PostalCodeFromStreet | openprocurement/search/source/ocds.py:51-54 | an address ending in `01001` gets that postal code |
| Ocds.FixAddress | openprocurement/search/source/ocds.py:51-54 | a dict address gets the postal-code fix; a string or list that names `postalCode` passes unchanged, and any other one raises `TypeError` |
| Ocds.PatchFields | openprocurement/search/source/ocds.py:39-54 | the fix succeeds exactly when the period, items and address fixes all do and `procuringEntity` is a dict holding `address`; it then rewrites those four fields with their fixed values, keeps every other field and adds or removes no key |
| Ocds.PatchTender | openprocurement/search/source/ocds.py:39-64 | the result is `{meta: {id, doc_type, version}, data}`, with `doc_type` and `version` removed from data; it fails iff a required field is missing |
| Ocds.FillStartIdempotent | openprocurement/search/source/ocds.py:40-43 | filling `startDate` twice equals filling it once, and a period with `endDate` always ends with a `startDate` |
| Ocds.ReleaseTender | openprocurement/search/source/ocds.py:85-90 | `tenderID` defaults to the release `ocid` and `dateModified` to the release `date`; doc type and version are added and other keys kept |
| Ocds.ReleaseTenders | openprocurement/search/source/ocds.py:84-90 | releases are converted in order until the first error |
| Ocds.Sort | openprocurement/search/source/ocds.py:71 | file names are sorted by Python string order, and no name is lost or added |
| Ocds.Matching | openprocurement/search/source/ocds.py:68-70 | every kept name matches the mask, and every matching name is kept |
| Ocds.ResetFiles | openprocurement/search/source/ocds.py:66-71 | reset lists exactly the matching files, in sorted order |
| Ocds.Items | openprocurement/search/source/ocds.py:73-90 | each call consumes the first remaining file and converts its releases; with no files left, the listing is reloaded only at minute 59 of hours 6 and 18; a `releases` value that is an empty dict or string yields nothing without error, and any other value that is not a list raises `TypeError` |
| Ocds.NoReloadOutsideWindow | openprocurement/search/source/ocds.py:74-79 | outside that window an empty file list yields nothing |
| Ocds.CallsConsumeInOrder | openprocurement/search/source/ocds.py:78-80 | n successive calls leave exactly the files after the first n |
| Orgs.CacheKey | openprocurement/search/source/orgs.py:57-58 | the key is the code left-padded with `'0'` to at least 8 characters: it ends with the code and every added character is `'0'` |
| Orgs.CacheKeyIdempotent | openprocurement/search/source/orgs.py:57-58 | padding a padded key changes nothing, so a cache key is its own key |
| Orgs.Evict | openprocurement/search/source/orgs.py:66-68 | an eviction round keeps exactly the entries with at least `limit` hits, unchanged |
| Orgs.Purge | openprocurement/search/source/orgs.py:64-70 | the purge ends with at most 10000 entries, each kept unchanged and with at least the starting limit of hits |
| Orgs.Query | openprocurement/search/source/orgs.py:49-81 | a disconnected decoder, an empty code or a code that is not ASCII (so `str()` raises `UnicodeEncodeError`) answers nothing and leaves the decoder as it was; a hit returns the cached row and counts it; a miss asks the database and caches a found row with one hit; a database failure disconnects |
| Orgs.QueryPadding | openprocurement/search/source/orgs.py:57-59 | an ASCII code shorter than 8 and its `'0'`-prefixed form get the same answer |
| Orgs.QueryCaches | openprocurement/search/source/orgs.py:59-63 | a second query for a found ASCII code returns the same row and counts one more hit |
| Orgs.CodeText | openprocurement/search/source/orgs.py:49-56 | a string code is used iff it is non-empty and ASCII (`str()` fails otherwise), an int code iff non-zero and then printed; `None`, lists and dicts give no code; any code found is non-empty and comes from a truthy value |
| Orgs.PatchEntity | openprocurement/search/source/orgs.py:83-104 | `registryRecord` is added only when connected, absent, the scheme is `UA-EDR`, the code is usable and a row is found; the entity is otherwise unchanged |
| Orgs.PatchEntityIdempotent | openprocurement/search/source/orgs.py:87-88 | patching the patched entity again changes nothing |
| Orgs.PushCode | openprocurement/search/source/orgs.py:175-182 | a missing identifier or id gives no code; an integer id is printed unless it is zero; a string, list or dict id is the code as it is; `None`, a boolean or a float gives no code |
| Orgs.Push | openprocurement/search/source/orgs.py:173-198 | a changed queue gained exactly one new code of 5..15 characters whose name has at least 3 characters; queued items are never replaced; True means the queue has reached `orgs_queue`; only `TypeError` is raised |
| Orgs.PushAccepts | openprocurement/search/source/orgs.py:183-195 | a valid item is queued unless its code is already queued, and the answer is whether the queue is full |
| Orgs.Items | openprocurement/search/source/orgs.py:200-203 | every queued item is yielded once, in the enumeration order, and the queue is then empty |
| Orgs.NeedReset | openprocurement/search/source/orgs.py:129-134 | reset iff asked with an empty queue, or a database is configured but not open |
| Orgs.NeedResetWaitsForQueue | openprocurement/search/source/orgs.py:129-134 | with a usable registry a requested reset is not due while items are queued and is due once `items()` has drained the queue; without a request it is never due |
| Orgs.PatchItem | openprocurement/search/source/orgs.py:136-158 | it raises `AttributeError` iff the data is not a dict, its `address` is present and not a dict, or the name falls back to an `identifier` that is not a dict, and then the decoder is untouched; otherwise the document has the code and rank 1, with a decoder a found registry row supplies name, short name and location and is counted as found, and otherwise the item's own name and region are used |
| Orgs.OrgNameOf | openprocurement/search/source/orgs.py:141-143 | the name is `name`, else `name_ru`, else the identifier's `legalName`, and raises `AttributeError` only when both names are falsy and the identifier is present but not a dict |
| Orgs.PatchItemLikeEntity | openprocurement/search/source/orgs.py:146-157 | `patch_item` leaves the decoder exactly as `patch_entity` does for a UA-EDR entity with the same code, counts a find exactly when `patch_entity` adds a `registryRecord`, and counts something iff the code is non-empty |
| Orgs.NonAsciiNotFound | openprocurement/search/source/orgs.py:52-56 | a code that is not ASCII is counted as not found, with the decoder unchanged and the item's own name and region kept |
| RankUpdate.EntityCode | openprocurement/search/update_orgs.py:59-70 | a string id is kept iff it is non-empty, ASCII and 5..15 long; an int id is printed and kept iff non-zero and 5..15 digits with sign; a float id counts under its printed text; any returned code is truthy |
| RankUpdate.ProcessEntity | openprocurement/search/update_orgs.py:59-79 | the answer is True iff the code is valid, and exactly that code's count rises by one, starting at 1 |
| RankUpdate.ProcessAllCounts | openprocurement/search/update_orgs.py:75-78 | after a run, each code's count has grown by its number of valid occurrences |
| RankUpdate.ProcessAllKeys | openprocurement/search/update_orgs.py:75-78 | a code is counted iff it was counted before or occurs validly |
| RankUpdate.ProcessSource | openprocurement/search/update_orgs.py:87-119 | the total is the items of the passes run; every pass before the last kept the loop going (fewer than 100 items so far with `last_skipped` set, or at least 5 items); the last stopped it, or `should_exit` did |
| RankUpdate.ProcessSourceDrains | openprocurement/search/update_orgs.py:113-119 | when every pass yields 5 or more items, all passes run, followed by one empty pass |
| RankUpdate.FlushLoop | openprocurement/search/update_orgs.py:135-173 | every write is a justified update (rank ≥ 10, code found, stored rank different, only `rank` changed, version + 1); at most 101 errors; the only exception is `KeyError` |
| RankUpdate.FlushLoopWritesWanted | openprocurement/search/update_orgs.py:143-167 | when every write succeeds and nothing exits, the writes are exactly the wanted updates, in key order |
| RankUpdate.FlushAsWritten | openprocurement/search/update_orgs.py:123-177 | the source's `flush_orgs_map`: no index name does nothing; an index with an empty map raises `ZeroDivisionError`; otherwise the loop runs |
| RankUpdate.FlushEmptyMapRaises | openprocurement/search/update_orgs.py:175-177 | with a current index and an empty map, the progress line divides by zero |
| RankUpdate.Flush | openprocurement/search/update_orgs.py:123-177 | the corrected flush does nothing with no index or an empty map; otherwise it makes only justified writes, and its only exception is `KeyError` |
| RankUpdate.FlushAgrees | openprocurement/search/update_orgs.py:123-177 | on a non-empty map the corrected flush agrees with the original |
| SearchServer.MatchQuery | openprocurement/search/search_server.py:50-59 | terms are space-joined; `operator` appears iff one is given and the text has a space; `analyzer` and `type` appear only when given; no other key appears |
| SearchServer.MatchQueryJoinsWithSpace | openprocurement/search/search_server.py:51-54 | two or more terms with an operator always get the `operator` key |
| SearchServer.PrefixQuery | openprocurement/search/search_server.py:62-69 | one prefix clause per term; a single clause is bare, several go under `bool.should` |
| SearchServer.RangeClause | openprocurement/search/search_server.py:75-89 | `a-b` splits at the first `-` into gte and lte; a bare term is gte for `value.amount` (a non-number raises `ValueError`) and a prefix clause for other fields |
| SearchServer.RangeClauses | openprocurement/search/search_server.py:74-89 | one clause per term, in order, or the `ValueError` of a term that fails |
| SearchServer.RangeQuery | openprocurement/search/search_server.py:72-92 | the terms' clauses, bare when there is one and under `bool.should` otherwise, or their error |
| SearchServer.RangeQueryNoDashPrefix | openprocurement/search/search_server.py:76-81 | a term without `-` on another field becomes a prefix query |
| SearchServer.DatesQuery | openprocurement/search/search_server.py:95-102 | a `range` clause with the value under the operator and time zone `+2:00` |
| SearchServer.Clause | openprocurement/search/search_server.py:150-199 | a clause fails only for a range argument, and then with `ValueError` |
| SearchServer.PresentRules | openprocurement/search/search_server.py:154-156 | the rules whose argument is present and non-empty, and none when no argument is |
| SearchServer.ClauseList | openprocurement/search/search_server.py:150-199 | one clause per present rule, in order, or the `ValueError` of a range rule |
| SearchServer.Clauses | openprocurement/search/search_server.py:150-199 | one clause per present rule, in order; no present rule gives no clauses; only a range rule raises |
| SearchServer.PrepareBody | openprocurement/search/search_server.py:150-210 | `None` with no recognised argument, a bare query for one clause, `bool.must` otherwise; sorted by `dateModified` descending unless another sort is asked for |
| SearchServer.UnknownArgsGiveNoBody | openprocurement/search/search_server.py:201-202 | arguments outside the recognised set give no body |
| SearchServer.PlansLimit | openprocurement/search/search_server.py:233-235 | a missing or empty `limit` gives 10; otherwise it raises iff the text is not an integer, keeps a value in 1..100, and clamps a smaller one to 1 and a larger one to 100 |
| SearchServer.PlansLimitStable | openprocurement/search/search_server.py:233-235 | sending the limit the server used back as `limit` gives the same limit |
| SearchServer.Fuzziness | openprocurement/search/search_server.py:258-260 | fuzziness is 1 for queries longer than 8 characters, else 0 |
| SearchServer.FullTextSearches | openprocurement/search/search_server.py:261-274 | the first search uses that fuzziness; a second, with fuzziness + 1, runs iff the first found nothing |
| SearchServer.OrgSuggest | openprocurement/search/search_server.py:244-275 | a non-empty `edrpou` shorter than 10 gives an exact size-1 query; otherwise an empty or over-50 query is an error, and any other query runs the fuzzy searches |
| SearchServer.OrgSuggestSearches | openprocurement/search/search_server.py:244-275 | one or two searches are sent: the exact lookup iff `edrpou` is non-empty and shorter than 10, and a second, fuzzier full-text search only after an empty first one; nothing is sent iff the code is not short and the query is empty or over 50 characters |
| SearchServer.HeartbeatEndpoint | openprocurement/search/search_server.py:279-287 | the right key adds `index_names` and `index_stats`, a wrong key aborts with 403, no key gives only `heartbeat` |
| SearchServer.HeartbeatDisclosure | openprocurement/search/search_server.py:279-287 | the answer carries `index_names` (and then `index_stats`) iff a non-empty key equals the secret, and is a 403 iff a non-empty key differs from it |
| SearchServer.HeartbeatNonInterference | openprocurement/search/search_server.py:279-287 | without the right key the answer does not depend on the index names or counts |
| SearchServer.RenameList | openprocurement/search/search_server.py:37-41 | each name is renamed by its `rename_` entry when there is one; the count is 0 iff none is renamed, and the list length iff all are |
| SearchServer.RenameIndexNames | openprocurement/search/search_server.py:34-44 | each list is renamed element-wise, and the count is 0 iff no name in any list is renamed |
| SearchServer.NoRenames | openprocurement/search/search_server.py:34-44 | with no `rename_` keys in the configuration nothing changes |
| Cleanup.RecordName | openprocurement/search/clean_indexes.py:35 | the record's `index` string, or an error when it has none |
| Cleanup.ReadError | openprocurement/search/clean_indexes.py:35-36 | a name without `_` fails with `ValueError`; other unreadable records fail with `TypeError`, `KeyError` or `AttributeError` |
| Cleanup.Select | openprocurement/search/clean_indexes.py:34-51 | a name is selected iff its prefix before the last `_` is a names-file key, it is not a current value, its suffix parses, and it was created at least 10 days ago |
| Cleanup.CleanCandidates | openprocurement/search/clean_indexes.py:27-58 | the candidates, as a set, are exactly the stale listed names, and the run raises iff some record is unreadable, with the exception of one of them |
| Cleanup.CleanKeepsCurrent | openprocurement/search/clean_indexes.py:40-42 | a current index is never a candidate |
| Cleanup.CleanStopsOnPlainName | openprocurement/search/clean_indexes.py:36 | a listed name without `_` makes the run raise |
| Cleanup.CleanTwiceSelectsNothing | openprocurement/search/clean_indexes.py:27-58 | after the candidates are deleted, a second run selects nothing |
| Cleanup.DeleteAll | openprocurement/search/clean_indexes.py:61-66 | the deleted names are exactly those starting with `<prefix>_` among the records before the first unreadable one, in order; the run raises iff some record is unreadable, with that record's exception |
| Cleanup.DeleteAllTakesCurrent | openprocurement/search/clean_indexes.py:61-66 | `delete_all` selects `<key>_<created>` even when it is the current index |
| Cleanup.Candidates | openprocurement/search/optimize_indexes.py:64-88 | the queue holds exactly the ripe names (creation time known, at least 1e9 and at least `minage` days old) and the listed twins of ripe names |
| Cleanup.TwinBeforeMain | openprocurement/search/optimize_indexes.py:83-88 | for every list test, each ripe current name whose twin is listed is queued immediately after that twin |
| Cleanup.OptimizeCandidatesAsWritten | openprocurement/search/optimize_indexes.py:64-88 | the source's selection: when the listing holds index records, only current names are ever queued |
| Cleanup.TwinNeverQueued | openprocurement/search/optimize_indexes.py:84-86 | a ripe name whose twin is listed is queued alone |
| Cleanup.OptimizeCandidates | openprocurement/search/optimize_indexes.py:64-88 | the corrected selection queues the twin of every ripe name whose twin is listed |
| Cleanup.OptimizeTwinFirst | openprocurement/search/optimize_indexes.py:83-88 | with the twin looked up by record name, every ripe current name whose twin the backend lists is optimised immediately after that twin, for all inputs |
| Cleanup.TwinQueuedFirst | openprocurement/search/optimize_indexes.py:83-88 | the smallest case: one ripe name and its listed twin queue exactly the twin, then the name |
| Cleanup.RunOptimize | openprocurement/search/optimize_indexes.py:94-98 | optimisation takes the candidates in order while the clock is before `finish_time`, and stops at the first one that is not |
| Cleanup.RunOptimizeAll | openprocurement/search/optimize_indexes.py:94-98 | with time to spare, every candidate is optimised |
| Strs.RSplitOnce | openprocurement/search/index/__init__.py:39 | a string without the separator raises; otherwise the two parts rejoin to the string and the tail holds no separator |
| Strs.RSplitOfJoin | openprocurement/search/index/__init__.py:39 | splitting `a_b` where `b` has no `_` gives back `a` and `b` |
| Strs.ParseIntToStr | openprocurement/search/index/__init__.py:40 | printing an epoch and parsing it back gives the same integer |
| Strs.TakeTwoIs20 | openprocurement/search/source/tender.py:79 | the first two characters are `20` iff the string begins with `20` |

## Left out

- Elasticsearch, HTTP and SQLite: every call is an oracle. The backend is a map, pages and fetch outcomes are sequences or functions, and the organisation database is a lookup function.
- `patch_version`/`long_version`: the `mktime` float version is an uninterpreted function `version` of `dateModified`.
- `sleep`, its 0.1 s decrements and the `indexing_stat` pause are not modelled; they only delay.
- Parallel `get_all`: the gevent branch (10 or more references with concurrency ≥ 2) raises `NameError`, because gevent is not imported; only the sequential branch yields documents.
- Python 2 dictionary iteration and the order of `sorted()` over keys: an explicit `order` parameter enumerates the keys.
- Errors from `get_item` other than not-found are treated as not-found.
- RankUpdate.ProcessSource: the mid-run flush every 10000 processed items is not modelled.
- RankUpdate.FlushLoop: the `orgs_index.process` call inside the flush is not modelled.
- Numeric parsing with `float()` is an oracle `toFloat`.
- Strs.ParseInt: surrounding whitespace is rejected with `ValueError`, while Python's `int()` strips it; a non-ASCII digit is rejected as well.
- Engine.ResolveEach: each `get` is one clock reading, used both for the expiry test and for the `lastsync` stamp of the re-read; Python reads `time()` separately for the two, a difference of microseconds.
- NameStore.Read: a file YAML cannot parse raises a YAML error out of `read()`, which catches only `IOError` and `ValueError`; the model has no such file, since `disk` is either unreadable or a mapping.
- The three-column database row is a single opaque row value.
- Lifecycle.IndexSource: the heartbeats made inside the loop are the boolean oracle `beat`; a slave's in-loop heartbeat that copies the master's names into the names store is not modelled, so the returned store reflects only the name lookup and the first heartbeat.
- Lifecycle.Process: the incremental `index_source()` after the reindex is recorded as the marker `Incremental`; its own pass and count are stated by `IndexSource` and not repeated in the trace.
- RankUpdate.EntityCode: a list or dict id is rejected, where the source would count the 5 to 15 characters of its `str()` text.
- Orgs.CodeText: a list or dict code gives no code, where the source's `str()` would print one.
- NameStore.SetItem: a falsy value is modelled as `''`; assigning `None` to an absent key returns early in the source, and that case is not modelled.
- `set_reindex_options`, `index_created_time`, `retry`, the watchdog helpers, `should_exit`, `cache_get` and `procuring_entity`: these are referenced but not defined in the files modelled, so they become parameters or oracles.
- YAML/JSON load and dump, the Flask app and its config loading, plugin loading, FTP sync and template files are file or process plumbing.
- `engine.optimize_index` and `check_index`: network plumbing, not decision logic.
- `create_index` and `finish_index` are no-ops in the base class, and the model records them as phases.
- The weekday used by `need_reindex` is a parameter, not computed from the clock.
- `index_worker.py`, `test_load.py`, `test_index.py`, `test_search.py`, signal handlers and `fcntl` locks: process plumbing and scripts that need a live service.

## Findings

| source | as written | input that shows it | evidently intended | confidence | as-written member | corrected member |
|---|---|---|---|---|---|---|
| openprocurement/search/engine.py:454-461 | `bulk_index` captures the buffer list, flushes when 100 or more items are buffered, then appends to the captured list, which the flush has already dropped | a buffer of 100 items for one index, a successful flush, and one new item | the new item is buffered after the flush | not executed | Bulk.BulkIndexAsWritten (Bulk.BulkIndexLosesItem) | Bulk.BulkIndex (Bulk.BulkIndexKeepsEverything) |
| openprocurement/search/update_orgs.py:175-177 | the final progress line divides by the number of counted codes | a current index name and an empty `orgs_map` | an empty map flushes nothing and reports nothing | not executed | RankUpdate.FlushAsWritten (RankUpdate.FlushEmptyMapRaises) | RankUpdate.Flush (RankUpdate.FlushAgrees) |
| openprocurement/search/optimize_indexes.py:85 | the `noindex_` twin is looked up in the list of raw `_cat/indices` records, so a name string is never found | records for `tenders_1` and `noindex_tenders_1`, both old enough | the twin is queued right before its main index | not executed | Cleanup.OptimizeCandidatesAsWritten (Cleanup.TwinNeverQueued) | Cleanup.OptimizeCandidates (Cleanup.OptimizeTwinFirst) |

=== FILE: bulk.dfy ===
/** The bulk write path of `IndexEngine` (openprocurement/search/engine.py):
    per-index buffers, the id/version de-duplication of a batch, `flush_bulk`
    with its item-by-item fallback, and `bulk_index`.

    A batch request is an oracle per index name: it either completes, or fails
    after some of its documents have landed.  Python's dict iteration order is
    the `order` parameter, which enumerates the buffered index names once each. */
module Bulk {
  import opened Wrappers
  import opened WriteEngine

  datatype Engine = Engine(backend: Backend, buffer: map<string, seq<Item>>, bulkErrors: bool)

  datatype BatchOutcome = BatchOk | BatchFailed(landed: set<string>)

  /** Every request the flush can make: one batch per index, and the attempts
      `single(index)(j)` of the item-by-item write of the `j`-th buffered item. */
  datatype Net = Net(batch: string -> BatchOutcome, single: string -> nat -> nat -> Attempt)

  /** Items sharing an id share a doc type: an index holds one kind of document. */
  predicate OneTypePerId(items: seq<Item>) {
    forall j, k :: 0 <= j < |items| && 0 <= k < |items| && items[j].meta.id == items[k].meta.id ==>
      items[j].meta.docType == items[k].meta.docType
  }

  /** `bulk_dict` after scanning `items` left to right: stored items are dropped, and a
      repeated id replaces the earlier entry unless that one has a strictly higher version. */
  function Dedup(b: Backend, index: string, items: seq<Item>): (m: map<string, Item>)
    ensures forall id :: id in m ==> m[id].meta.id == id && m[id] in items && !Exists(b, index, m[id].meta)
    ensures forall j :: 0 <= j < |items| && !Exists(b, index, items[j].meta) ==>
      items[j].meta.id in m && items[j].meta.version <= m[items[j].meta.id].meta.version
    decreases |items|
  {
    if |items| == 0 then map[]
    else
      var init := items[..|items| - 1];
      var m0 := Dedup(b, index, init);
      var it := items[|items| - 1];
      assert forall j :: 0 <= j < |items| - 1 ==> items[j] == init[j];
      if Exists(b, index, it.meta) then m0
      else if it.meta.id in m0 && m0[it.meta.id].meta.version > it.meta.version then m0
      else m0[it.meta.id := it]
  }

  /** For each repeated id the batch carries the last item among those with the highest version. */
  lemma {:induction false} DedupKeepsLatestHighest(b: Backend, index: string, items: seq<Item>, j: nat)
    requires j < |items| && !Exists(b, index, items[j].meta)
    requires forall k :: j < k < |items| && items[k].meta.id == items[j].meta.id ==>
      Exists(b, index, items[k].meta) || items[k].meta.version < items[j].meta.version
    requires forall k :: 0 <= k < j && items[k].meta.id == items[j].meta.id ==>
      Exists(b, index, items[k].meta) || items[k].meta.version <= items[j].meta.version
    ensures Dedup(b, index, items)[items[j].meta.id] == items[j]
    decreases |items|
  {
    var init := items[..|items| - 1];
    if j < |items| - 1 {
      DedupKeepsLatestHighest(b, index, init, j);
    } else {
      var m0 := Dedup(b, index, init);
      var id := items[j].meta.id;
      if id in m0 {
        var w := m0[id];
        var k :| 0 <= k < |init| && init[k] == w;
        assert items[k] == w;
      }
    }
  }

  /** The backend after a batch of which the documents with ids in `which` landed.
      Every such document passed `test_exists`, so none meets a version conflict. */
  function ApplyBatch(b: Backend, index: string, m: map<string, Item>, which: set<string>): (r: Backend)
    requires forall id :: id in m ==> m[id].meta.id == id && !Exists(b, index, m[id].meta)
    ensures Grows(b, r)
    ensures forall id :: id in m && id in which ==>
      KeyOf(index, m[id].meta) in r && r[KeyOf(index, m[id].meta)] == Stored(m[id].meta.version, m[id].data)
    ensures forall k :: k in r && (k !in b || r[k] != b[k]) ==>
      exists id :: id in m && id in which && k == KeyOf(index, m[id].meta)
  {
    var writes := map id | id in m && id in which :: KeyOf(index, m[id].meta) := Stored(m[id].meta.version, m[id].data);
    assert forall id :: id in m && id in which ==>
      KeyOf(index, m[id].meta) in writes && writes[KeyOf(index, m[id].meta)] == Stored(m[id].meta.version, m[id].data);
    forall k | k in b && k in writes ensures writes[k].version > b[k].version {
      var id :| id in m && id in which && KeyOf(index, m[id].meta) == k;
      assert !Exists(b, index, m[id].meta);
    }
    b + writes
  }

  /** The item-by-item fallback over `items[j..]`: each item not yet stored goes through
      the single-item retry loop; a raise propagates out of `flush_bulk`.
      Answers the backend it leaves and whether it raised. */
  function Fallback(b: Backend, index: string, items: seq<Item>, ignoreErrors: bool,
                    att: nat -> nat -> Attempt, j: nat): (r: (Backend, bool))
    requires j <= |items|
    ensures Grows(b, r.0)
    ensures !r.1 && !ignoreErrors ==> forall k :: j <= k < |items| ==> Exists(r.0, index, items[k].meta)
    ensures ignoreErrors ==> !r.1
    decreases |items| - j
  {
    if j == |items| then (b, false)
    else
      var it := items[j];
      if Exists(b, index, it.meta) then
        var r := Fallback(b, index, items, ignoreErrors, att, j + 1);
        ExistsStable(b, r.0, index, it.meta);
        r
      else
        var o := IndexItem(b, index, it, ignoreErrors, att(j));
        if o.result == Raised then (o.backend, true)
        else
          var r := Fallback(o.backend, index, items, ignoreErrors, att, j + 1);
          GrowsTransitive(b, o.backend, r.0);
          if !ignoreErrors then ExistsStable(o.backend, r.0, index, it.meta); r
          else r
  }

  datatype FlushStatus = Completed | BatchError | FlushRaised
  datatype Flush = Flush(engine: Engine, status: FlushStatus)

  /** Every buffered item of the indexes `order[i..]` is stored at its version or later. */
  predicate AllStored(b: Backend, buffer: map<string, seq<Item>>, order: seq<string>, i: nat) {
    forall k, j :: i <= k < |order| && order[k] in buffer && 0 <= j < |buffer[order[k]]| ==>
      Exists(b, order[k], buffer[order[k]][j].meta)
  }

  /** A completed batch leaves every item of its buffer stored at its version or later. */
  lemma {:induction false} BatchStoresAll(b: Backend, index: string, items: seq<Item>)
    requires OneTypePerId(items)
    ensures var m := Dedup(b, index, items);
      forall j :: 0 <= j < |items| ==> Exists(ApplyBatch(b, index, m, m.Keys), index, items[j].meta)
  {
    var m := Dedup(b, index, items);
    var b' := ApplyBatch(b, index, m, m.Keys);
    forall j | 0 <= j < |items|
      ensures Exists(b', index, items[j].meta)
    {
      if Exists(b, index, items[j].meta) {
        ExistsStable(b, b', index, items[j].meta);
      } else {
        var id := items[j].meta.id;
        var k :| 0 <= k < |items| && items[k] == m[id];
        assert KeyOf(index, m[id].meta) == KeyOf(index, items[j].meta);
      }
    }
  }

  /** One index's turn in `flush_bulk`: the backend it leaves, and `Completed` when the
      loop goes on to the next index. */
  function FlushOne(b: Backend, index: string, items: seq<Item>, bulkErrors: bool,
                    ignoreErrors: bool, net: Net): (r: (Backend, FlushStatus))
    ensures Grows(b, r.0)
    ensures r.1 == FlushRaised ==> !ignoreErrors
    ensures |items| < 50 || bulkErrors ==> r.1 != BatchError
    ensures r.1 == Completed && !ignoreErrors && OneTypePerId(items) ==>
      forall j :: 0 <= j < |items| ==> Exists(r.0, index, items[j].meta)
  {
    if |items| < 50 || bulkErrors then
      var fb := Fallback(b, index, items, ignoreErrors, net.single(index), 0);
      (fb.0, if fb.1 then FlushRaised else Completed)
    else
      var m := Dedup(b, index, items);
      match net.batch(index)
      case BatchFailed(landed) => (ApplyBatch(b, index, m, landed), BatchError)
      case BatchOk =>
        if OneTypePerId(items) then
          BatchStoresAll(b, index, items);
          (ApplyBatch(b, index, m, m.Keys), Completed)
        else (ApplyBatch(b, index, m, m.Keys), Completed)
  }

  /** The loop of `flush_bulk` from the `i`-th index name on. */
  function FlushFrom(e: Engine, order: seq<string>, i: nat, ignoreErrors: bool, net: Net): (r: Flush)
    requires i <= |order| && forall k :: 0 <= k < |order| ==> order[k] in e.buffer
    ensures Grows(e.backend, r.engine.backend)
    ensures r.status == Completed ==> r.engine.buffer == map[] && !r.engine.bulkErrors
    ensures r.status != Completed ==> r.engine.buffer == e.buffer
    ensures r.status == BatchError ==> r.engine.bulkErrors
    ensures r.status == FlushRaised ==> r.engine.bulkErrors == e.bulkErrors && !ignoreErrors
    decreases |order| - i
  {
    if i == |order| then Flush(e.(buffer := map[], bulkErrors := false), Completed)
    else
      var one := FlushOne(e.backend, order[i], e.buffer[order[i]], e.bulkErrors, ignoreErrors, net);
      match one.1
      case Completed =>
        var r := FlushFrom(e.(backend := one.0), order, i + 1, ignoreErrors, net);
        GrowsTransitive(e.backend, one.0, r.engine.backend);
        r
      case BatchError => Flush(e.(backend := one.0, bulkErrors := true), BatchError)
      case FlushRaised => Flush(e.(backend := one.0), FlushRaised)
  }

  /** A completed pass completed its first index and then the rest. */
  lemma FlushFromStep(e: Engine, order: seq<string>, i: nat, ignoreErrors: bool, net: Net)
    requires i < |order| && forall k :: 0 <= k < |order| ==> order[k] in e.buffer
    requires FlushFrom(e, order, i, ignoreErrors, net).status == Completed
    ensures var one := FlushOne(e.backend, order[i], e.buffer[order[i]], e.bulkErrors, ignoreErrors, net);
      one.1 == Completed &&
      FlushFrom(e, order, i, ignoreErrors, net) == FlushFrom(e.(backend := one.0), order, i + 1, ignoreErrors, net)
  {
  }

  lemma AllStoredExtend(b: Backend, buffer: map<string, seq<Item>>, order: seq<string>, i: nat)
    requires i < |order| && order[i] in buffer && AllStored(b, buffer, order, i + 1)
    requires forall j :: 0 <= j < |buffer[order[i]]| ==> Exists(b, order[i], buffer[order[i]][j].meta)
    ensures AllStored(b, buffer, order, i)
  {
    forall k, j | i <= k < |order| && order[k] in buffer && 0 <= j < |buffer[order[k]]|
      ensures Exists(b, order[k], buffer[order[k]][j].meta)
    {
      if k > i {
        assert i + 1 <= k;
      }
    }
  }

  /** Without `ignore_errors`, a completed pass over `order[i..]` leaves every item of
      those buffers stored at its version or later, whichever path each index took. */
  lemma {:induction false} FlushFromStoresAll(e: Engine, order: seq<string>, i: nat, net: Net)
    requires i <= |order| && forall k :: 0 <= k < |order| ==> order[k] in e.buffer
    requires forall k :: i <= k < |order| ==> OneTypePerId(e.buffer[order[k]])
    requires FlushFrom(e, order, i, false, net).status == Completed
    ensures AllStored(FlushFrom(e, order, i, false, net).engine.backend, e.buffer, order, i)
    decreases |order| - i
  {
    if i < |order| {
      var index := order[i];
      var items := e.buffer[index];
      FlushFromStep(e, order, i, false, net);
      var one := FlushOne(e.backend, index, items, e.bulkErrors, false, net);
      var e1 := e.(backend := one.0);
      var r := FlushFrom(e1, order, i + 1, false, net);
      FlushFromStoresAll(e1, order, i + 1, net);
      forall j | 0 <= j < |items|
        ensures Exists(r.engine.backend, index, items[j].meta)
      {
        ExistsStable(one.0, r.engine.backend, index, items[j].meta);
      }
      AllStoredExtend(r.engine.backend, e.buffer, order, i);
    }
  }

  /** `flush_bulk()`. */
  function FlushBulk(e: Engine, order: seq<string>, ignoreErrors: bool, net: Net): (r: Flush)
    requires IsOrder(order, e.buffer.Keys)
    ensures Grows(e.backend, r.engine.backend)
    ensures r.status == Completed ==> r.engine.buffer == map[] && !r.engine.bulkErrors
    ensures r.status != Completed ==> r.engine.buffer == e.buffer
    ensures r.status == BatchError ==> r.engine.bulkErrors
  {
    FlushFrom(e, order, 0, ignoreErrors, net)
  }

  /** Without `ignore_errors`, a completed flush leaves every item it held stored at its
      version or later, whichever path (batch or item by item) each index took. */
  lemma {:induction false} FlushCompletedStoresAll(e: Engine, order: seq<string>, net: Net)
    requires IsOrder(order, e.buffer.Keys)
    requires forall index :: index in e.buffer ==> OneTypePerId(e.buffer[index])
    requires FlushBulk(e, order, false, net).status == Completed
    ensures forall index, j :: index in e.buffer && 0 <= j < |e.buffer[index]| ==>
      Exists(FlushBulk(e, order, false, net).engine.backend, index, e.buffer[index][j].meta)
  {
    var r := FlushBulk(e, order, false, net);
    FlushFromStoresAll(e, order, 0, net);
    forall index, j | index in e.buffer && 0 <= j < |e.buffer[index]|
      ensures Exists(r.engine.backend, index, e.buffer[index][j].meta)
    {
      var k :| 0 <= k < |order| && order[k] == index;
    }
  }

  /** The buffer map after `bulk_index` adds the list for `index` when it is missing. */
  function WithList(buffer: map<string, seq<Item>>, index: string): (r: map<string, seq<Item>>)
    ensures index in r && r.Keys == buffer.Keys + {index}
  {
    if index in buffer then buffer else buffer[index := []]
  }

  /** `bulk_index(index, item)` as written: the item is appended to the list captured
      before a flush; a completed flush replaces the whole buffer map, so that list is
      no longer reachable.  A raise from the item-by-item fallback propagates. */
  function BulkIndexAsWritten(e: Engine, index: string, it: Item, order: seq<string>,
                              ignoreErrors: bool, net: Net): (r: (Engine, Result<bool>))
    requires IsOrder(order, WithList(e.buffer, index).Keys)
    ensures r.1.Ok? ==> r.1.value
    ensures |WithList(e.buffer, index)[index]| < 100 ==>
      r == (e.(buffer := WithList(e.buffer, index)[index := WithList(e.buffer, index)[index] + [it]]), Ok(true))
  {
    var buf := WithList(e.buffer, index);
    var list := buf[index];
    if |list| >= 100 then
      var f := FlushBulk(e.(buffer := buf), order, ignoreErrors, net);
      match f.status
      case Completed => (f.engine, Ok(true))
      case BatchError => (f.engine.(buffer := f.engine.buffer[index := list + [it]]), Ok(true))
      case FlushRaised => (f.engine, Raise(Transport))
    else (e.(buffer := buf[index := list + [it]]), Ok(true))
  }

  /** The loss: `bulk_index` answers True, yet after a completed flush the item sits in
      no buffer, and it was not part of what the flush wrote. */
  lemma BulkIndexLosesItem(e: Engine, index: string, it: Item, order: seq<string>, ignoreErrors: bool, net: Net)
    requires IsOrder(order, WithList(e.buffer, index).Keys)
    requires |WithList(e.buffer, index)[index]| >= 100
    requires FlushBulk(e.(buffer := WithList(e.buffer, index)), order, ignoreErrors, net).status == Completed
    ensures var r := BulkIndexAsWritten(e, index, it, order, ignoreErrors, net);
      r.1 == Ok(true) && r.0.buffer == map[]
  {
  }

  /** `bulk_index` as evidently intended: after a flush the item goes into the buffer
      that is current then, so an accepted item is always buffered. */
  function BulkIndex(e: Engine, index: string, it: Item, order: seq<string>,
                     ignoreErrors: bool, net: Net): (r: (Engine, Result<bool>))
    requires IsOrder(order, WithList(e.buffer, index).Keys)
    ensures r.1.Ok? ==> r.1.value
    ensures r.1.Ok? ==>
      index in r.0.buffer && |r.0.buffer[index]| > 0 && r.0.buffer[index][|r.0.buffer[index]| - 1] == it
    ensures r.1.Raise? ==> r.0.buffer == WithList(e.buffer, index) && !ignoreErrors
    ensures Grows(e.backend, r.0.backend)
  {
    var buf := WithList(e.buffer, index);
    var list := buf[index];
    if |list| >= 100 then
      var f := FlushBulk(e.(buffer := buf), order, ignoreErrors, net);
      if f.status == FlushRaised then (f.engine, Raise(Transport))
      else
        var cur := WithList(f.engine.buffer, index);
        (f.engine.(buffer := cur[index := cur[index] + [it]]), Ok(true))
    else (e.(buffer := buf[index := list + [it]]), Ok(true))
  }

  /** Nothing accepted is dropped: every item buffered before the call, and the new one,
      is afterwards either still buffered or stored at its version or later. */
  lemma {:induction false} BulkIndexKeepsEverything(e: Engine, index: string, it: Item, order: seq<string>, net: Net)
    requires IsOrder(order, WithList(e.buffer, index).Keys)
    requires forall x :: x in e.buffer ==> OneTypePerId(e.buffer[x])
    requires BulkIndex(e, index, it, order, false, net).1.Ok?
    ensures var r := BulkIndex(e, index, it, order, false, net).0;
      forall x, j :: x in e.buffer && 0 <= j < |e.buffer[x]| ==>
        (x in r.buffer && e.buffer[x][j] in r.buffer[x]) || Exists(r.backend, x, e.buffer[x][j].meta)
  {
    var buf := WithList(e.buffer, index);
    var r := BulkIndex(e, index, it, order, false, net).0;
    if |buf[index]| >= 100 {
      var e1 := e.(buffer := buf);
      var f := FlushBulk(e1, order, false, net);
      if f.status == Completed {
        forall x | x in buf ensures OneTypePerId(buf[x]) {
        }
        FlushCompletedStoresAll(e1, order, net);
        forall x, j | x in e.buffer && 0 <= j < |e.buffer[x]|
          ensures Exists(r.backend, x, e.buffer[x][j].meta)
        {
          assert e.buffer[x] == buf[x];
        }
      } else {
        forall x, j | x in e.buffer && 0 <= j < |e.buffer[x]|
          ensures x in r.buffer && e.buffer[x][j] in r.buffer[x]
        {
          if x == index {
            assert r.buffer[x] == e.buffer[x] + [it];
            assert r.buffer[x][j] == e.buffer[x][j];
          } else {
            assert r.buffer[x] == buf[x];
          }
        }
      }
    } else {
      forall x, j | x in e.buffer && 0 <= j < |e.buffer[x]|
        ensures x in r.buffer && e.buffer[x][j] in r.buffer[x]
      {
        if x == index {
          assert r.buffer[x][j] == e.buffer[x][j];
        }
      }
    }
  }
}

=== FILE: cleanup.dfy ===
/** The maintenance tools: which indexes `clean_indexes` deletes (all but the current
    and the fresh ones of a known family, or with `--all` every index of a family), and
    which `optimize_indexes` optimises, in what order and for how long
    (openprocurement/search/clean_indexes.py, openprocurement/search/optimize_indexes.py).

    The backend's index list is the raw `_cat/indices` records (JSON values), the names
    file is a map from index key to current index name, and the clock is an integer
    number of seconds.  The tools' HTTP calls are left out: the model returns the names
    they would be applied to. */
module Cleanup {
  import opened Wrappers
  import opened Strs
  import opened Json

  /** `index['index']`: a record's name.  A non-dict record raises `TypeError`, a
      missing key `KeyError`, and a non-string name `AttributeError` at `rsplit`. */
  function RecordName(rec: Json): (r: Result<string>)
    ensures r.Ok? <==> Has(rec, "index") && rec.fields["index"].JStr?
    ensures r.Ok? ==> r.value == rec.fields["index"].s
  {
    if !rec.JObj? then Raise(TypeError)
    else if "index" !in rec.fields then Raise(KeyError)
    else match rec.fields["index"]
      case JStr(s) => Ok(s)
      case _ => Raise(AttributeError)
  }

  /** Ten days, the age below which `clean_indexes` keeps an index. */
  const FreshAge := 10 * 24 * 3600

  /** Whether `clean_indexes` deletes an index called `name`: its family (the part
      before the last `_`) is a key of the names file, it is not a current name, and
      its suffix is an integer creation time at least ten days old. */
  predicate Stale(name: string, names: map<string, string>, now: int) {
    var parts := RSplitOnce(name, '_');
    parts.Ok? && parts.value.0 in names && name !in names.Values
    && ParseInt(parts.value.1).Ok? && ParseInt(parts.value.1).value <= now - FreshAge
  }

  /** Whether the selection loop can read a record: it is a dict whose `index` is a
      string containing `_` (outside the `try`, anything else raises). */
  predicate Readable(rec: Json) {
    RecordName(rec).Ok? && RSplitOnce(RecordName(rec).value, '_').Ok?
  }

  predicate AllReadable(records: seq<Json>) {
    forall i :: 0 <= i < |records| ==> Readable(records[i])
  }

  /** The name of a record that can be read. */
  function NameOf(rec: Json): string
    requires RecordName(rec).Ok?
  {
    RecordName(rec).value
  }

  /** The names of readable records, in order. */
  function Names(records: seq<Json>): (r: seq<string>)
    requires AllReadable(records)
    ensures |r| == |records| && forall i :: 0 <= i < |records| ==> r[i] == NameOf(records[i])
  {
    if |records| == 0 then []
    else
      assert forall i :: 1 <= i < |records| ==> records[1..][i - 1] == records[i];
      [NameOf(records[0])] + Names(records[1..])
  }

  /** The exception an unreadable record raises. */
  function ReadError(rec: Json): (e: Exc)
    requires !Readable(rec)
    ensures e in {TypeError, KeyError, AttributeError, ValueError}
    ensures RecordName(rec).Ok? ==> e == ValueError
  {
    match RecordName(rec)
    case Raise(e) => e
    case Ok(_) => ValueError
  }

  /** The exception of the first unreadable record. */
  function FirstError(records: seq<Json>): (e: Exc)
    requires !AllReadable(records)
    ensures exists i :: 0 <= i < |records| && !Readable(records[i]) && e == ReadError(records[i])
  {
    if !Readable(records[0]) then ReadError(records[0])
    else
      var e := FirstError(records[1..]);
      assert forall i :: 1 <= i < |records| ==> records[i] == records[1..][i - 1];
      e
  }

  /** The stale names among `ns`, in order. */
  function Select(ns: seq<string>, names: map<string, string>, now: int): (r: seq<string>)
    ensures forall x :: x in r <==> x in ns && Stale(x, names, now)
    ensures (forall x :: x in ns ==> !Stale(x, names, now)) ==> r == []
  {
    if |ns| == 0 then []
    else
      var rest := Select(ns[1..], names, now);
      assert forall x :: x in ns <==> x == ns[0] || x in ns[1..];
      if Stale(ns[0], names, now) then [ns[0]] + rest else rest
  }

  /** `process_all` of `clean_indexes`: the names to delete.  The source walks
      `sorted(index_list)`, an order over dicts that is not modelled, so the names are
      stated as a set.  The selection loop reads every record before anything is
      deleted, so a record it cannot read raises and nothing is deleted. */
  function CleanCandidates(records: seq<Json>, names: map<string, string>, now: int): (r: Result<seq<string>>)
    ensures r.Ok? <==> AllReadable(records)
    ensures r.Raise? ==> exists i :: 0 <= i < |records| && !Readable(records[i]) && r.exc == ReadError(records[i])
    ensures r.Ok? ==> forall x :: x in r.value <==> x in Names(records) && Stale(x, names, now)
  {
    if AllReadable(records) then Ok(Select(Names(records), names, now))
    else Raise(FirstError(records))
  }

  /** A current index is never deleted, whatever its age. */
  lemma CleanKeepsCurrent(records: seq<Json>, names: map<string, string>, now: int, key: string)
    requires key in names
    requires CleanCandidates(records, names, now).Ok?
    ensures names[key] !in CleanCandidates(records, names, now).value
  {
  }

  /** A name without `_` in the backend's list stops the whole run. */
  lemma CleanStopsOnPlainName(records: seq<Json>, names: map<string, string>, now: int, plain: string)
    requires forall j :: 0 <= j < |plain| ==> plain[j] != '_'
    requires JObj(map["index" := JStr(plain)]) in records
    ensures CleanCandidates(records, names, now).Raise?
  {
    var i :| 0 <= i < |records| && records[i] == JObj(map["index" := JStr(plain)]);
    assert !Readable(records[i]);
  }

  /** The records whose names were not selected. */
  function Remaining(records: seq<Json>, deleted: seq<string>): (r: seq<Json>)
    requires AllReadable(records)
    ensures AllReadable(r)
    ensures forall x :: x in Names(r) <==> x in Names(records) && x !in deleted
  {
    if |records| == 0 then []
    else
      var rest := Remaining(records[1..], deleted);
      if NameOf(records[0]) in deleted then rest
      else
        assert ([records[0]] + rest)[1..] == rest;
        [records[0]] + rest
  }

  /** Cleaning is idempotent: once the selected indexes are gone, a second run at the
      same time selects nothing. */
  lemma CleanTwiceSelectsNothing(records: seq<Json>, names: map<string, string>, now: int)
    requires CleanCandidates(records, names, now).Ok?
    ensures var left := Remaining(records, CleanCandidates(records, names, now).value);
      CleanCandidates(left, names, now) == Ok([])
  {
    var deleted := CleanCandidates(records, names, now).value;
    var left := Remaining(records, deleted);
    var again := Select(Names(left), names, now);
    forall x | x in Names(left) ensures !Stale(x, names, now) {
      assert x in Names(records) && x !in deleted;
    }
  }

  /** The position of the first record whose name cannot be read, or `|records|`. */
  function FirstUnnamed(records: seq<Json>): (i: nat)
    ensures i <= |records|
    ensures forall j :: 0 <= j < i ==> RecordName(records[j]).Ok?
    ensures i < |records| ==> RecordName(records[i]).Raise?
  {
    if |records| == 0 || RecordName(records[0]).Raise? then 0
    else
      var i := FirstUnnamed(records[1..]);
      assert forall j :: 1 <= j < i + 1 ==> records[j] == records[1..][j - 1];
      i + 1
  }

  /** The names of the family `prefix` among records that all have a name, in order. */
  function Matching(records: seq<Json>, prefix: string): (r: seq<string>)
    requires forall j :: 0 <= j < |records| ==> RecordName(records[j]).Ok?
    ensures forall x :: x in r ==> StartsWith(x, prefix + "_")
    ensures forall j :: 0 <= j < |records| && StartsWith(NameOf(records[j]), prefix + "_") ==> NameOf(records[j]) in r
  {
    if |records| == 0 then []
    else
      assert forall j :: 1 <= j < |records| ==> records[j] == records[1..][j - 1];
      var rest := Matching(records[1..], prefix);
      if StartsWith(NameOf(records[0]), prefix + "_") then [NameOf(records[0])] + rest else rest
  }

  /** `delete_all(prefix)`: every index of the family, current ones included, deleted
      one by one as the loop meets them.  A record without a readable name raises
      there, after the family's names before it were deleted. */
  function DeleteAll(records: seq<Json>, prefix: string): (r: (seq<string>, Option<Exc>))
    ensures r.1.None? <==> forall i :: 0 <= i < |records| ==> RecordName(records[i]).Ok?
    ensures r.0 == Matching(records[..FirstUnnamed(records)], prefix)
    ensures r.1.Some? ==> r.1.value == RecordName(records[FirstUnnamed(records)]).exc
    ensures forall x :: x in r.0 ==> StartsWith(x, prefix + "_")
    ensures r.1.None? ==>
      forall i :: 0 <= i < |records| && StartsWith(NameOf(records[i]), prefix + "_") ==> NameOf(records[i]) in r.0
    decreases |records|
  {
    if |records| == 0 then ([], None)
    else
      match RecordName(records[0])
      case Raise(e) => ([], Some(e))
      case Ok(name) =>
        var rest := DeleteAll(records[1..], prefix);
        assert forall i :: 1 <= i < |records| ==> records[i] == records[1..][i - 1];
        var i := FirstUnnamed(records);
        assert records[..i][1..] == records[1..][..i - 1];
        assert records[..i][0] == records[0];
        (if StartsWith(name, prefix + "_") then [name] + rest.0 else rest.0, rest.1)
  }

  /** With `--all` the current index of a family is deleted with the others, unlike a
      plain run. */
  lemma DeleteAllTakesCurrent(records: seq<Json>, key: string, created: string)
    requires forall i :: 0 <= i < |records| ==> RecordName(records[i]).Ok?
    requires exists i :: 0 <= i < |records| && NameOf(records[i]) == key + "_" + created
    ensures key + "_" + created in DeleteAll(records, key).0
  {
    var i :| 0 <= i < |records| && NameOf(records[i]) == key + "_" + created;
    assert (key + "_" + created)[..|key + "_"|] == key + "_";
  }

  // ---------------------------------------------------------------- optimize

  /** The earliest creation time `optimize_indexes` believes (1e9 seconds, 2001). */
  const MinCreated := 1000000000

  /** Whether `optimize_indexes` optimises a current index: its creation time is known
      (`created` is `None` where the name-to-time parser raises `ValueError`), not
      implausibly early, and at least `minage` days old. */
  predicate Ripe(name: string, created: string -> Option<int>, now: int, minage: int) {
    created(name).Some? && created(name).value >= MinCreated && created(name).value <= now - minage * 86400
  }

  /** The twin that holds the same data without the search analysers. */
  function Twin(name: string): string {
    "noindex_" + name
  }

  /** `process_all` of `optimize_indexes` for a given test of whether a name is on the
      index list: each ripe current index, its twin first when listed. */
  function Candidates(current: seq<string>, listed: string -> bool, created: string -> Option<int>,
                      now: int, minage: int): (r: seq<string>)
    ensures forall n :: n in current && Ripe(n, created, now, minage) ==> n in r
    ensures forall n :: n in current && Ripe(n, created, now, minage) && listed(Twin(n)) ==> Twin(n) in r
    ensures forall x :: x in r ==>
      (x in current && Ripe(x, created, now, minage))
      || (exists n :: n in current && Ripe(n, created, now, minage) && listed(Twin(n)) && x == Twin(n))
    ensures current == [] ==> r == []
    decreases |current|
  {
    if |current| == 0 then []
    else
      var n := current[0];
      var rest := Candidates(current[1..], listed, created, now, minage);
      assert forall m :: m in current ==> m == n || m in current[1..];
      var group := if !Ripe(n, created, now, minage) then []
                   else if listed(Twin(n)) then [Twin(n), n] else [n];
      group + rest
  }

  /** `x` is directly followed by `y` somewhere in `r`. */
  predicate Adjacent(r: seq<string>, x: string, y: string) {
    exists j :: 0 <= j < |r| - 1 && r[j] == x && r[j + 1] == y
  }

  /** Adjacency survives putting anything in front. */
  lemma AdjacentAfter(a: seq<string>, b: seq<string>, x: string, y: string)
    requires Adjacent(b, x, y)
    ensures Adjacent(a + b, x, y)
  {
    var j :| 0 <= j < |b| - 1 && b[j] == x && b[j + 1] == y;
    assert (a + b)[|a| + j] == x && (a + b)[|a| + j + 1] == y;
  }

  /** Every ripe current index whose twin is listed is queued immediately after that
      twin: the "noindex first, then the main index" order of `process_all`. */
  lemma {:induction false} TwinBeforeMain(current: seq<string>, listed: string -> bool, created: string -> Option<int>,
                                          now: int, minage: int, n: string)
    requires n in current && Ripe(n, created, now, minage) && listed(Twin(n))
    ensures Adjacent(Candidates(current, listed, created, now, minage), Twin(n), n)
    decreases |current|
  {
    var m := current[0];
    var rest := Candidates(current[1..], listed, created, now, minage);
    var group := if !Ripe(m, created, now, minage) then []
                 else if listed(Twin(m)) then [Twin(m), m] else [m];
    assert Candidates(current, listed, created, now, minage) == group + rest;
    if m == n {
      assert (group + rest)[0] == Twin(n) && (group + rest)[1] == n;
    } else {
      assert n in current[1..];
      TwinBeforeMain(current[1..], listed, created, now, minage, n);
      AdjacentAfter(group, rest, Twin(n), n);
    }
  }

  /** The list test as written: the twin's name is compared with the raw records. */
  predicate ListedAsWritten(records: seq<Json>, name: string) {
    JStr(name) in records
  }

  /** `process_all` as written, over the raw `_cat/indices` records. */
  function OptimizeCandidatesAsWritten(current: seq<string>, records: seq<Json>, created: string -> Option<int>,
                                       now: int, minage: int): (r: seq<string>)
    ensures (forall i :: 0 <= i < |records| ==> records[i].JObj?) ==>
      forall x :: x in r ==> x in current
  {
    Candidates(current, t => ListedAsWritten(records, t), created, now, minage)
  }

  /** The records are dicts, so the twin test never holds and a twin is never queued,
      even when the backend has one. */
  lemma TwinNeverQueued(name: string, created: string -> Option<int>, now: int, minage: int)
    requires Ripe(name, created, now, minage)
    ensures var records := [JObj(map["index" := JStr(Twin(name))]), JObj(map["index" := JStr(name)])];
      OptimizeCandidatesAsWritten([name], records, created, now, minage) == [name]
  {
  }

  /** The list test as intended: some record is named after the twin. */
  predicate Listed(records: seq<Json>, name: string) {
    exists i :: 0 <= i < |records| && Get(records[i], "index") == JStr(name)
  }

  /** The intended list test as the function `process_all` consults. */
  function ListedIn(records: seq<Json>): string -> bool {
    t => Listed(records, t)
  }

  /** `process_all` with the twin looked up by record name. */
  function OptimizeCandidates(current: seq<string>, records: seq<Json>, created: string -> Option<int>,
                              now: int, minage: int): (r: seq<string>)
    ensures forall n :: n in current && Ripe(n, created, now, minage) && Listed(records, Twin(n)) ==> Twin(n) in r
  {
    Candidates(current, ListedIn(records), created, now, minage)
  }

  /** With the twin looked up by record name, every ripe current index whose twin the
      backend lists is optimised right after that twin. */
  lemma OptimizeTwinFirst(current: seq<string>, records: seq<Json>, created: string -> Option<int>,
                          now: int, minage: int, n: string)
    requires n in current && Ripe(n, created, now, minage) && Listed(records, Twin(n))
    ensures Adjacent(OptimizeCandidates(current, records, created, now, minage), Twin(n), n)
  {
    TwinBeforeMain(current, ListedIn(records), created, now, minage, n);
  }

  /** The smallest such listing: one ripe index and its twin give exactly the twin, then
      the index. */
  lemma TwinQueuedFirst(name: string, created: string -> Option<int>, now: int, minage: int)
    requires Ripe(name, created, now, minage)
    ensures var records := [JObj(map["index" := JStr(Twin(name))]), JObj(map["index" := JStr(name)])];
      OptimizeCandidates([name], records, created, now, minage) == [Twin(name), name]
  {
    var records := [JObj(map["index" := JStr(Twin(name))]), JObj(map["index" := JStr(name)])];
    assert Get(records[0], "index") == JStr(Twin(name));
  }

  /** `Options.finish_time`: `maxwork` hours after the start. */
  function FinishTime(start: int, maxwork: int): int {
    start + 3600 * maxwork
  }

  /** The optimisation loop: before each index the clock is read (`clock(i)` before the
      `i`-th), and the loop stops once it reaches `finish`.  The result is the indexes
      optimised. */
  function RunOptimize(candidates: seq<string>, clock: nat -> int, finish: int, i: nat): (r: seq<string>)
    requires i <= |candidates|
    ensures |r| <= |candidates| - i && r == candidates[i..i + |r|]
    ensures forall j :: i <= j < i + |r| ==> clock(j) < finish
    ensures i + |r| < |candidates| ==> clock(i + |r|) >= finish
    decreases |candidates| - i
  {
    if i == |candidates| || clock(i) >= finish then []
    else [candidates[i]] + RunOptimize(candidates, clock, finish, i + 1)
  }

  /** Past the finish time nothing more is optimised; with a clock that never reaches
      it, every candidate is. */
  lemma {:induction false} RunOptimizeAll(candidates: seq<string>, clock: nat -> int, finish: int, i: nat)
    requires i <= |candidates|
    requires forall j :: clock(j) < finish
    ensures RunOptimize(candidates, clock, finish, i) == candidates[i..]
    decreases |candidates| - i
  {
    if i < |candidates| {
      RunOptimizeAll(candidates, clock, finish, i + 1);
    }
  }
}

=== FILE: engine.dfy ===
/** The name-resolution, heartbeat and search-shaping parts of `SearchEngine` /
    `IndexEngine` (openprocurement/search/engine.py).

    The names database is the `NameStore` model.  The heartbeat file holds the text
    the master writes; the master's heartbeat endpoint, as seen by a slave, is an
    oracle answer per call.  Time is whole seconds. */
module Engine {
  import opened Wrappers
  import opened Strs
  import opened Json
  import NameStore

  /** Python's `str(name)` for an optional string: `None` prints as `'None'`. */
  function PyStr(name: Option<string>): (r: string)
    ensures name.Some? ==> r == name.value
    ensures name.None? ==> r == "None" && r != ""
  {
    match name
    case Some(n) => n
    case None => "None"
  }

  /** `set_index(key, name)`: the store is assigned `str(name)`, so `None` is stored
      as the non-empty string `'None'` instead of removing the key. */
  function SetIndex(s: NameStore.Store, now: int, key: string, name: Option<string>): (r: NameStore.Step)
    ensures name.None? && NameStore.Synced(s) ==>
      !r.raised && key in r.store.cache && r.store.cache[key] == "None"
  {
    NameStore.SetItem(s, now, key, PyStr(name))
  }

  /** `get_index(key)` as a truthy name: `None` for a missing key and for `''`. */
  function GetName(s: NameStore.Store, now: int, key: string): (r: (NameStore.Store, Option<string>))
    ensures r.0 == NameStore.Get(s, now, key).store
    ensures r.1.Some? <==> key in r.0.cache && r.0.cache[key] != ""
    ensures r.1.Some? ==> r.1.value == r.0.cache[key]
  {
    var l := NameStore.Get(s, now, key);
    (l.store, if l.value.Some? && l.value.value != "" then l.value else None)
  }

  /** The generation one key resolves to in a fixed names map: the current name,
      else `<key>.prev`, else `<key>.next`; `None` when all three are unset or empty. */
  function Resolve(c: map<string, string>, key: string): (r: Option<string>)
    ensures r.Some? ==> r.value != ""
    ensures key in c && c[key] != "" ==> r == Some(c[key])
    ensures r.None? <==>
      (key !in c || c[key] == "") && (key + ".prev" !in c || c[key + ".prev"] == "") &&
      (key + ".next" !in c || c[key + ".next"] == "")
    ensures !(key in c && c[key] != "") && key + ".prev" in c && c[key + ".prev"] != "" ==>
      r == Some(c[key + ".prev"])
    ensures !(key in c && c[key] != "") && !(key + ".prev" in c && c[key + ".prev"] != "") &&
            key + ".next" in c && c[key + ".next"] != "" ==>
      r == Some(c[key + ".next"])
  {
    if key in c && c[key] != "" then Some(c[key])
    else if key + ".prev" in c && c[key + ".prev"] != "" then Some(c[key + ".prev"])
    else if key + ".next" in c && c[key + ".next"] != "" then Some(c[key + ".next"])
    else None
  }

  /** The resolved names of `keys`, in order, unresolved keys dropped. */
  function Resolved(c: map<string, string>, keys: seq<string>): (r: seq<string>)
    ensures |r| <= |keys|
    ensures forall j :: 0 <= j < |r| ==> r[j] != ""
    ensures (forall j :: 0 <= j < |keys| ==> Resolve(c, keys[j]).Some?) ==>
      |r| == |keys| && forall j :: 0 <= j < |keys| ==> r[j] == Resolve(c, keys[j]).value
  {
    if |keys| == 0 then []
    else
      var rest := Resolved(c, keys[1..]);
      match Resolve(c, keys[0])
      case Some(n) => [n] + rest
      case None => rest
  }

  /** The wall clock: `clock(i)` is the value of `time()` at the `i`-th lookup. */
  type Clock = nat -> int

  /** One `get_index` lookup at clock reading `t`: the store it leaves, the name found,
      and the next reading. */
  function Lookup(s: NameStore.Store, clock: Clock, t: nat, key: string): (r: (NameStore.Store, Option<string>, nat))
    ensures (r.0, r.1) == GetName(s, clock(t), key) && r.2 == t + 1
  {
    var g := GetName(s, clock(t), key);
    (g.0, g.1, t + 1)
  }

  /** The loop of `get_current_indexes`: each key takes one to three lookups, and every
      lookup reads the clock afresh, so it may re-read the file.  Answers the store it
      leaves, the names found and the next clock reading. */
  function ResolveEach(s: NameStore.Store, clock: Clock, t: nat, keys: seq<string>): (r: (NameStore.Store, seq<string>, nat))
    ensures r.0.disk == s.disk && r.0.expire == s.expire
    ensures |r.1| <= |keys|
    ensures t + |keys| <= r.2 <= t + 3 * |keys|
    decreases |keys|
  {
    if |keys| == 0 then (s, [], t)
    else
      var key := keys[0];
      var g1 := Lookup(s, clock, t, key);
      var g2 := if g1.1.Some? then g1 else Lookup(g1.0, clock, g1.2, key + ".prev");
      var g3 := if g2.1.Some? then g2 else Lookup(g2.0, clock, g2.2, key + ".next");
      var rest := ResolveEach(g3.0, clock, g3.2, keys[1..]);
      (rest.0, if g3.1.Some? then [g3.1.value] + rest.1 else rest.1, rest.2)
  }

  /** No lookup among the `n` readings from `t` on crosses the expiry: each leaves the
      store that the first reading's refresh gave. */
  predicate NoCrossing(s: NameStore.Store, clock: Clock, t: nat, n: nat) {
    var s' := NameStore.Refresh(s, clock(t));
    forall i :: t <= i < t + n ==> NameStore.Refresh(s', clock(i)) == s'
  }

  /** `get_current_indexes(keys)`: the comma-joined resolved names.  When no lookup
      crosses the expiry, the lookups see one snapshot of the names map and the answer
      is `Resolved` over it. */
  function GetCurrentIndexes(s: NameStore.Store, clock: Clock, t: nat, keys: seq<string>): (r: (NameStore.Store, string))
    ensures r.0.disk == s.disk
    ensures NoCrossing(s, clock, t, 3 * |keys|) ==>
      r.1 == Join(Resolved(NameStore.Refresh(s, clock(t)).cache, keys), ",")
    ensures NoCrossing(s, clock, t, 3 * |keys|) && |keys| > 0 ==> r.0 == NameStore.Refresh(s, clock(t))
  {
    var e := ResolveEach(s, clock, t, keys);
    if NoCrossing(s, clock, t, 3 * |keys|) then
      ResolveEachIsSnapshot(s, clock, t, keys);
      (e.0, Join(e.1, ","))
    else (e.0, Join(e.1, ","))
  }

  /** While no lookup crosses the expiry, the store re-reads at most once, at the first
      lookup, so every lookup sees one snapshot of the names map: the result is
      `Resolved` over it. */
  lemma {:induction false} ResolveEachIsSnapshot(s: NameStore.Store, clock: Clock, t: nat, keys: seq<string>)
    requires NoCrossing(s, clock, t, 3 * |keys|)
    ensures ResolveEach(s, clock, t, keys).1 == Resolved(NameStore.Refresh(s, clock(t)).cache, keys)
    ensures |keys| > 0 ==> ResolveEach(s, clock, t, keys).0 == NameStore.Refresh(s, clock(t))
    decreases |keys|
  {
    if |keys| > 0 {
      var s' := NameStore.Refresh(s, clock(t));
      var key := keys[0];
      var g1 := Lookup(s, clock, t, key);
      assert g1.0 == s';
      var g2 := if g1.1.Some? then g1 else Lookup(g1.0, clock, g1.2, key + ".prev");
      assert g2.0 == s' && g2.2 <= t + 2 by {
        if g1.1.None? {
          assert NameStore.Refresh(s', clock(t + 1)) == s';
        }
      }
      var g3 := if g2.1.Some? then g2 else Lookup(g2.0, clock, g2.2, key + ".next");
      assert g3.0 == s' && g3.2 <= t + 3 by {
        if g2.1.None? {
          assert NameStore.Refresh(s', clock(g2.2)) == s';
        }
      }
      assert g3.1 == Resolve(s'.cache, key);
      if |keys| > 1 {
        assert NameStore.Refresh(s', clock(g3.2)) == s';
      }
      assert NoCrossing(s', clock, g3.2, 3 * |keys[1..]|);
      ResolveEachIsSnapshot(s', clock, g3.2, keys[1..]);
    }
  }

  /** With a single clock reading for the whole call (and a non-negative expiry) no
      lookup crosses the expiry, so the answer is `Resolved` over one refreshed map. */
  lemma OneReadingIsSnapshot(s: NameStore.Store, now: int, keys: seq<string>)
    requires s.expire >= 0
    ensures GetCurrentIndexes(s, _ => now, 0, keys).1 == Join(Resolved(NameStore.Refresh(s, now).cache, keys), ",")
  {
    NameStore.RefreshIdempotent(s, now);
    assert NoCrossing(s, _ => now, 0, 3 * |keys|);
  }

  /** A lookup that does cross the expiry can see another map: after a `pop` left the
      cache behind the file, the first key misses in the cache and the second, read
      after the expiry, is found in the file; no single map gives both answers. */
  lemma CrossingSeesTwoMaps()
    ensures var s := NameStore.Store(map[], Some(map["a" := "a_1", "b" := "b_1"]), 0, 1);
      var clock: Clock := i => if i < 3 then 0 else 5;
      GetCurrentIndexes(s, clock, 0, ["a", "b"]).1 == "b_1"
      && Resolved(s.cache, ["a", "b"]) == []
      && Resolved(s.disk.value, ["a", "b"]) == ["a_1", "b_1"]
  {
    var s := NameStore.Store(map[], Some(map["a" := "a_1", "b" := "b_1"]), 0, 1);
    var clock: Clock := i => if i < 3 then 0 else 5;
    var e := ResolveEach(s, clock, 0, ["a", "b"]);
    assert ["a", "b"][1..] == ["b"];
    assert e.1 == ["b_1"];
  }

  /** With every key resolvable and no lookup crossing the expiry, the answer lists one
      name per key in key order. */
  lemma AllResolved(s: NameStore.Store, clock: Clock, t: nat, keys: seq<string>)
    requires NoCrossing(s, clock, t, 3 * |keys|)
    requires forall j :: 0 <= j < |keys| ==> Resolve(NameStore.Refresh(s, clock(t)).cache, keys[j]).Some?
    ensures var names := ResolveEach(s, clock, t, keys).1;
      |names| == |keys| &&
      forall j :: 0 <= j < |keys| ==> names[j] == Resolve(NameStore.Refresh(s, clock(t)).cache, keys[j]).value
  {
    ResolveEachIsSnapshot(s, clock, t, keys);
  }

  /** `index_by_type(doc_type, item)`: the position of the index that receives the
      push.  The loop breaks after its first iteration, so only the first registered
      index is ever consulted. */
  function IndexByType(docTypes: seq<string>, docType: string): (r: Option<nat>)
    ensures r.Some? <==> |docTypes| > 0 && docTypes[0] == docType
    ensures r.Some? ==> r.value == 0
  {
    if |docTypes| > 0 && docTypes[0] == docType then Some(0) else None
  }

  /** A matching index registered after a non-matching first one is never used. */
  lemma IndexByTypeOnlyFirst(docTypes: seq<string>, docType: string, j: nat)
    requires 0 < j < |docTypes| && docTypes[j] == docType && docTypes[0] != docType
    ensures IndexByType(docTypes, docType).None?
  {
  }

  // ---------------------------------------------------------------- heartbeat

  /** The heartbeat state of an engine: the last value the master wrote, the text of
      the `.beat` file (`None` when it does not exist), the slave's cached answer and
      when it was fetched (`0` before the first check). */
  datatype Beat = Beat(
    lastSaved: int,
    file: Option<string>,
    lastCheck: int,
    lastValue: int)

  /** Text written by `"%d\n" % value`. */
  function BeatText(value: int): (t: string)
    ensures |t| > 0 && t[|t| - 1] == '\n'
  {
    IntToStr(value) + "\n"
  }

  /** Python's `int(text)` on a line of file text: a trailing newline is ignored. */
  function ParseLine(t: string): (r: Result<int>)
    ensures |t| > 0 && t[|t| - 1] != '\n' ==> r == ParseInt(t)
  {
    if |t| > 0 && t[|t| - 1] == '\n' then ParseInt(t[..|t| - 1]) else ParseInt(t)
  }

  /** `master_heartbeat(value)` with a truthy value: a value less than 10 s after the
      last saved one is returned without touching the file; otherwise it is saved and
      written. */
  function MasterHeartbeatSave(b: Beat, value: int): (r: (Beat, int))
    requires value != 0
    ensures r.1 == value
    ensures value - b.lastSaved < 10 ==> r.0 == b
    ensures value - b.lastSaved >= 10 ==>
      r.0 == b.(lastSaved := value, file := Some(BeatText(value)))
  {
    if value - b.lastSaved < 10 then (b, value)
    else (b.(lastSaved := value, file := Some(BeatText(value))), value)
  }

  /** `master_heartbeat()` with no value: the file is read; empty text counts as 0,
      a missing file raises, and text that is not a number raises `ValueError`. */
  function MasterHeartbeatRead(b: Beat): (r: Result<int>)
    ensures b.file.None? ==> r == Raise(IOError)
    ensures b.file == Some("") ==> r == Ok(0)
  {
    match b.file
    case None => Raise(IOError)
    case Some(t) => if t == "" then Ok(0) else ParseLine(t)
  }

  /** What one master write leaves in the file reads back as the value written. */
  lemma {:induction false} HeartbeatRoundTrip(b: Beat, value: int)
    requires value != 0 && value - b.lastSaved >= 10
    ensures MasterHeartbeatRead(MasterHeartbeatSave(b, value).0) == Ok(value)
  {
    ParseIntToStr(value);
    var t := BeatText(value);
    assert t[..|t| - 1] == IntToStr(value);
  }

  /** Heartbeats less than ten seconds apart write the file once. */
  lemma HeartbeatThrottle(b: Beat, v1: int, v2: int)
    requires v1 != 0 && v2 != 0 && v1 - b.lastSaved >= 10 && v1 <= v2 < v1 + 10
    ensures var b1 := MasterHeartbeatSave(b, v1).0;
      MasterHeartbeatSave(b1, v2).0 == b1 && b1.file == Some(BeatText(v1))
  {
  }

  /** The master's answer to one heartbeat request, as the slave parses it: the
      heartbeat value and, optionally, the master's index names. */
  datatype MasterReply = MasterReply(heartbeat: int, indexNames: Option<map<string, string>>)

  datatype TestBeat = TestBeat(beat: Beat, names: NameStore.Store, value: int, fetched: bool)

  /** `test_heartbeat()`: the first call pretends the master beat now; an answer
      younger than 60 s is served from the cache; otherwise the master is asked
      (`reply`, `None` when the request fails, in which case the last value is kept),
      its index names replace the local names file, and the answer is cached. */
  function TestHeartbeat(b: Beat, names: NameStore.Store, now: int, reply: Option<MasterReply>): (r: TestBeat)
    ensures var b0 := if b.lastCheck == 0 then b.(lastCheck := 1, lastValue := now) else b;
      now - b0.lastCheck < 60 ==> r == TestBeat(b0, names, b0.lastValue, false)
    ensures r.fetched ==> r.beat.lastCheck == now
    ensures r.fetched && reply.None? ==>
      r.value == (if b.lastCheck == 0 then now else b.lastValue) && r.names == names
    ensures r.fetched && reply.Some? ==> r.value == reply.value.heartbeat
    ensures r.fetched && reply.Some? && reply.value.indexNames.Some? ==>
      r.names.cache == reply.value.indexNames.value && r.names.disk == Some(r.names.cache)
    ensures r.value == r.beat.lastValue
  {
    var b0 := if b.lastCheck == 0 then b.(lastCheck := 1, lastValue := now) else b;
    if now - b0.lastCheck < 60 then TestBeat(b0, names, b0.lastValue, false)
    else
      match reply
      case None => TestBeat(b0.(lastCheck := now), names, b0.lastValue, true)
      case Some(m) =>
        var names' := if m.indexNames.Some? then NameStore.Update(names, m.indexNames.value) else names;
        TestBeat(b0.(lastCheck := now, lastValue := m.heartbeat), names', m.heartbeat, true)
  }

  /** Engine configuration and mode flags used by `heartbeat`. */
  datatype Mode = Mode(shouldExit: bool, slave: bool, slaveWakeup: int)

  datatype HeartbeatResult = HeartbeatResult(beat: Beat, names: NameStore.Store, go: bool, resetSource: bool)

  /** `heartbeat(source)`: `False` once exit was requested; otherwise the master beat
      is saved (also by a slave), and a slave works only when the master's last beat is
      more than `slave_wakeup` seconds old, asking its source to reset when it stays idle. */
  function Heartbeat(mode: Mode, b: Beat, names: NameStore.Store, now: int, reply: Option<MasterReply>): (r: HeartbeatResult)
    requires now != 0
    ensures mode.shouldExit ==> r == HeartbeatResult(b, names, false, false)
    ensures !mode.shouldExit && !mode.slave ==> r.go && !r.resetSource
    ensures !mode.shouldExit && mode.slave ==>
      var t := TestHeartbeat(MasterHeartbeatSave(b, now).0, names, now, reply);
      (r.go <==> now - t.value > mode.slaveWakeup) && (r.resetSource <==> !r.go)
    ensures !mode.shouldExit && now - b.lastSaved >= 10 ==> r.beat.lastSaved == now
  {
    if mode.shouldExit then HeartbeatResult(b, names, false, false)
    else
      var b1 := MasterHeartbeatSave(b, now).0;
      if mode.slave then
        var t := TestHeartbeat(b1, names, now, reply);
        var go := now - t.value > mode.slaveWakeup;
        HeartbeatResult(t.beat, t.names, go, !go)
      else HeartbeatResult(b1, names, true, false)
  }

  /** A slave whose request for the master's heartbeat fails keeps the old value, so the
      lag grows with the clock and the slave takes over once it exceeds `slave_wakeup`. */
  lemma {:induction false} DeadMasterWakesSlave(mode: Mode, b: Beat, names: NameStore.Store, now: int)
    requires !mode.shouldExit && mode.slave && now != 0
    requires b.lastCheck != 0 && now - b.lastCheck >= 60
    requires now - b.lastValue > mode.slaveWakeup
    ensures var r := Heartbeat(mode, b, names, now, None);
      r.go && r.beat.lastValue == b.lastValue
  {
    var b1 := MasterHeartbeatSave(b, now).0;
    assert b1.lastCheck == b.lastCheck && b1.lastValue == b.lastValue;
  }

  // ---------------------------------------------------------------- search

  /** The backend's answer to a search request. */
  datatype SearchReply = Found(body: Json) | SearchFailed(message: string)

  /** The `_source` of every hit in `hits['hits']`, in order; a hit that is not a dict
      with `_source` raises. */
  function Sources(hits: seq<Json>): (r: Result<seq<Json>>)
    ensures r.Ok? ==> |r.value| == |hits|
    ensures r.Ok? ==> forall j :: 0 <= j < |hits| ==> Has(hits[j], "_source") && r.value[j] == Get(hits[j], "_source")
    ensures r.Raise? ==> exists j :: 0 <= j < |hits| && !Has(hits[j], "_source")
  {
    if |hits| == 0 then Ok([])
    else if !Has(hits[0], "_source") then Raise(KeyError)
    else
      var rest := Sources(hits[1..]);
      if rest.Raise? then Raise(rest.exc) else Ok([Get(hits[0], "_source")] + rest.value)
  }

  /** The page size actually requested: `0` means the default of 10. */
  function EffectiveLimit(limit: int): (r: int)
    ensures r != 0
    ensures limit != 0 ==> r == limit
  {
    if limit == 0 then 10 else limit
  }

  /** `search(...)` once the index list is resolved (`index` is `''` when nothing
      resolved) and the backend has answered: the response the caller sees. */
  function SearchResult(index: string, start: int, reply: SearchReply): (r: Result<Json>)
    ensures index == "" ==> r == Ok(Obj1("error", JStr("current index not found")))
    ensures index != "" && reply.SearchFailed? ==>
      r == Ok(Obj2("error", JStr(reply.message), "items", JArr([])))
    ensures index != "" && reply.Found? && !Has(reply.body, "hits") && Has(reply.body, "error") ==>
      r == Ok(reply.body)
    ensures index != "" && reply.Found? && !Has(reply.body, "hits") && !Has(reply.body, "error") ==>
      r == Ok(Obj2("error", JStr("bad response"), "items", JArr([])))
    ensures r.Ok? && index != "" && reply.Found? && Has(reply.body, "hits") ==>
      var hits := Get(reply.body, "hits");
      hits.JObj? && Has(r.value, "items") && Get(r.value, "start") == JInt(start) &&
      Get(r.value, "total") == (if Has(hits, "total") then Get(hits, "total") else JInt(0))
  {
    if index == "" then Ok(Obj1("error", JStr("current index not found")))
    else
      match reply
      case SearchFailed(msg) => Ok(Obj2("error", JStr(msg), "items", JArr([])))
      case Found(res) =>
        if !Has(res, "hits") then
          if Has(res, "error") then Ok(res)
          else Ok(Obj2("error", JStr("bad response"), "items", JArr([])))
        else
          var hits := Get(res, "hits");
          if !hits.JObj? then Raise(TypeError)
          else
            var items: Result<seq<Json>> :=
              if !Has(hits, "hits") then Ok([])
              else if Get(hits, "hits").JArr? then Sources(Get(hits, "hits").items)
              else Raise(TypeError);
            if items.Raise? then Raise(items.exc)
            else
              var total := if Has(hits, "total") then Get(hits, "total") else JInt(0);
              Ok(JObj(map["items" := JArr(items.value), "total" := total, "start" := JInt(start)]))
  }

  /** A well-formed answer yields one item per hit, each the hit's `_source`. */
  lemma SearchItemsAreSources(index: string, start: int, body: Json, hs: seq<Json>)
    requires index != "" && Has(body, "hits") && Get(body, "hits").JObj?
    requires Get(Get(body, "hits"), "hits") == JArr(hs)
    requires forall j :: 0 <= j < |hs| ==> Has(hs[j], "_source")
    ensures var r := SearchResult(index, start, Found(body));
      r.Ok? && Get(r.value, "items").JArr? && |Get(r.value, "items").items| == |hs| &&
      forall j :: 0 <= j < |hs| ==> Get(r.value, "items").items[j] == Get(hs[j], "_source")
  {
  }
}

=== FILE: json.dfy ===
/** Documents as the Python code sees them: dicts, lists, strings, numbers. */
module Json {
  import opened Wrappers

  datatype Json =
    | JNull
    | JBool(b: bool)
    | JInt(i: int)
    | JFloat(text: string)     // a float, as `str()` prints it; its numeric value is not modelled
    | JStr(s: string)
    | JArr(items: seq<Json>)
    | JObj(fields: map<string, Json>)

  /** Python truthiness: `None`, `False`, `0`, `0.0`, `''`, `[]` and `{}` are false. */
  predicate Truthy(j: Json) {
    match j
    case JNull => false
    case JBool(b) => b
    case JInt(i) => i != 0
    case JFloat(t) => t != "0.0" && t != "-0.0"
    case JStr(s) => s != ""
    case JArr(xs) => |xs| > 0
    case JObj(m) => |m| > 0
  }

  /** `key in d` for a dict `d`. */
  predicate Has(j: Json, key: string) {
    j.JObj? && key in j.fields
  }

  /** `d.get(key)` on a dict; `None` for a missing key or a non-dict. */
  function Get(j: Json, key: string): (r: Json)
    ensures Has(j, key) ==> r == j.fields[key]
    ensures !Has(j, key) ==> r == JNull
  {
    if Has(j, key) then j.fields[key] else JNull
  }

  /** `d[key] = v` on a dict; a non-dict is left as it is. */
  function Set(j: Json, key: string, v: Json): (r: Json)
    ensures j.JObj? ==> r == JObj(j.fields[key := v])
    ensures !j.JObj? ==> r == j
  {
    if j.JObj? then JObj(j.fields[key := v]) else j
  }

  /** `d.pop(key)` on a dict, keeping the rest. */
  function Remove(j: Json, key: string): (r: Json)
    ensures j.JObj? ==> r == JObj(j.fields - {key})
    ensures !j.JObj? ==> r == j
  {
    if j.JObj? then JObj(j.fields - {key}) else j
  }

  /** A one-entry dict `{key: v}`. */
  function Obj1(key: string, v: Json): (r: Json)
    ensures Has(r, key) && Get(r, key) == v && |r.fields| == 1
  {
    JObj(map[key := v])
  }

  /** A two-entry dict `{k1: v1, k2: v2}`. */
  function Obj2(k1: string, v1: Json, k2: string, v2: Json): Json {
    JObj(map[k1 := v1, k2 := v2])
  }

  /** `d.get(key)` returning a string field, `None` when missing or not a string. */
  function GetStr(j: Json, key: string): (r: Option<string>)
    ensures r.Some? <==> Get(j, key).JStr?
  {
    match Get(j, key)
    case JStr(s) => Some(s)
    case _ => None
  }
}

=== FILE: kinds.dfy ===
/** The per-type index rules (the modules under openprocurement/search/index): option defaults,
    `need_reindex`, the tender `test_noindex` filter and `test_exists` fallback,
    `before_index_item` forwarding, and the error handling of the orgs index.

    `max_age`, `reindex_day` and `force_next_reindex` are set by
    `set_reindex_options`, which is not part of this model; they are a `Policy`
    value here.  The weekday is `datetime.now().isoweekday()`. */
module IndexKinds {
  import opened Wrappers
  import opened Strs
  import opened Json
  import NameStore
  import Engine
  import Lifecycle
  import WriteEngine

  datatype Kind = Tenders | Plans | Auctions | Auctions2 | OldOcds | Assets | Lots | Orgs

  /** `__index_name__`: the names-store key of each type. */
  function IndexKey(k: Kind): (r: string)
    ensures r != ""
  {
    match k
    case Tenders => "tenders"
    case Plans => "plans"
    case Auctions => "auctions"
    case Auctions2 => "auctions2"
    case OldOcds => "oldocds"
    case Assets => "assets"
    case Lots => "lots"
    case Orgs => "orgs"
  }

  /** The prefix of each type's options (`tender_reindex`, `auction2_check`, ...). */
  function OptionPrefix(k: Kind): string
    requires k != Orgs
  {
    match k
    case Tenders => "tender"
    case Plans => "plan"
    case Auctions => "auction"
    case Auctions2 => "auction2"
    case OldOcds => "ocds"
    case Assets => "asset"
    case Lots => "lot"
  }

  /** Default `<prefix>_reindex` and `<prefix>_check` option strings. */
  function Defaults(k: Kind): (string, string)
    requires k != Orgs
  {
    match k
    case Plans => ("10,7", "1,1")
    case OldOcds => ("6,6", "100000,0")
    case _ => ("5,6", "1,1")
  }

  /** The two strings `after_init` hands to `set_reindex_options`: configured values
      win, defaults fill the gaps. */
  function ReindexOptions(k: Kind, config: map<string, string>): (r: (string, string))
    requires k != Orgs
    ensures OptionPrefix(k) + "_reindex" !in config ==> r.0 == Defaults(k).0
    ensures OptionPrefix(k) + "_check" !in config ==> r.1 == Defaults(k).1
    ensures OptionPrefix(k) + "_reindex" in config ==> r.0 == config[OptionPrefix(k) + "_reindex"]
    ensures OptionPrefix(k) + "_check" in config ==> r.1 == config[OptionPrefix(k) + "_check"]
  {
    var rk := OptionPrefix(k) + "_reindex";
    var ck := OptionPrefix(k) + "_check";
    (if rk in config then config[rk] else Defaults(k).0,
     if ck in config then config[ck] else Defaults(k).1)
  }

  /** With no configuration, plans use `'10,7'`/`'1,1'`, OCDS `'6,6'`/`'100000,0'`,
      the others `'5,6'`/`'1,1'`; the second auction index reads `auction2_*` options. */
  lemma DefaultOptions(config: map<string, string>)
    requires config == map[]
    ensures ReindexOptions(Plans, config) == ("10,7", "1,1")
    ensures ReindexOptions(OldOcds, config) == ("6,6", "100000,0")
    ensures forall k :: k in {Tenders, Auctions, Auctions2, Assets, Lots} ==> ReindexOptions(k, config) == ("5,6", "1,1")
    ensures IndexKey(Auctions2) == "auctions2" && OptionPrefix(Auctions2) + "_reindex" == "auction2_reindex"
  {
  }

  datatype Policy = Policy(maxAge: int, reindexDay: int, force: bool)

  datatype Decision = Decision(store: NameStore.Store, policy: Policy, result: Result<bool>)

  /** `need_reindex()`: orgs reindex only without a current generation; every other
      type also when forced (once: the flag is cleared) or, past `max_age`, on or after
      the configured weekday.  The age of a malformed current name raises. */
  function NeedReindex(k: Kind, s: NameStore.Store, now: int, p: Policy, weekday: int): (r: Decision)
    ensures var c := Engine.GetName(s, now, IndexKey(k));
      c.1.None? ==> r == Decision(c.0, p, Ok(true))
    ensures k == Orgs ==> r.policy == p && r.result == Ok(Engine.GetName(s, now, IndexKey(k)).1.None?)
    ensures k != Orgs && Engine.GetName(s, now, IndexKey(k)).1.Some? && p.force ==>
      r.result == Ok(true) && r.policy == p.(force := false)
    ensures !p.force ==> r.policy == p
    ensures r.result.Raise? ==> r.result.exc == ValueError && k != Orgs
  {
    var c := Engine.GetName(s, now, IndexKey(k));
    if c.1.None? then Decision(c.0, p, Ok(true))
    else if k == Orgs then Decision(c.0, p, Ok(false))
    else if p.force then Decision(c.0, p.(force := false), Ok(true))
    else
      var age := Lifecycle.IndexAge(c.0, now, IndexKey(k), None);
      match age.result
      case Raise(e) => Decision(age.store, p, Raise(e))
      case Ok(a) => Decision(age.store, p, Ok(if a > p.maxAge then weekday >= p.reindexDay else false))
  }

  /** With a well-formed current generation and no force flag, a reindex is due exactly
      when the generation is older than `max_age` and the weekday has been reached. */
  lemma {:induction false} NeedReindexByAge(k: Kind, s: NameStore.Store, now: int, p: Policy, weekday: int, created: int)
    requires k != Orgs && !p.force && Lifecycle.Good(s)
    requires IndexKey(k) in s.cache && s.cache[IndexKey(k)] == Lifecycle.GenName(IndexKey(k), created)
    ensures NeedReindex(k, s, now, p, weekday).result ==
      Ok(now - created > p.maxAge && weekday >= p.reindexDay)
  {
    Lifecycle.GoodGet(s, now, IndexKey(k));
    var c := Engine.GetName(s, now, IndexKey(k));
    Lifecycle.GoodGet(c.0, now, IndexKey(k));
    Lifecycle.AgeOfGenName(IndexKey(k), created, now);
  }

  /** A forced reindex happens once: the next call sees the flag cleared. */
  lemma ForceOnce(k: Kind, s: NameStore.Store, now: int, p: Policy, weekday: int)
    requires k != Orgs && p.force && Engine.GetName(s, now, IndexKey(k)).1.Some?
    ensures var d := NeedReindex(k, s, now, p, weekday);
      d.result == Ok(true) && !d.policy.force
  {
  }

  // ---------------------------------------------------------------- tenders

  /** The parts of a tender `test_noindex` looks at; a missing award or contract
      status reads as `''`, and `complaints` is whether the award's list is non-empty. */
  datatype Award = Award(status: string, complaints: bool)
  datatype Tender = Tender(tenderID: string, procType: string, status: string,
                           awards: seq<Award>, contractStatuses: seq<string>)

  /** The award loop: counts 1 at the first award that is active or cancelled, or has complaints. */
  function ActiveAwards(awards: seq<Award>): (n: nat)
    ensures n == 0 <==> forall j :: 0 <= j < |awards| ==>
      awards[j].status != "active" && awards[j].status != "cancelled" && !awards[j].complaints
  {
    if |awards| == 0 then 0
    else if awards[0].status == "active" || awards[0].status == "cancelled" then 1
    else if awards[0].complaints then 1
    else ActiveAwards(awards[1..])
  }

  /** The contract loop: counts 1 at the first active contract. */
  function ActiveContracts(statuses: seq<string>): (n: nat)
    ensures n == 0 <==> forall j :: 0 <= j < |statuses| ==> statuses[j] != "active"
  {
    if |statuses| == 0 then 0
    else if statuses[0] == "active" then 1
    else ActiveContracts(statuses[1..])
  }

  const NoindexCutoff: string := "UA-2016-05-31"

  /** `TenderIndex.test_noindex(item)`. */
  function TestNoindex(t: Tender): (r: bool)
    ensures LessEq(t.tenderID, NoindexCutoff) ==> !r
    ensures Less(NoindexCutoff, t.tenderID) && (t.procType == "negotiation" || t.procType == "negotiation.quick") ==>
      (r <==> forall j :: 0 <= j < |t.awards| ==>
        t.awards[j].status != "active" && t.awards[j].status != "cancelled" && !t.awards[j].complaints)
    ensures Less(NoindexCutoff, t.tenderID) && t.procType == "reporting" ==>
      (r <==> forall j :: 0 <= j < |t.contractStatuses| ==> t.contractStatuses[j] != "active")
    ensures Less(NoindexCutoff, t.tenderID) &&
            (t.procType == "competitiveDialogueUA.stage2" || t.procType == "competitiveDialogueEU.stage2") ==>
      (r <==> t.status == "draft.stage2")
    ensures (t.procType != "negotiation" && t.procType != "negotiation.quick" && t.procType != "reporting"
             && t.procType != "competitiveDialogueUA.stage2" && t.procType != "competitiveDialogueEU.stage2") ==> !r
  {
    if LessEq(t.tenderID, NoindexCutoff) then
      LessTrichotomy(t.tenderID, NoindexCutoff);
      false
    else if t.procType == "negotiation" || t.procType == "negotiation.quick" then ActiveAwards(t.awards) == 0
    else if t.procType == "reporting" then ActiveContracts(t.contractStatuses) == 0
    else if t.procType == "competitiveDialogueUA.stage2" || t.procType == "competitiveDialogueEU.stage2" then
      t.status == "draft.stage2"
    else false
  }

  /** The filter only applies to tender ids that sort after the cutoff. */
  lemma {:induction false} NoindexOnlyAfterCutoff(t: Tender)
    requires TestNoindex(t)
    ensures Less(NoindexCutoff, t.tenderID)
  {
    if !Less(NoindexCutoff, t.tenderID) {
      LessTrichotomy(t.tenderID, NoindexCutoff);
      assert LessEq(t.tenderID, NoindexCutoff);
    }
  }

  /** `TenderIndex.test_exists`: the `noindex_`-prefixed index is consulted only when
      the main lookup finds nothing and a prefix is configured. */
  function TenderTestExists(b: WriteEngine.Backend, index: string, m: WriteEngine.Meta,
                            noindexPrefix: Option<string>): (r: Option<bool>)
    ensures WriteEngine.TestExists(b, index, m).Some? ==> r == WriteEngine.TestExists(b, index, m)
    ensures WriteEngine.TestExists(b, index, m).None? && noindexPrefix.Some? && noindexPrefix.value != "" ==>
      r == WriteEngine.TestExists(b, noindexPrefix.value + index, m)
    ensures WriteEngine.TestExists(b, index, m).None? && !(noindexPrefix.Some? && noindexPrefix.value != "") ==>
      r.None?
  {
    var res := WriteEngine.TestExists(b, index, m);
    if res.None? && noindexPrefix.Some? && noindexPrefix.value != "" then
      WriteEngine.TestExists(b, noindexPrefix.value + index, m)
    else res
  }

  // ---------------------------------------------------------------- writing one item

  /** What `BaseIndex.index_item` does with one fetched item: skip it, or forward its
      procuring entity (when truthy) to the `org` index and hand it to the engine. */
  datatype ItemPlan = NoindexSkip | Write(orgPush: Option<Json>)

  function IndexItemPlan(k: Kind, noindex: bool, entity: Json): (r: ItemPlan)
    requires k != Orgs
    ensures noindex ==> r == NoindexSkip
    ensures !noindex ==> r.Write? && (r.orgPush.Some? <==> Truthy(entity))
    ensures r.Write? && r.orgPush.Some? ==> r.orgPush.value == entity
  {
    if noindex then NoindexSkip
    else Write(if Truthy(entity) then Some(entity) else None)
  }

  /** `test_noindex` of each type: the tender filter for tenders, `False` (the base
      class's answer) for every other type. */
  function TestNoindexOf(k: Kind, t: Tender): (r: bool)
    ensures k != Tenders ==> !r
    ensures k == Tenders ==> r == TestNoindex(t)
  {
    k == Tenders && TestNoindex(t)
  }

  /** Only tenders filter items: an item is written unless it is a tender that
      `test_noindex` excludes, and an excluded tender sorts after the cutoff. */
  lemma {:induction false} OnlyTendersFilter(k: Kind, t: Tender, entity: Json)
    requires k != Orgs
    ensures IndexItemPlan(k, TestNoindexOf(k, t), entity).Write? <==> !(k == Tenders && TestNoindex(t))
    ensures IndexItemPlan(k, TestNoindexOf(k, t), entity) == NoindexSkip ==> Less(NoindexCutoff, t.tenderID)
  {
    if IndexItemPlan(k, TestNoindexOf(k, t), entity) == NoindexSkip {
      NoindexOnlyAfterCutoff(t);
    }
  }

  /** `OrgsIndex.index_item`: a successful write's result is returned as it is; a failed
      one yields `None` under `ignore_errors`, otherwise re-raises unless `test_exists`
      is truthy. */
  function OrgsIndexItem<T>(write: Result<T>, ignoreErrors: bool, stored: Option<bool>): (r: Result<Option<T>>)
    ensures write.Ok? ==> r == Ok(Some(write.value))
    ensures write.Raise? && ignoreErrors ==> r == Ok(None)
    ensures write.Raise? && !ignoreErrors ==>
      (r.Raise? <==> stored != Some(true)) && (r.Raise? ==> r.exc == write.exc) && (r.Ok? ==> r.value.None?)
  {
    match write
    case Ok(v) => Ok(Some(v))
    case Raise(e) =>
      if ignoreErrors then Ok(None)
      else if stored != Some(true) then Raise(e)
      else Ok(None)
  }

  /** What the engine's single-item `index_item` gives the caller: its result, or the
      backend's exception `e` once the loop re-raises. */
  function EngineAnswer(o: WriteEngine.Outcome, e: Exc): (r: Result<WriteEngine.WriteResult>)
    ensures r.Raise? <==> o.result == WriteEngine.Raised
    ensures r.Ok? ==> r.value == o.result
    ensures r.Raise? ==> r.exc == e
  {
    if o.result == WriteEngine.Raised then Raise(e) else Ok(o.result)
  }

  /** The orgs index over the engine's single-item write (which it calls without
      `ignore_errors`), with `test_exists` asked of the backend the write left: the item
      ends stored, or the call answers `None` under `ignore_errors`, or it re-raises the
      backend's exception. */
  lemma {:induction false} OrgsItemStoredOrRaises(b: WriteEngine.Backend, index: string, it: WriteEngine.Item,
                                                  ignoreErrors: bool, att: nat -> WriteEngine.Attempt, e: Exc)
    ensures var o := WriteEngine.IndexItem(b, index, it, false, att);
      var r := OrgsIndexItem(EngineAnswer(o, e), ignoreErrors, WriteEngine.TestExists(o.backend, index, it.meta));
      (r.Raise? <==> !ignoreErrors && !WriteEngine.Exists(o.backend, index, it.meta))
      && (r.Raise? ==> r.exc == e)
      && (o.result != WriteEngine.Raised ==> r == Ok(Some(o.result)) && WriteEngine.Exists(o.backend, index, it.meta))
      && (r == Ok(None) ==> ignoreErrors || WriteEngine.Exists(o.backend, index, it.meta))
      && WriteEngine.Grows(b, o.backend)
  {
    var o := WriteEngine.IndexItem(b, index, it, false, att);
    assert o.result != WriteEngine.Raised ==> WriteEngine.Exists(o.backend, index, it.meta);
  }

  /** `process()` of one index type: the type's own `need_reindex` decides the full
      reindex, which then runs as in `BaseIndex.process` with its full pass over `feed`. */
  function ProcessKind(k: Kind, s: NameStore.Store, now: int, p: Policy, weekday: int, allowReindex: bool,
                       beat: nat -> bool, feed: seq<seq<Lifecycle.Ref>>):
    (r: (Lifecycle.Run<()>, seq<Lifecycle.Phase>, Policy))
    ensures NeedReindex(k, s, now, p, weekday).result.Raise? ==> r.0.result == Raise(ValueError) && r.1 == []
    ensures Lifecycle.Promoted(r.1) ==> allowReindex && NeedReindex(k, s, now, p, weekday).result == Ok(true)
    ensures !allowReindex && r.0.result.Ok? ==> r.1 == [Lifecycle.Incremental]
    ensures var c := Engine.GetName(s, now, IndexKey(k));
      k == Orgs && c.1.Some? ==> r == (Lifecycle.Run(c.0, Ok(())), [Lifecycle.Incremental], p)
    ensures var c := Engine.GetName(s, now, IndexKey(k));
      c.1.None? ==> r.2 == p && (allowReindex ==> (r.0.result.Ok? <==> Lifecycle.Promoted(r.1)))
    ensures var c := Engine.GetName(s, now, IndexKey(k));
      k != Orgs && c.1.Some? && p.force ==>
        !r.2.force && (allowReindex ==> (r.0.result.Ok? <==> Lifecycle.Promoted(r.1)))
    ensures !p.force ==> r.2 == p
  {
    var d := NeedReindex(k, s, now, p, weekday);
    match d.result
    case Raise(e) => (Lifecycle.Run(d.store, Raise(e)), [], d.policy)
    case Ok(need) =>
      var pr := Lifecycle.Process(d.store, now, IndexKey(k), need, allowReindex, beat, feed);
      (pr.0, pr.1, d.policy)
  }

  /** With a well-formed current generation and no force flag, `process` runs only the
      incremental pass exactly when the generation is not yet older than `max_age` or
      the weekday has not been reached. */
  lemma {:induction false} ProcessKindByAge(k: Kind, s: NameStore.Store, now: int, p: Policy, weekday: int,
                                            created: int, beat: nat -> bool, feed: seq<seq<Lifecycle.Ref>>)
    requires k != Orgs && !p.force && Lifecycle.Good(s)
    requires IndexKey(k) in s.cache && s.cache[IndexKey(k)] == Lifecycle.GenName(IndexKey(k), created)
    ensures ProcessKind(k, s, now, p, weekday, true, beat, feed).1 == [Lifecycle.Incremental]
      <==> !(now - created > p.maxAge && weekday >= p.reindexDay)
  {
    NeedReindexByAge(k, s, now, p, weekday, created);
  }
}

=== FILE: lifecycle.dfy ===
/** The index-generation lifecycle of `BaseIndex` (openprocurement/search/index/__init__.py).

    An index type with key `k` keeps three entries in the names store: `k` (the
    current generation), `k.next` (a generation being built) and `k.prev` (the one
    it replaced).  Generations are named `k_<epoch seconds>`.  `now` is the clock
    during one operation; `create_index` and `finish_index` act on the backend only
    and are not part of this model. */
module Lifecycle {
  import opened Wrappers
  import opened Strs
  import NameStore
  import Engine

  type Store = NameStore.Store

  function Next(key: string): string { key + ".next" }
  function Prev(key: string): string { key + ".prev" }

  lemma KeysDistinct(key: string)
    ensures key != Next(key) && key != Prev(key) && Next(key) != Prev(key)
  {
    assert |Next(key)| == |key| + 5 && |Prev(key)| == |key| + 5;
    assert Next(key)[|key| + 1] == 'n' && Prev(key)[|key| + 1] == 'p';
  }

  /** The generation name `"{}_{}".format(key, int(time()))`. */
  function GenName(key: string, now: int): (r: string)
    ensures r == key + "_" + IntToStr(now) && r != ""
  {
    key + "_" + IntToStr(now)
  }

  /** A state-changing step that may raise part-way. */
  datatype Run<T> = Run(store: Store, result: Result<T>)

  /** The age of a generation name: `now` minus the integer after its last `_`;
      a name without `_` or with a non-integer suffix raises `ValueError`. */
  function AgeOf(name: string, now: int): (r: Result<int>)
    ensures r.Raise? ==> r.exc == ValueError
    ensures (forall j :: 0 <= j < |name| ==> name[j] != '_') ==> r.Raise?
  {
    var parts :- RSplitOnce(name, '_');
    var created :- ParseInt(parts.1);
    Ok(now - created)
  }

  /** A generated name reads back as created at its own clock value. */
  lemma {:induction false} AgeOfGenName(key: string, created: int, now: int)
    ensures AgeOf(GenName(key, created), now) == Ok(now - created)
  {
    var t := IntToStr(created);
    assert forall j :: 0 <= j < |t| ==> t[j] != '_';
    assert GenName(key, created) == key + ['_'] + t;
    RSplitOfJoin(key, '_', t);
    ParseIntToStr(created);
  }

  /** `index_age(name)`: the age of `name`, or of the current generation when `name`
      is falsy; with neither it is `now` itself. */
  function IndexAge(s: Store, now: int, key: string, name: Option<string>): (r: Run<int>)
    ensures name.Some? && name.value != "" ==> r == Run(s, AgeOf(name.value, now))
    ensures !(name.Some? && name.value != "") ==>
      var c := Engine.GetName(s, now, key);
      r.store == c.0 && r.result == (if c.1.None? then Ok(now) else AgeOf(c.1.value, now))
  {
    if name.Some? && name.value != "" then Run(s, AgeOf(name.value, now))
    else
      var c := Engine.GetName(s, now, key);
      if c.1.None? then Run(c.0, Ok(now)) else Run(c.0, AgeOf(c.1.value, now))
  }

  /** The base `need_reindex`: a full reindex is due iff there is no current generation. */
  function NeedReindex(s: Store, now: int, key: string): (r: (Store, bool))
    ensures r.1 <==> Engine.GetName(s, now, key).1.None?
  {
    var c := Engine.GetName(s, now, key);
    (c.0, c.1.None?)
  }

  /** What `new_index` returns: the generation to fill, and whether it was created now. */
  datatype NewGen = NewGen(name: string, created: bool)

  /** Stores `name` as the current generation when there is none yet. */
  function SetCurrentIfEmpty(s: Store, now: int, key: string, gen: NewGen): (r: Run<NewGen>)
    requires gen.name != ""
    ensures r.result == Ok(gen)
  {
    var cur := Engine.GetName(s, now, key);
    if cur.1.None? then Run(Engine.SetIndex(cur.0, now, key, Some(gen.name)).store, Ok(gen))
    else Run(cur.0, Ok(gen))
  }

  /** `new_index()`: an interrupted `.next` generation is reused when it differs from the
      current one and is at most a day old; otherwise `key_<now>` is created and stored as
      `.next`.  An empty current entry is then filled with the returned name. */
  function NewIndex(s: Store, now: int, key: string): (r: Run<NewGen>)
    ensures r.result.Ok? ==> r.result.value.name != ""
    ensures r.result.Ok? && r.result.value.created ==> r.result.value.name == GenName(key, now)
    ensures r.result.Raise? ==> r.result.exc == ValueError
  {
    var g := NameStore.Get(s, now, Next(key));
    var c := Engine.GetName(g.store, now, key);
    var name1 := if c.1.Some? && g.value == c.1 then None else g.value;
    var age := IndexAge(c.0, now, key, name1);
    match age.result
    case Raise(e) => Run(age.store, Raise(e))
    case Ok(a) =>
      var name2 := if a > 86400 then None else name1;
      if name2.Some? && name2.value != "" then
        SetCurrentIfEmpty(age.store, now, key, NewGen(name2.value, false))
      else
        var n := GenName(key, now);
        var st := Engine.SetIndex(age.store, now, Next(key), Some(n));
        SetCurrentIfEmpty(st.store, now, key, NewGen(n, true))
  }

  /** No stored name is empty: `SharedFileDict` never stores a falsy value. */
  predicate NoEmpty(c: map<string, string>) {
    forall k :: k in c ==> c[k] != ""
  }

  /** The single-writer invariant the lifecycle lemmas rely on. */
  predicate Good(s: Store) {
    NameStore.Synced(s) && NoEmpty(s.cache)
  }

  /** A single writer's assignment of a non-empty value keeps the store good, changes
      only that key, and never raises. */
  lemma {:induction false} SetNonEmpty(s: Store, now: int, key: string, value: string)
    requires Good(s) && value != ""
    ensures var r := NameStore.SetItem(s, now, key, value);
      !r.raised && Good(r.store) && r.store.cache == s.cache[key := value]
  {
    NameStore.SyncedPreserved(s, now, key, value);
    if key in s.cache && s.cache[key] == value {
      assert s.cache[key := value] == s.cache;
    }
  }

  /** A single writer's removal of a present key keeps the store good and drops only that key. */
  lemma {:induction false} RemovePresent(s: Store, now: int, key: string)
    requires Good(s) && key in s.cache && key != ""
    ensures var r := NameStore.SetItem(s, now, key, "");
      !r.raised && Good(r.store) && r.store.cache == s.cache - {key}
  {
    NameStore.SyncedDeleteRaises(s, now, key);
    NameStore.SyncedPreserved(s, now, key, "");
  }

  lemma GoodGet(s: Store, now: int, key: string)
    requires Good(s)
    ensures var l := NameStore.Get(s, now, key);
      Good(l.store) && l.store.cache == s.cache &&
      l.value == (if key in s.cache then Some(s.cache[key]) else None)
  {
    NameStore.SyncedGet(s, now, key);
  }

  /** Cold start: with no current and no `.next` generation, `new_index` creates
      `key_<now>` and both the current and the `.next` entry name it. */
  lemma {:induction false} NewIndexColdStart(s: Store, now: int, key: string)
    requires Good(s) && key !in s.cache && Next(key) !in s.cache
    ensures var r := NewIndex(s, now, key);
      r.result == Ok(NewGen(GenName(key, now), true)) && Good(r.store) &&
      r.store.cache == s.cache[Next(key) := GenName(key, now)][key := GenName(key, now)]
  {
    KeysDistinct(key);
    GoodGet(s, now, Next(key));
    GoodGet(s, now, key);
    var n := GenName(key, now);
    SetNonEmpty(s, now, Next(key), n);
    var s1 := NameStore.SetItem(s, now, Next(key), n).store;
    GoodGet(s1, now, key);
    SetNonEmpty(s1, now, key, n);
  }

  /** Crash recovery: a `.next` generation that differs from the current one and is
      at most a day old is returned again, without creating a new one. */
  lemma {:induction false} NewIndexReusesNext(s: Store, now: int, key: string, created: int)
    requires Good(s) && Next(key) in s.cache && s.cache[Next(key)] == GenName(key, created)
    requires key in s.cache && s.cache[key] != GenName(key, created)
    requires now - created <= 86400
    ensures var r := NewIndex(s, now, key);
      r.result == Ok(NewGen(GenName(key, created), false)) && r.store.cache == s.cache
  {
    KeysDistinct(key);
    GoodGet(s, now, Next(key));
    GoodGet(s, now, key);
    AgeOfGenName(key, created, now);
  }

  /** A `.next` generation older than a day is abandoned for a fresh one. */
  lemma {:induction false} NewIndexDropsStaleNext(s: Store, now: int, key: string, created: int)
    requires Good(s) && Next(key) in s.cache && s.cache[Next(key)] == GenName(key, created)
    requires key in s.cache
    requires now - created > 86400
    ensures var r := NewIndex(s, now, key);
      r.result == Ok(NewGen(GenName(key, now), true)) &&
      r.store.cache == s.cache[Next(key) := GenName(key, now)]
  {
    KeysDistinct(key);
    GoodGet(s, now, Next(key));
    GoodGet(s, now, key);
    AgeOfGenName(key, created, now);
    var s1 := NameStore.SetItem(s, now, Next(key), GenName(key, now)).store;
    SetNonEmpty(s, now, Next(key), GenName(key, now));
    GoodGet(s1, now, key);
  }

  /** `delete_index(name)`: the replaced generation is recorded as `.prev`;
      `None` is recorded as the string `'None'`. */
  function DeleteIndex(s: Store, now: int, key: string, name: Option<string>): (r: NameStore.Step)
    ensures name.None? || name.value != "" ==>
      !r.raised && Prev(key) in r.store.cache && r.store.cache[Prev(key)] == Engine.PyStr(name)
    ensures name == Some("") && Prev(key) in s.cache && s.cache[Prev(key)] == "" ==> r == NameStore.Step(s, false)
    ensures name == Some("") && !(Prev(key) in s.cache && s.cache[Prev(key)] == "") ==>
      (r.raised <==> s.disk.None? || Prev(key) !in s.disk.value)
  {
    Engine.SetIndex(s, now, Prev(key), name)
  }

  /** In a good store `.prev` simply takes the printed name. */
  lemma DeleteIndexRecords(s: Store, now: int, key: string, name: Option<string>)
    requires Good(s) && (name.None? || name.value != "")
    ensures var r := DeleteIndex(s, now, key, name);
      !r.raised && Good(r.store) && r.store.cache == s.cache[Prev(key) := Engine.PyStr(name)]
  {
    SetNonEmpty(s, now, Prev(key), Engine.PyStr(name));
  }

  /** The `.next` clean-up at the end of `set_current`: the entry is cleared iff it names `name`. */
  function ClearNextIf(s: Store, now: int, key: string, name: string): (r: Run<()>)
  {
    var n := NameStore.Get(s, now, Next(key));
    if n.value == Some(name) then
      var st := Engine.SetIndex(n.store, now, Next(key), Some(""));
      Run(st.store, if st.raised then Raise(KeyError) else Ok(()))
    else Run(n.store, Ok(()))
  }

  /** `set_current(name)`: a different name becomes current, the old one moves to
      `.prev`, and the read-back must see the new name (else `AssertionError`); in
      every case `.next` is cleared when it names `name`.  A removal of a key the file
      does not hold raises `KeyError`. */
  function SetCurrent(s: Store, now: int, key: string, name: string): (r: Run<()>)
    ensures r.result.Raise? ==> r.result.exc in {KeyError, AssertionError}
  {
    var g := NameStore.Get(s, now, key);
    var prior := g.value;
    if prior != Some(name) then
      var st := Engine.SetIndex(g.store, now, key, Some(name));
      if st.raised then Run(st.store, Raise(KeyError))
      else
        var chk := NameStore.Get(st.store, now, key);
        if chk.value != Some(name) then Run(chk.store, Raise(AssertionError))
        else
          var d := DeleteIndex(chk.store, now, key, prior);
          if d.raised then Run(d.store, Raise(KeyError))
          else ClearNextIf(d.store, now, key, name)
    else ClearNextIf(g.store, now, key, name)
  }

  /** The `.next` entry after `set_current(name)`: removed when it named `name`. */
  function NextAfter(c: map<string, string>, key: string, name: string): map<string, string> {
    if Next(key) in c && c[Next(key)] == name then c - {Next(key)} else c
  }

  /** Promotion: `name` becomes current, the old current moves to `.prev`, `.next` is
      cleared iff it named `name`, and nothing else changes. */
  lemma {:induction false} SetCurrentPromotes(s: Store, now: int, key: string, name: string)
    requires Good(s) && name != "" && key != ""
    requires !(key in s.cache && s.cache[key] == name)
    ensures var r := SetCurrent(s, now, key, name);
      var prior := if key in s.cache then Some(s.cache[key]) else None;
      r.result == Ok(()) && Good(r.store) &&
      r.store.cache == NextAfter(s.cache[key := name][Prev(key) := Engine.PyStr(prior)], key, name)
  {
    KeysDistinct(key);
    var prior := if key in s.cache then Some(s.cache[key]) else None;
    GoodGet(s, now, key);
    SetNonEmpty(s, now, key, name);
    var s1 := NameStore.SetItem(s, now, key, name).store;
    GoodGet(s1, now, key);
    DeleteIndexRecords(s1, now, key, prior);
    var s2 := DeleteIndex(s1, now, key, prior).store;
    GoodGet(s2, now, Next(key));
    var c2 := s.cache[key := name][Prev(key) := Engine.PyStr(prior)];
    assert s2.cache == c2;
    if Next(key) in c2 && c2[Next(key)] == name {
      RemovePresent(s2, now, Next(key));
    }
  }

  /** Re-asserting the current generation changes neither current nor `.prev`; only a
      `.next` entry naming it is cleared. */
  lemma {:induction false} SetCurrentSame(s: Store, now: int, key: string, name: string)
    requires Good(s) && name != "" && key in s.cache && s.cache[key] == name
    ensures var r := SetCurrent(s, now, key, name);
      r.result == Ok(()) && Good(r.store) && r.store.cache == NextAfter(s.cache, key, name)
  {
    KeysDistinct(key);
    GoodGet(s, now, key);
    GoodGet(s, now, Next(key));
    if Next(key) in s.cache && s.cache[Next(key)] == name {
      RemovePresent(s, now, Next(key));
    }
  }

  /** One listed reference as `index_source` sees it: whether `test_exists` is truthy
      for it and whether writing the fetched item returned a truthy result, or the
      exception that `source.get` or `index_item` raised for it. */
  datatype Ref = Ref(stored: bool, written: bool) | Fails(exc: Exc)

  /** A reference that raises `index_count`. */
  predicate Counts(x: Ref) {
    x.Ref? && !x.stored && x.written
  }

  /** References of one pass that were fetched and written with a truthy result. */
  function Indexed(pass: seq<Ref>): (n: nat)
    ensures n <= |pass|
  {
    if |pass| == 0 then 0
    else
      (if Counts(pass[0]) then 1 else 0) + Indexed(pass[1..])
  }

  /** The count is 0 exactly when no reference counts, and the whole pass exactly when
      every reference does. */
  lemma {:induction false} IndexedExtremes(pass: seq<Ref>)
    ensures Indexed(pass) == 0 <==> forall i :: 0 <= i < |pass| ==> !Counts(pass[i])
    ensures Indexed(pass) == |pass| <==> forall i :: 0 <= i < |pass| ==> Counts(pass[i])
  {
    if |pass| > 0 {
      IndexedExtremes(pass[1..]);
      assert forall i :: 1 <= i < |pass| ==> pass[i] == pass[1..][i - 1];
    }
  }

  /** The count is additive: a pass counts reference by reference, as the loop's
      `index_count += 1` does. */
  lemma {:induction false} IndexedAppend(a: seq<Ref>, b: seq<Ref>)
    ensures Indexed(a + b) == Indexed(a) + Indexed(b)
    decreases |a|
  {
    if |a| > 0 {
      assert (a + b)[1..] == a[1..] + b;
      IndexedAppend(a[1..], b);
    } else {
      assert a + b == b;
    }
  }

  /** The position of the first reference that raises, or `|pass|` when none does. */
  function FaultAt(pass: seq<Ref>): (i: nat)
    ensures i <= |pass|
    ensures i < |pass| ==> pass[i].Fails?
  {
    if |pass| == 0 then 0
    else if pass[0].Fails? then 0
    else 1 + FaultAt(pass[1..])
  }

  /** Every reference before `FaultAt` goes through, so it finds the first raising one. */
  lemma {:induction false} FaultAtIsFirst(pass: seq<Ref>)
    ensures forall j :: 0 <= j < FaultAt(pass) ==> pass[j].Ref?
  {
    if |pass| > 0 && pass[0].Ref? {
      FaultAtIsFirst(pass[1..]);
      assert forall m :: 1 <= m < FaultAt(pass) ==> pass[m] == pass[1..][m - 1];
    }
  }

  /** How an `index_source` run ended: the count it returns, how many passes ran, and
      the exception that ended it, if one did (nothing is returned then, and the count
      is 0). */
  datatype Drain = Drain(count: nat, passes: nat, raised: Option<Exc>)

  /** The `while self.engine.heartbeat(...)` loop from pass `p` on: `beat(k)` answers
      the `k`-th heartbeat call (including those made every 500 references, whose
      answers are ignored), `feed[p]` is what `source.items()` yields in pass `p` and
      is empty past the end.  A pass whose length is a multiple of 500, including an
      empty one, ends with `iter_count == 0` and stops the loop; a reference that
      raises ends the run with its exception. */
  function DrainFrom(beat: nat -> bool, k: nat, feed: seq<seq<Ref>>, p: nat): (r: Drain)
    ensures r.passes >= p
    ensures !beat(k) ==> r == Drain(0, p, None)
    ensures beat(k) && p < |feed| && FaultAt(feed[p]) < |feed[p]| ==>
      r == Drain(0, p + 1, Some(feed[p][FaultAt(feed[p])].exc))
    ensures beat(k) && p < |feed| && FaultAt(feed[p]) == |feed[p]| && |feed[p]| % 500 == 0 ==>
      r == Drain(Indexed(feed[p]), p + 1, None)
    ensures beat(k) && p >= |feed| ==> r == Drain(0, p + 1, None)
    ensures beat(k) ==> r.passes > p
    ensures r.raised.Some? ==> r.passes <= |feed| && r.count == 0
    decreases |feed| - p
  {
    if !beat(k) then Drain(0, p, None)
    else
      var pass := if p < |feed| then feed[p] else [];
      var i := FaultAt(pass);
      if i < |pass| then Drain(0, p + 1, Some(pass[i].exc))
      else if |pass| % 500 == 0 then Drain(Indexed(pass), p + 1, None)
      else
        var rest := DrainFrom(beat, k + 1 + |pass| / 500, feed, p + 1);
        Drain(if rest.raised.Some? then 0 else Indexed(pass) + rest.count, rest.passes, rest.raised)
  }

  /** The total of truthy writes over passes `feed[p..q]`. */
  function IndexedUpTo(feed: seq<seq<Ref>>, p: nat, q: nat): nat
    requires p <= q <= |feed|
    decreases q - p
  {
    if p == q then 0 else Indexed(feed[p]) + IndexedUpTo(feed, p + 1, q)
  }

  /** With the heartbeat always granting work, every pass before the last one ran to
      its end with a length that is not a multiple of 500. */
  lemma {:induction false} DrainPassesRan(beat: nat -> bool, k: nat, feed: seq<seq<Ref>>, p: nat)
    requires forall n :: beat(n)
    requires p <= |feed|
    ensures var r := DrainFrom(beat, k, feed, p);
      r.passes <= |feed| ==>
        forall q :: p <= q < r.passes - 1 ==> |feed[q]| % 500 != 0 && FaultAt(feed[q]) == |feed[q]|
    decreases |feed| - p
  {
    if p < |feed| && FaultAt(feed[p]) == |feed[p]| && |feed[p]| % 500 != 0 {
      DrainPassesRan(beat, k + 1 + |feed[p]| / 500, feed, p + 1);
    }
  }

  /** With the heartbeat always granting work, a run that did not raise counts the
      truthy writes over every pass that ran, and its last pass has a length that is a
      multiple of 500. */
  lemma {:induction false} DrainCounts(beat: nat -> bool, k: nat, feed: seq<seq<Ref>>, p: nat)
    requires forall n :: beat(n)
    requires p <= |feed|
    ensures var r := DrainFrom(beat, k, feed, p);
      r.passes <= |feed| && r.raised.None? ==>
        r.count == IndexedUpTo(feed, p, r.passes) && |feed[r.passes - 1]| % 500 == 0
    decreases |feed| - p
  {
    var r := DrainFrom(beat, k, feed, p);
    if p < |feed| && FaultAt(feed[p]) == |feed[p]| {
      if |feed[p]| % 500 == 0 {
        assert r == Drain(Indexed(feed[p]), p + 1, None);
        assert IndexedUpTo(feed, p + 1, p + 1) == 0;
      } else {
        var k' := k + 1 + |feed[p]| / 500;
        var rest := DrainFrom(beat, k', feed, p + 1);
        DrainCounts(beat, k', feed, p + 1);
        assert r == Drain(if rest.raised.Some? then 0 else Indexed(feed[p]) + rest.count, rest.passes, rest.raised);
        if r.passes <= |feed| && r.raised.None? {
          assert IndexedUpTo(feed, p, r.passes) == Indexed(feed[p]) + IndexedUpTo(feed, p + 1, r.passes);
        }
      }
    }
  }

  /** A run that raised ended in a pass that held a raising reference, with the
      exception of the first one. */
  lemma {:induction false} DrainRaises(beat: nat -> bool, k: nat, feed: seq<seq<Ref>>, p: nat)
    ensures var r := DrainFrom(beat, k, feed, p);
      r.raised.Some? ==>
        var last := feed[r.passes - 1];
        FaultAt(last) < |last| && r.raised == Some(last[FaultAt(last)].exc)
    decreases |feed| - p
  {
    if beat(k) && p < |feed| && FaultAt(feed[p]) == |feed[p]| && |feed[p]| % 500 != 0 {
      DrainRaises(beat, k + 1 + |feed[p]| / 500, feed, p + 1);
    }
  }

  /** A first pass of exactly 500 references that all go through ends the run, whatever
      the feed holds after it. */
  lemma FiveHundredStops(beat: nat -> bool, k: nat, feed: seq<seq<Ref>>)
    requires beat(k) && |feed| > 1 && |feed[0]| == 500 && forall i :: 0 <= i < 500 ==> feed[0][i].Ref?
    ensures DrainFrom(beat, k, feed, 0) == Drain(Indexed(feed[0]), 1, None)
  {
    NoFault(feed[0]);
  }

  /** A pass whose references all go through has no raising reference. */
  lemma {:induction false} NoFault(pass: seq<Ref>)
    requires forall i :: 0 <= i < |pass| ==> pass[i].Ref?
    ensures FaultAt(pass) == |pass|
  {
    if |pass| > 0 {
      NoFault(pass[1..]);
    }
  }

  /** An `index_source` run: the index it wrote into and how its loop ended. */
  datatype Indexing = Indexing(index: string, drain: Drain)

  /** `index_source(index_name)`: an explicit name is used as given; otherwise the
      current name; otherwise, for a slave, the current name after one heartbeat, which
      may bring the master's names (`afterBeat`).  With no name it returns `None`
      without a pass or a write. */
  function IndexSource(s: Store, now: int, key: string, indexName: Option<string>, slave: bool,
                       afterBeat: Store, beat: nat -> bool, feed: seq<seq<Ref>>): (r: (Store, Option<Indexing>))
    ensures indexName.Some? && indexName.value != "" ==>
      r == (s, Some(Indexing(indexName.value, DrainFrom(beat, 0, feed, 0))))
    ensures !(indexName.Some? && indexName.value != "") && Engine.GetName(s, now, key).1.Some? ==>
      r == (Engine.GetName(s, now, key).0, Some(Indexing(Engine.GetName(s, now, key).1.value, DrainFrom(beat, 0, feed, 0))))
    ensures !(indexName.Some? && indexName.value != "") && Engine.GetName(s, now, key).1.None? && slave ==>
      var c := Engine.GetName(afterBeat, now, key);
      r.0 == c.0 && (c.1.Some? ==> r.1 == Some(Indexing(c.1.value, DrainFrom(beat, 1, feed, 0))))
    ensures r.1.None? <==>
      && !(indexName.Some? && indexName.value != "")
      && Engine.GetName(s, now, key).1.None?
      && (slave ==> Engine.GetName(afterBeat, now, key).1.None?)
    ensures r.1.None? ==> r.0.disk == (if slave then afterBeat.disk else s.disk)
  {
    if indexName.Some? && indexName.value != "" then (s, Some(Indexing(indexName.value, DrainFrom(beat, 0, feed, 0))))
    else
      var c := Engine.GetName(s, now, key);
      if c.1.Some? then (c.0, Some(Indexing(c.1.value, DrainFrom(beat, 0, feed, 0))))
      else if slave then
        var c2 := Engine.GetName(afterBeat, now, key);
        if c2.1.Some? then (c2.0, Some(Indexing(c2.1.value, DrainFrom(beat, 1, feed, 0)))) else (c2.0, None)
      else (c.0, None)
  }

  /** After a generation is promoted, the incremental `index_source()` writes into it:
      the promotion and the name resolution agree. */
  lemma {:induction false} IndexSourceFollowsPromotion(s: Store, now: int, key: string, name: string, slave: bool,
                                                       afterBeat: Store, beat: nat -> bool, feed: seq<seq<Ref>>)
    requires Good(s) && name != "" && key != ""
    ensures var p := SetCurrent(s, now, key, name).store;
      IndexSource(p, now, key, None, slave, afterBeat, beat, feed).1
        == Some(Indexing(name, DrainFrom(beat, 0, feed, 0)))
  {
    KeysDistinct(key);
    if key in s.cache && s.cache[key] == name {
      SetCurrentSame(s, now, key, name);
    } else {
      SetCurrentPromotes(s, now, key, name);
    }
    var p := SetCurrent(s, now, key, name).store;
    assert key in p.cache && p.cache[key] == name;
    GoodGet(p, now, key);
  }

  /** The steps `process()` runs, in order. */
  datatype Phase = Create(name: string) | FullIndex(name: string) | Finish(name: string)
                 | Promote(name: string) | Incremental

  /** A trace that ends with a promotion followed by the incremental pass. */
  predicate Promoted(t: seq<Phase>) {
    |t| >= 2 && t[|t| - 2].Promote? && t[|t| - 1] == Incremental
  }

  /** The reindex branch of `process` once `new_index` has answered `gen`: create the
      index when it is new, run the full pass over `feed`, then finish and promote
      unless the pass raised. */
  function Reindex(st: Store, now: int, key: string, gen: NewGen, beat: nat -> bool, feed: seq<seq<Ref>>):
    (r: (Run<()>, seq<Phase>))
    ensures Create(gen.name) in r.1 <==> gen.created
    ensures r.1 != [Incremental] && FullIndex(gen.name) in r.1
    ensures DrainFrom(beat, 0, feed, 0).raised.Some? ==>
      r.0 == Run(st, Raise(DrainFrom(beat, 0, feed, 0).raised.value))
      && Promote(gen.name) !in r.1 && Finish(gen.name) !in r.1
    ensures DrainFrom(beat, 0, feed, 0).raised.None? ==> r.0 == SetCurrent(st, now, key, gen.name)
    ensures r.0.result.Ok? ==>
      || r.1 == [Create(gen.name), FullIndex(gen.name), Finish(gen.name), Promote(gen.name), Incremental]
      || r.1 == [FullIndex(gen.name), Finish(gen.name), Promote(gen.name), Incremental]
    ensures r.0.result.Raise? ==> Incremental !in r.1
    ensures Promoted(r.1) <==> r.0.result.Ok?
  {
    var n := gen.name;
    var full := DrainFrom(beat, 0, feed, 0);
    if full.raised.Some? then
      (Run(st, Raise(full.raised.value)), if gen.created then [Create(n), FullIndex(n)] else [FullIndex(n)])
    else
      var sc := SetCurrent(st, now, key, n);
      if sc.result.Raise? then
        (sc, if gen.created then [Create(n), FullIndex(n), Finish(n), Promote(n)]
             else [FullIndex(n), Finish(n), Promote(n)])
      else
        (sc, if gen.created then [Create(n), FullIndex(n), Finish(n), Promote(n), Incremental]
             else [FullIndex(n), Finish(n), Promote(n), Incremental])
  }

  /** `process(allow_reindex)` as far as the names store goes: when a reindex is due and
      allowed, a generation is opened (and created only when it is new), filled by a full
      pass over `feed`, finished and promoted; the incremental pass then runs.  A full
      pass that raises ends `process` before `finish_index` and `set_current`. */
  function Process(s: Store, now: int, key: string, needReindex: bool, allowReindex: bool,
                   beat: nat -> bool, feed: seq<seq<Ref>>): (r: (Run<()>, seq<Phase>))
    ensures !(needReindex && allowReindex) ==> r == (Run(s, Ok(())), [Incremental])
    ensures needReindex && allowReindex ==> r.1 != [Incremental]
    ensures needReindex && allowReindex && r.0.result.Ok? ==>
      exists name ::
        || r.1 == [Create(name), FullIndex(name), Finish(name), Promote(name), Incremental]
        || r.1 == [FullIndex(name), Finish(name), Promote(name), Incremental]
    ensures var n := NewIndex(s, now, key);
      needReindex && allowReindex && n.result.Ok? ==>
        && (Create(n.result.value.name) in r.1 <==> n.result.value.created)
        && (DrainFrom(beat, 0, feed, 0).raised.Some? ==>
              r.0 == Run(n.store, Raise(DrainFrom(beat, 0, feed, 0).raised.value))
              && Promote(n.result.value.name) !in r.1 && Finish(n.result.value.name) !in r.1)
    ensures r.0.result.Raise? ==> Incremental !in r.1
    ensures Promoted(r.1) <==> needReindex && allowReindex && r.0.result.Ok?
  {
    if needReindex && allowReindex then
      var n := NewIndex(s, now, key);
      match n.result
      case Raise(e) => (Run(n.store, Raise(e)), [])
      case Ok(gen) => Reindex(n.store, now, key, gen, beat, feed)
    else (Run(s, Ok(())), [Incremental])
  }

  /** A first run on an empty store whose full pass does not raise leaves one current
      generation `key_<now>` and no `.next` entry, and does not touch `.prev`. */
  lemma {:induction false} ColdStartProcess(s: Store, now: int, key: string, beat: nat -> bool, feed: seq<seq<Ref>>)
    requires Good(s) && key != "" && key !in s.cache && Next(key) !in s.cache
    requires DrainFrom(beat, 0, feed, 0).raised.None?
    ensures var r := Process(s, now, key, true, true, beat, feed);
      r.0.result == Ok(()) && Good(r.0.store) &&
      r.0.store.cache == s.cache[key := GenName(key, now)]
  {
    KeysDistinct(key);
    NewIndexColdStart(s, now, key);
    var n := NewIndex(s, now, key);
    var name := GenName(key, now);
    ProcessReindexStore(s, now, key, beat, feed);
    SetCurrentSame(n.store, now, key, name);
    NextAfterColdStart(s.cache, key, name);
  }

  lemma NextAfterColdStart(c: map<string, string>, key: string, name: string)
    requires Next(key) !in c && Next(key) != key
    ensures NextAfter(c[Next(key) := name][key := name], key, name) == c[key := name]
  {
  }

  lemma ProcessReindexStore(s: Store, now: int, key: string, beat: nat -> bool, feed: seq<seq<Ref>>)
    requires NewIndex(s, now, key).result.Ok? && DrainFrom(beat, 0, feed, 0).raised.None?
    ensures var n := NewIndex(s, now, key);
      Process(s, now, key, true, true, beat, feed).0 == SetCurrent(n.store, now, key, n.result.value.name)
  {
    var n := NewIndex(s, now, key);
    assert Process(s, now, key, true, true, beat, feed) == Reindex(n.store, now, key, n.result.value, beat, feed);
  }
}

=== FILE: name_store.dfy ===
/** The index-name store `SharedFileDict` (openprocurement/search/utils.py):
    a string-to-string dict cached in memory and persisted to a YAML file that
    other processes may also rewrite.

    The file is `disk`: `None` when `read()` fails with `IOError` or `ValueError`
    (it then leaves the cache as it was), otherwise the mapping it holds.  `now` is the value of
    `time()` during one operation. */
module NameStore {
  import opened Wrappers

  datatype Store = Store(
    cache: map<string, string>,
    disk: Option<map<string, string>>,
    lastsync: int,
    expire: int)

  /** A freshly constructed dict: empty cache, never synced, default expiry of one second. */
  function Fresh(disk: Option<map<string, string>>): (s: Store)
    ensures s.cache == map[] && s.lastsync == 0 && s.expire == 1 && s.disk == disk
  {
    Store(map[], disk, 0, 1)
  }

  predicate IsExpired(s: Store, now: int) {
    now - s.lastsync > s.expire
  }

  /** `read()`: load the file into the cache and stamp `lastsync`; a failed read changes nothing. */
  function Read(s: Store, now: int): (r: Store)
    ensures r.disk == s.disk && r.expire == s.expire
    ensures s.disk.None? ==> r == s
    ensures s.disk.Some? ==> r.cache == s.disk.value && r.lastsync == now
  {
    match s.disk
    case None => s
    case Some(d) => s.(cache := d, lastsync := now)
  }

  /** The re-read that `get` and `[]` perform first, only once the cache is older than `expire`. */
  function Refresh(s: Store, now: int): Store {
    if IsExpired(s, now) then Read(s, now) else s
  }

  lemma RefreshIdempotent(s: Store, now: int)
    ensures Refresh(Refresh(s, now), now) == Refresh(s, now)
  {
  }

  datatype Lookup = Lookup(store: Store, value: Option<string>)

  /** `get(key)`: the value after a possible re-read, `None` for a missing key. */
  function Get(s: Store, now: int, key: string): (r: Lookup)
    ensures !IsExpired(s, now) ==> r.store == s
    ensures IsExpired(s, now) && s.disk.None? ==> r.store == s
    ensures IsExpired(s, now) && s.disk.Some? ==>
      r.store.cache == s.disk.value && r.store.lastsync == now
    ensures r.store.disk == s.disk && r.store.expire == s.expire
    ensures r.value.Some? <==> key in r.store.cache
    ensures r.value.Some? ==> r.value.value == r.store.cache[key]
  {
    var s' := Refresh(s, now);
    Lookup(s', if key in s'.cache then Some(s'.cache[key]) else None)
  }

  /** `self[key]`: like `get`, but a missing key raises `KeyError`. */
  function GetItem(s: Store, now: int, key: string): (r: (Store, Result<string>))
    ensures r.0 == Get(s, now, key).store
    ensures r.1.Raise? <==> Get(s, now, key).value.None?
    ensures r.1.Raise? ==> r.1.exc == KeyError
    ensures r.1.Ok? ==> Get(s, now, key).value == Some(r.1.value)
  {
    var l := Get(s, now, key);
    (l.store, if l.value.Some? then Ok(l.value.value) else Raise(KeyError))
  }

  /** `pop(key)`: removes the key from the in-memory cache only. */
  function Pop(s: Store, key: string): (r: (Store, Option<string>))
    ensures key !in r.0.cache && r.0.disk == s.disk && r.0.lastsync == s.lastsync
    ensures forall k :: k != key && k in s.cache ==> k in r.0.cache && r.0.cache[k] == s.cache[k]
    ensures r.0.cache.Keys == s.cache.Keys - {key}
    ensures r.1 == if key in s.cache then Some(s.cache[key]) else None
  {
    (s.(cache := s.cache - {key}), if key in s.cache then Some(s.cache[key]) else None)
  }

  /** `pop` only forgets the cached copy: until the cache expires a `get` of the popped
      key finds nothing, once it expires the file's value is back, and every other key
      reads as it did before the pop. */
  lemma PopThenGet(s: Store, now: int, key: string)
    ensures !IsExpired(s, now) ==> Get(Pop(s, key).0, now, key).value == None
    ensures IsExpired(s, now) && s.disk.Some? ==>
      Get(Pop(s, key).0, now, key).value == if key in s.disk.value then Some(s.disk.value[key]) else None
    ensures IsExpired(s, now) && s.disk.None? ==> Get(Pop(s, key).0, now, key).value == None
    ensures forall k :: k != key ==> Get(Pop(s, key).0, now, k).value == Get(s, now, k).value
  {
  }

  /** Result of an operation that may raise part-way: the state it leaves, and whether it raised. */
  datatype Step = Step(store: Store, raised: bool)

  /** The cache `write` dumps before popping: with `reread` the file as it is now,
      overlaid with the local cache, so keys only on disk survive and local values win. */
  function Merged(s: Store, reread: bool): map<string, string> {
    if reread && s.disk.Some? then s.disk.value + s.cache else s.cache
  }

  /** `write(pop_key, reread)`: optionally re-read and merge, drop `pop_key`
      (raising `KeyError` when it is not there), dump the result to the file.
      A raise leaves the file untouched but the merged cache in memory. */
  function Write(s: Store, now: int, popKey: Option<string>, reread: bool): (r: Step)
    ensures var m := Merged(s, reread);
      r.raised <==> (popKey.Some? && popKey.value != "" && popKey.value !in m)
    ensures !r.raised ==> r.store.disk == Some(r.store.cache)
    ensures r.raised ==> r.store.disk == s.disk && r.store.cache == Merged(s, reread)
    ensures !r.raised && (popKey.None? || popKey.value == "") ==> r.store.cache == Merged(s, reread)
    ensures !r.raised && popKey.Some? && popKey.value != "" ==>
      r.store.cache == Merged(s, reread) - {popKey.value}
    ensures r.store.lastsync == if reread && s.disk.Some? then now else s.lastsync
    ensures r.store.expire == s.expire
  {
    var s1 := if reread && s.disk.Some? then s.(cache := s.disk.value + s.cache, lastsync := now) else s;
    if popKey.Some? && popKey.value != "" then
      if popKey.value in s1.cache then
        var c := s1.cache - {popKey.value};
        Step(s1.(cache := c, disk := Some(c)), false)
      else Step(s1, true)
    else Step(s1.(disk := Some(s1.cache)), false)
  }

  /** `self[key] = value`: a no-op when the cache already holds `value`; a non-empty
      value is set, an empty one removed, and the file is rewritten with a re-read merge. */
  function SetItem(s: Store, now: int, key: string, value: string): (r: Step)
    ensures key in s.cache && s.cache[key] == value ==> r == Step(s, false)
    ensures value != "" ==> !r.raised
    ensures value != "" && !(key in s.cache && s.cache[key] == value) ==>
      key in r.store.cache && r.store.cache[key] == value && r.store.disk == Some(r.store.cache)
    ensures value == "" && key != "" && !(key in s.cache && s.cache[key] == value) ==>
      (r.raised <==> s.disk.None? || key !in s.disk.value)
    ensures value == "" && key != "" && !r.raised && !(key in s.cache && s.cache[key] == value) ==>
      key !in r.store.cache && r.store.disk == Some(r.store.cache)
  {
    if key in s.cache && s.cache[key] == value then Step(s, false)
    else if value != "" then Write(s.(cache := s.cache[key := value]), now, None, true)
    else Write(s.(cache := s.cache - {key}), now, Some(key), true)
  }

  /** `update(items)`: the cache and the file both become exactly `items`, with no merge. */
  function Update(s: Store, items: map<string, string>): (r: Store)
    ensures r.cache == items && r.disk == Some(items)
    ensures r.lastsync == s.lastsync && r.expire == s.expire
  {
    Write(s.(cache := items), 0, None, false).store
  }

  /** A re-reading write without a pop leaves the on-disk map overlaid with the
      local cache: keys only on disk survive, local values win on shared keys. */
  lemma WriteMergesDisk(s: Store, now: int)
    requires s.disk.Some?
    ensures var r := Write(s, now, None, true);
      && !r.raised
      && r.store.cache.Keys == s.disk.value.Keys + s.cache.Keys
      && (forall k :: k in s.cache ==> r.store.cache[k] == s.cache[k])
      && (forall k :: k in s.disk.value && k !in s.cache ==> r.store.cache[k] == s.disk.value[k])
      && r.store.disk == Some(r.store.cache)
  {
  }

  /** The file holds exactly the cache: the state a single writer keeps. */
  predicate Synced(s: Store) {
    s.disk == Some(s.cache)
  }

  /** A key absent from both the cache and the re-read file cannot be removed: `KeyError`. */
  lemma DeleteAbsentRaises(s: Store, now: int, key: string)
    requires key != "" && key !in s.cache
    ensures SetItem(s, now, key, "").raised <==> s.disk.None? || key !in s.disk.value
  {
  }

  /** Setting a non-empty value and reading it back yields that value. */
  lemma {:induction false} SetThenGet(s: Store, now: int, key: string, value: string)
    requires value != "" && Synced(s)
    ensures Get(SetItem(s, now, key, value).store, now, key).value == Some(value)
  {
    var r := SetItem(s, now, key, value);
    if !(key in s.cache && s.cache[key] == value) {
      assert r.store.disk == Some(r.store.cache);
    }
  }

  /** Removing a key and reading it back finds nothing, unless the removal raised. */
  lemma {:induction false} DeleteThenGet(s: Store, now: int, key: string)
    requires key != "" && !(key in s.cache && s.cache[key] == "")
    requires !SetItem(s, now, key, "").raised
    ensures Get(SetItem(s, now, key, "").store, now, key).value.None?
  {
  }

  /** In a synced store a removal raises exactly when the key is absent. */
  lemma SyncedDeleteRaises(s: Store, now: int, key: string)
    requires Synced(s) && key != ""
    ensures SetItem(s, now, key, "").raised <==> key !in s.cache
  {
  }

  /** Every store operation of a single writer keeps the file equal to the cache. */
  lemma {:induction false} SyncedPreserved(s: Store, now: int, key: string, value: string)
    requires Synced(s) && (key != "" || value != "")
    ensures Synced(Read(s, now)) && Synced(Refresh(s, now))
    ensures Synced(Get(s, now, key).store)
    ensures Synced(SetItem(s, now, key, value).store)
    ensures !SetItem(s, now, key, value).raised ==>
      SetItem(s, now, key, value).store.cache ==
        if key in s.cache && s.cache[key] == value then s.cache
        else if value != "" then s.cache[key := value] else s.cache - {key}
  {
    if !(key in s.cache && s.cache[key] == value) {
      if value != "" {
        assert s.cache + s.cache[key := value] == s.cache[key := value];
      } else {
        assert s.cache + (s.cache - {key}) == s.cache;
      }
    }
  }

  /** In a synced store a lookup sees the cache as it is and keeps the store synced. */
  lemma SyncedGet(s: Store, now: int, key: string)
    requires Synced(s)
    ensures var l := Get(s, now, key);
      Synced(l.store) && l.store.cache == s.cache &&
      l.value == (if key in s.cache then Some(s.cache[key]) else None)
  {
  }
}

=== FILE: ocds.dfy ===
/** The OCDS file source (openprocurement/search/source/ocds.py): the document
    normalisation of `patch_tender`, the defaulting of `items`, and the one-file-per-call
    walk over the sorted files that match `ocds_mask`.

    The directory listing, the `fnmatch` mask test and the JSON file loader are
    parameters.  Python's `in` test is modelled for every kind of value it meets (key,
    substring or element membership), as is iterating a dict or a string; indexing or
    assigning into anything but a dict raises `TypeError`. */
module Ocds {
  import opened Wrappers
  import opened Strs
  import opened Json

  const DocType: string := "ocds-tender"

  /** `m[k]` on a dict. */
  function Field(m: map<string, Json>, k: string): (r: Result<Json>)
    ensures k in m <==> r.Ok?
    ensures r.Ok? ==> r.value == m[k]
    ensures r.Raise? ==> r.exc == KeyError
  {
    if k in m then Ok(m[k]) else Raise(KeyError)
  }

  /** A value the code uses as a dict. */
  function AsDict(j: Json): (r: Result<map<string, Json>>)
    ensures j.JObj? <==> r.Ok?
    ensures r.Ok? ==> r.value == j.fields
    ensures r.Raise? ==> r.exc == TypeError
  {
    if j.JObj? then Ok(j.fields) else Raise(TypeError)
  }

  /** The period fix: `startDate` takes `endDate` when only the latter is present. */
  function FillStart(period: map<string, Json>): (r: map<string, Json>)
    ensures "startDate" in period ==> r == period
    ensures "startDate" !in period && "endDate" in period ==> r == period["startDate" := period["endDate"]]
    ensures "startDate" !in period && "endDate" !in period ==> r == period
  {
    if "startDate" !in period && "endDate" in period then period["startDate" := period["endDate"]] else period
  }

  /** Python's `key in v` for a string key: key membership on a dict, the substring test
      on a string, element equality on a list.  A number, a boolean or `None` is not a
      container and raises `TypeError`. */
  function PyIn(key: string, v: Json): (r: Result<bool>)
    ensures v.JObj? ==> r == Ok(key in v.fields)
    ensures v.JStr? ==> r == Ok(Infix(key, v.s))
    ensures v.JArr? ==> r == Ok(JStr(key) in v.items)
    ensures r.Raise? <==> !(v.JObj? || v.JStr? || v.JArr?)
    ensures r.Raise? ==> r.exc == TypeError
  {
    match v
    case JObj(m) => Ok(key in m)
    case JStr(s) => Ok(Infix(key, s))
    case JArr(xs) => Ok(JStr(key) in xs)
    case _ => Raise(TypeError)
  }

  /** The period fix on whatever `tenderPeriod` or `awardPeriod` holds.  Both `in` tests
      run first, so a string or list that names `startDate`, or does not name `endDate`,
      passes unchanged; only the assignment needs a dict. */
  function FixPeriod(p: Json): (r: Result<Json>)
    ensures p.JObj? ==> r == Ok(JObj(FillStart(p.fields)))
    ensures p.JStr? ==>
      r == if Infix("startDate", p.s) || !Infix("endDate", p.s) then Ok(p) else Raise(TypeError)
    ensures p.JArr? ==>
      r == if JStr("startDate") in p.items || JStr("endDate") !in p.items then Ok(p) else Raise(TypeError)
    ensures !(p.JObj? || p.JStr? || p.JArr?) ==> r == Raise(TypeError)
  {
    var hasStart :- PyIn("startDate", p);
    if hasStart then Ok(p)
    else
      if !PyIn("endDate", p).value then Ok(p)
      else if p.JObj? then Ok(JObj(FillStart(p.fields)))
      else Raise(TypeError)
  }

  /** One entry of `items`: a classification outside the CPV scheme is appended to
      `additionalClassifications`, which starts as `[]` when absent.  The `in` test runs
      on the entry as it is: a string without the substring `classification`, or a list
      without that element, is skipped; one that has it fails on being indexed by a
      key. */
  function Classify(i: Json): (r: Result<Json>)
    ensures i.JObj? && "classification" !in i.fields ==> r == Ok(i)
    ensures i.JStr? ==> r == if Infix("classification", i.s) then Raise(TypeError) else Ok(i)
    ensures i.JArr? ==> r == if JStr("classification") in i.items then Raise(TypeError) else Ok(i)
    ensures !(i.JObj? || i.JStr? || i.JArr?) ==> r == Raise(TypeError)
    ensures r.Ok? && r.value != i ==> i.JObj? && "classification" in i.fields && r.value.JObj?
    ensures r.Ok? && i.JObj? && "classification" in i.fields && Get(i.fields["classification"], "scheme") != JStr("CPV") ==>
      var extra := if "additionalClassifications" in i.fields then i.fields["additionalClassifications"] else JArr([]);
      extra.JArr? && r.value == JObj(i.fields["additionalClassifications" := JArr(extra.items + [i.fields["classification"]])])
    ensures r.Ok? && i.JObj? && "classification" in i.fields && Get(i.fields["classification"], "scheme") == JStr("CPV") ==>
      r == Ok(i)
  {
    var named :- PyIn("classification", i);
    if !named then Ok(i)
    else
      var fields :- AsDict(i);
      var cls :- AsDict(fields["classification"]);
      var scheme :- Field(cls, "scheme");
      if scheme == JStr("CPV") then Ok(i)
      else
        var extra := if "additionalClassifications" in fields then fields["additionalClassifications"] else JArr([]);
        if !extra.JArr? then Raise(AttributeError)
        else Ok(JObj(fields["additionalClassifications" := JArr(extra.items + [fields["classification"]])]))
  }

  function ClassifyAll(items: seq<Json>): (r: Result<seq<Json>>)
    ensures r.Ok? ==> |r.value| == |items| && forall j :: 0 <= j < |items| ==> Classify(items[j]) == Ok(r.value[j])
    ensures (forall j :: 0 <= j < |items| ==> Classify(items[j]).Ok?) ==> r.Ok?
  {
    if |items| == 0 then Ok([])
    else
      var head :- Classify(items[0]);
      var tail :- ClassifyAll(items[1..]);
      Ok([head] + tail)
  }

  /** `for i in item['items']` with the classification fix applied to each entry.  A list
      is walked entry by entry; a dict yields its keys and a string its characters, which
      the fix sees as strings and leaves alone unless one contains `classification`; a
      number, a boolean or `None` is not iterable. */
  function ClassifyEntries(its: Json): (r: Result<Json>)
    ensures its.JArr? ==>
      (r.Ok? <==> ClassifyAll(its.items).Ok?) && (r.Ok? ==> r.value == JArr(ClassifyAll(its.items).value))
    ensures its.JObj? ==>
      (r.Ok? <==> forall k :: k in its.fields ==> Classify(JStr(k)).Ok?) && (r.Ok? ==> r.value == its)
    ensures its.JStr? ==> r.Ok? && r.value == its
    ensures r.Raise? ==> r.exc == TypeError || its.JArr?
    ensures !(its.JArr? || its.JObj? || its.JStr?) ==> r == Raise(TypeError)
  {
    match its
    case JArr(xs) =>
      var classified :- ClassifyAll(xs);
      Ok(JArr(classified))
    case JObj(m) =>
      if exists k :: k in m && Infix("classification", k) then Raise(TypeError) else Ok(its)
    case JStr(_) => Ok(its)
    case _ => Raise(TypeError)
  }

  /** Iterating a string yields one-character strings, and none of them contains
      `classification`: the fix leaves every character alone, so a string `items` is
      walked without error and left as it was. */
  lemma {:induction false} CharactersPassClassify(s: string)
    ensures forall j :: 0 <= j < |s| ==> Classify(JStr([s[j]])) == Ok(JStr([s[j]]))
    ensures ClassifyEntries(JStr(s)) == Ok(JStr(s))
  {
    forall j | 0 <= j < |s|
      ensures Classify(JStr([s[j]])) == Ok(JStr([s[j]]))
    {
      ShortNotInfix("classification", [s[j]]);
    }
  }

  /** Entries that are not dicts: a string or list the `in` test does not match is
      skipped, one it matches fails on being indexed, and a number is not a container. */
  lemma NonDictEntries()
    ensures Classify(JStr("abc")) == Ok(JStr("abc"))
    ensures Classify(JArr([JInt(1), JStr("scheme")])) == Ok(JArr([JInt(1), JStr("scheme")]))
    ensures Classify(JStr("a classification")) == Raise(TypeError)
    ensures Classify(JArr([JStr("classification")])) == Raise(TypeError)
    ensures Classify(JInt(7)) == Raise(TypeError)
  {
    ShortNotInfix("classification", "abc");
    var t := "a classification";
    assert StartsWith(t[2..], "classification");
    assert Infix("classification", t[1..][1..]);
    assert Infix("classification", t);
  }

  /** `s[-5:]`: the last five characters, or all of a shorter string. */
  function Last5(s: string): (r: string)
    ensures |r| == if |s| < 5 then |s| else 5
    ensures r == s[|s| - |r|..]
  {
    if |s| <= 5 then s else s[|s| - 5..]
  }

  /** The postal-code fix on `procuringEntity.address`: a missing `postalCode` is taken
      from the tail of `streetAddress` when that tail is five digits (what the regular
      expression `\d\d\d\d\d` matches at its start). */
  function FillPostalCode(address: map<string, Json>): (r: Result<map<string, Json>>)
    ensures "postalCode" in address ==> r == Ok(address)
    ensures "postalCode" !in address && "streetAddress" !in address ==> r == Raise(KeyError)
    ensures r.Ok? ==> r.value.Keys >= address.Keys && forall k :: k in address ==> r.value[k] == address[k]
    ensures r.Ok? && "postalCode" in r.value && "postalCode" !in address ==>
      "streetAddress" in address && address["streetAddress"].JStr?
      && r.value["postalCode"] == JStr(Last5(address["streetAddress"].s)) && |Last5(address["streetAddress"].s)| == 5
      && AllDigits(Last5(address["streetAddress"].s))
    ensures ("postalCode" !in address && "streetAddress" in address && address["streetAddress"].JStr?
             && |address["streetAddress"].s| >= 5 && AllDigits(Last5(address["streetAddress"].s))) ==>
      r.Ok? && "postalCode" in r.value
  {
    if "postalCode" in address then Ok(address)
    else
      var street :- Field(address, "streetAddress");
      if !street.JStr? then Raise(TypeError)
      else
        var code := Last5(street.s);
        if |code| == 5 && AllDigits(code) then Ok(address["postalCode" := JStr(code)]) else Ok(address)
  }

  /** A Kyiv address written street first, code last. */
  lemma PostalCodeFromStreet()
    ensures FillPostalCode(map["streetAddress" := JStr("Khreshchatyk 1, 01001")]) ==
      Ok(map["streetAddress" := JStr("Khreshchatyk 1, 01001"), "postalCode" := JStr("01001")])
  {
    var s := "Khreshchatyk 1, 01001";
    assert Last5(s) == "01001";
    assert AllDigits("01001") by {
      assert forall i :: 0 <= i < 5 ==> IsDigit("01001"[i]);
    }
  }

  /** The postal-code fix on whatever `procuringEntity.address` holds: the `in` test
      runs first, so a string or list that names `postalCode` passes unchanged, and
      reading `streetAddress` from anything but a dict raises `TypeError`. */
  function FixAddress(addr: Json): (r: Result<Json>)
    ensures addr.JObj? ==>
      (r.Ok? <==> FillPostalCode(addr.fields).Ok?) && (r.Ok? ==> r.value == JObj(FillPostalCode(addr.fields).value))
    ensures addr.JStr? ==> r == if Infix("postalCode", addr.s) then Ok(addr) else Raise(TypeError)
    ensures addr.JArr? ==> r == if JStr("postalCode") in addr.items then Ok(addr) else Raise(TypeError)
    ensures !(addr.JObj? || addr.JStr? || addr.JArr?) ==> r == Raise(TypeError)
  {
    var named :- PyIn("postalCode", addr);
    if named then Ok(addr)
    else
      var fields :- AsDict(addr);
      var fields' :- FillPostalCode(fields);
      Ok(JObj(fields'))
  }

  /** The fixes `patch_tender` makes to a tender's fields: both periods get a start
      date, non-CPV classifications move to the additional ones, and the buyer's postal
      code is recovered from its street address.  It succeeds exactly when each fix
      does, and then rewrites those four fields and no other. */
  function PatchFields(item: map<string, Json>): (r: Result<map<string, Json>>)
    ensures r.Ok? ==> r.value.Keys == item.Keys
    ensures r.Ok? <==>
      "tenderPeriod" in item && FixPeriod(item["tenderPeriod"]).Ok?
      && "awardPeriod" in item && FixPeriod(item["awardPeriod"]).Ok?
      && "items" in item && ClassifyEntries(item["items"]).Ok?
      && "procuringEntity" in item && item["procuringEntity"].JObj? && "address" in item["procuringEntity"].fields
      && FixAddress(item["procuringEntity"].fields["address"]).Ok?
    ensures r.Ok? ==>
      r.value["tenderPeriod"] == FixPeriod(item["tenderPeriod"]).value
      && r.value["awardPeriod"] == FixPeriod(item["awardPeriod"]).value
      && r.value["items"] == ClassifyEntries(item["items"]).value
      && r.value["procuringEntity"] == JObj(item["procuringEntity"].fields["address" :=
           FixAddress(item["procuringEntity"].fields["address"]).value])
      && (forall k :: k in item && k !in {"tenderPeriod", "awardPeriod", "items", "procuringEntity"} ==>
            r.value[k] == item[k])
  {
    var tp :- Field(item, "tenderPeriod");
    var tp' :- FixPeriod(tp);
    var ap :- Field(item, "awardPeriod");
    var ap' :- FixPeriod(ap);
    var its :- Field(item, "items");
    var its' :- ClassifyEntries(its);
    var pe :- Field(item, "procuringEntity");
    var pef :- AsDict(pe);
    var addr :- Field(pef, "address");
    var addr' :- FixAddress(addr);
    Ok(item["tenderPeriod" := tp']["awardPeriod" := ap']["items" := its']["procuringEntity" := JObj(pef["address" := addr'])])
  }

  /** `OcdsSource.patch_tender(item)` on the tender of a release (the dict `items`
      yields): the fixed fields as `data`, without `doc_type` and `version`, which go
      to `meta` with the id. */
  function PatchTender(item: map<string, Json>): (r: Result<Json>)
    ensures r.Ok? <==> PatchFields(item).Ok? && "id" in item && "doc_type" in item && "version" in item
    ensures r.Ok? ==>
      r.value.JObj? && r.value.fields.Keys == {"meta", "data"}
      && r.value.fields["meta"] == JObj(map["id" := item["id"], "doc_type" := item["doc_type"], "version" := item["version"]])
      && r.value.fields["data"] == JObj(PatchFields(item).value - {"doc_type", "version"})
      && r.value.fields["data"].fields.Keys == item.Keys - {"doc_type", "version"}
  {
    var data :- PatchFields(item);
    var id :- Field(item, "id");
    var docType :- Field(item, "doc_type");
    var version :- Field(item, "version");
    Ok(JObj(map["meta" := JObj(map["id" := id, "doc_type" := docType, "version" := version]),
                "data" := JObj(data - {"doc_type", "version"})]))
  }

  /** Both period fixes are idempotent: a second pass finds `startDate` present. */
  lemma FillStartIdempotent(period: map<string, Json>)
    ensures FillStart(FillStart(period)) == FillStart(period)
    ensures "endDate" in period ==> "startDate" in FillStart(period)
  {
  }

  // ---------------------------------------------------------------- items and files

  /** The release defaulting of `items` followed by `patch_version`: a missing `tenderID`
      is the release `ocid`, a missing `dateModified` the release `date`.  `version` is
      the float `mktime` conversion, not modelled. */
  function ReleaseTender(release: Json, version: string -> int): (r: Result<map<string, Json>>)
    ensures r.Ok? ==> release.JObj? && "tender" in release.fields && release.fields["tender"].JObj?
    ensures r.Ok? ==>
      var t := release.fields["tender"].fields;
      r.value.Keys == t.Keys + {"tenderID", "dateModified", "doc_type", "version"}
      && ("tenderID" in t || "ocid" in release.fields) && ("dateModified" in t || "date" in release.fields)
      && r.value["tenderID"] == (if "tenderID" in t then t["tenderID"] else release.fields["ocid"])
      && r.value["dateModified"] == (if "dateModified" in t then t["dateModified"] else release.fields["date"])
      && r.value["dateModified"].JStr?
      && r.value["doc_type"] == JStr(DocType)
      && r.value["version"] == JInt(version(r.value["dateModified"].s))
      && forall k :: k in t && k !in {"tenderID", "dateModified", "doc_type", "version"} ==> r.value[k] == t[k]
  {
    var rel :- AsDict(release);
    var tender :- Field(rel, "tender");
    var t :- AsDict(tender);
    var tid :- if "tenderID" in t then Ok(t["tenderID"]) else Field(rel, "ocid");
    var dm :- if "dateModified" in t then Ok(t["dateModified"]) else Field(rel, "date");
    if !dm.JStr? then Raise(TypeError)
    else Ok(t["tenderID" := tid]["dateModified" := dm]["doc_type" := JStr(DocType)]["version" := JInt(version(dm.s))])
  }

  /** Each release of a file in turn, stopping at the first that raises. */
  function ReleaseTenders(releases: seq<Json>, version: string -> int): (r: (seq<map<string, Json>>, Option<Exc>))
    ensures |r.0| <= |releases|
    ensures forall j :: 0 <= j < |r.0| ==> ReleaseTender(releases[j], version) == Ok(r.0[j])
    ensures r.1.None? <==> |r.0| == |releases|
    ensures r.1.Some? ==> ReleaseTender(releases[|r.0|], version) == Raise(r.1.value)
  {
    MapUntilRaise(releases, (x: Json) => ReleaseTender(x, version))
  }

  /** Python's `sorted` on file names. */
  predicate Sorted(s: seq<string>) {
    forall i, j :: 0 <= i < j < |s| ==> LessEq(s[i], s[j])
  }

  function Insert(x: string, s: seq<string>): (r: seq<string>)
    requires Sorted(s)
    ensures Sorted(r) && multiset(r) == multiset(s) + multiset{x}
    ensures |r| == |s| + 1
  {
    if |s| == 0 then [x]
    else if LessEq(x, s[0]) then
      assert forall j :: 0 < j < |s| ==> LessEq(x, s[j]) by {
        forall j | 0 < j < |s| ensures LessEq(x, s[j]) {
          if x != s[0] && s[0] != s[j] { LessTransitive(x, s[0], s[j]); }
        }
      }
      [x] + s
    else
      LessTrichotomy(x, s[0]);
      var rest := Insert(x, s[1..]);
      assert forall j :: 0 <= j < |rest| ==> LessEq(s[0], rest[j]) by {
        forall j | 0 <= j < |rest| ensures LessEq(s[0], rest[j]) {
          assert rest[j] in multiset(rest);
          assert rest[j] == x || rest[j] in multiset(s[1..]);
          if rest[j] != x {
            var k :| 0 <= k < |s[1..]| && s[1..][k] == rest[j];
            assert LessEq(s[0], s[k + 1]);
          }
        }
      }
      assert s == [s[0]] + s[1..];
      [s[0]] + rest
  }

  function Sort(s: seq<string>): (r: seq<string>)
    ensures Sorted(r) && multiset(r) == multiset(s)
  {
    if |s| == 0 then []
    else
      assert s == s[..|s| - 1] + [s[|s| - 1]];
      Insert(s[|s| - 1], Sort(s[..|s| - 1]))
  }

  function Matching(listing: seq<string>, matches: string -> bool): (r: seq<string>)
    ensures forall j :: 0 <= j < |r| ==> matches(r[j])
    ensures forall x :: x in listing && matches(x) ==> x in r
    ensures multiset(r) <= multiset(listing)
  {
    if |listing| == 0 then []
    else
      var rest := Matching(listing[1..], matches);
      assert listing == [listing[0]] + listing[1..];
      if matches(listing[0]) then [listing[0]] + rest else rest
  }

  /** `reset()`: the names in `ocds_dir` that match `ocds_mask`, sorted. */
  function ResetFiles(listing: seq<string>, matches: string -> bool): (r: seq<string>)
    ensures Sorted(r)
    ensures forall x :: x in r <==> x in listing && matches(x)
  {
    var m := Matching(listing, matches);
    var r := Sort(m);
    assert forall x :: x in r <==> x in m by {
      forall x ensures x in r <==> x in m {
        assert x in r <==> x in multiset(r);
        assert x in m <==> x in multiset(m);
      }
    }
    assert forall x :: x in m ==> x in listing by {
      forall x | x in m ensures x in listing {
        assert x in multiset(m);
      }
    }
    r
  }

  /** What one `items()` call does to the file list, and what it yields. */
  datatype Call = Call(files: seq<string>, tenders: seq<map<string, Json>>, error: Option<Exc>)

  /** `items()`: an empty file list is re-read from the directory only in the last minute
      of hours 6 and 18; then the first file is popped and its releases yielded.  `load`
      is `json.load` of a file. */
  function Items(files: seq<string>, hour: int, minute: int, listing: seq<string>, matches: string -> bool,
                 load: string -> Result<Json>, version: string -> int): (r: Call)
    ensures var fs := if files == [] && (hour == 6 || hour == 18) && minute > 58 then ResetFiles(listing, matches) else files;
      (fs == [] ==> r == Call([], [], None))
      && (fs != [] ==> r.files == fs[1..])
      && (fs != [] && load(fs[0]).Ok? && Has(load(fs[0]).value, "releases") && Get(load(fs[0]).value, "releases").JArr? ==>
            (r.tenders, r.error) == ReleaseTenders(Get(load(fs[0]).value, "releases").items, version))
      && (fs != [] && load(fs[0]).Raise? ==> r.tenders == [] && r.error == Some(load(fs[0]).exc))
    ensures var fs := if files == [] && (hour == 6 || hour == 18) && minute > 58 then ResetFiles(listing, matches) else files;
      fs != [] && load(fs[0]).Ok? && Has(load(fs[0]).value, "releases") && !Get(load(fs[0]).value, "releases").JArr? ==>
        r.tenders == []
        && (r.error.None? <==> Get(load(fs[0]).value, "releases") in {JObj(map[]), JStr("")})
        && (r.error.Some? ==> r.error.value == TypeError)
  {
    var fs := if files == [] && (hour == 6 || hour == 18) && minute > 58 then ResetFiles(listing, matches) else files;
    if fs == [] then Call([], [], None)
    else
      match load(fs[0])
      case Raise(e) => Call(fs[1..], [], Some(e))
      case Ok(data) =>
        if !data.JObj? then Call(fs[1..], [], Some(TypeError))
        else if "releases" !in data.fields then Call(fs[1..], [], Some(KeyError))
        else if data.fields["releases"] == JObj(map[]) || data.fields["releases"] == JStr("") then
          // iterating an empty dict or string yields nothing
          Call(fs[1..], [], None)
        else if !data.fields["releases"].JArr? then
          // a number or `None` cannot be iterated; a key or character of a non-empty
          // dict or string cannot be indexed by `'tender'`
          Call(fs[1..], [], Some(TypeError))
        else
          var y := ReleaseTenders(data.fields["releases"].items, version);
          Call(fs[1..], y.0, y.1)
  }

  /** Outside the reload minute an exhausted file list stays empty and nothing is read. */
  lemma NoReloadOutsideWindow(hour: int, minute: int, listing: seq<string>, matches: string -> bool,
                              load: string -> Result<Json>, version: string -> int)
    requires !((hour == 6 || hour == 18) && minute > 58)
    ensures Items([], hour, minute, listing, matches, load, version) == Call([], [], None)
  {
  }

  /** `n` calls consume the first `n` files in order, whatever they hold. */
  lemma {:induction false} CallsConsumeInOrder(files: seq<string>, n: nat, hour: int, minute: int, listing: seq<string>,
                                               matches: string -> bool, load: string -> Result<Json>, version: string -> int)
    requires n <= |files|
    ensures RunCalls(files, n, hour, minute, listing, matches, load, version) == files[n..]
    decreases n
  {
    if n > 0 {
      var r := Items(files, hour, minute, listing, matches, load, version);
      assert r.files == files[1..];
      CallsConsumeInOrder(files[1..], n - 1, hour, minute, listing, matches, load, version);
      assert files[1..][n - 1..] == files[n..];
    }
  }

  /** The file list after `n` calls at the same time of day. */
  function RunCalls(files: seq<string>, n: nat, hour: int, minute: int, listing: seq<string>,
                    matches: string -> bool, load: string -> Result<Json>, version: string -> int): seq<string>
    decreases n
  {
    if n == 0 then files
    else RunCalls(Items(files, hour, minute, listing, matches, load, version).files, n - 1, hour, minute, listing, matches, load, version)
  }
}

=== FILE: orgs.dfy ===
/** The organisations source (openprocurement/search/source/orgs.py): the UA-EDR decoder
    with its query cache, the `patch_entity` enrichment, and the `OrgsSource` queue
    (`push`, `items`, `need_reset`, `patch_item`).

    The SQLite registry is a lookup function `db(code)`.  Codes and names are JSON
    values; a code that is a list or a dict is outside this model and reads as
    "no code". */
module Orgs {
  import opened Wrappers
  import opened Strs
  import opened Json

  /** A registry row `(code, name, short, loc)`. */
  datatype Row = Row(code: string, name: string, short: string, loc: string)

  /** The answer of `SELECT ... WHERE code=?`: a row, none, or an exception (which
      disconnects the decoder). */
  datatype DbAnswer = Found(row: Row) | Missing | DbFailed

  /** A cached row and its hit count (`q_cache[code] = [row, hits]`). */
  datatype Entry = Entry(row: Row, hits: nat)

  /** `OrgsDecoder`: whether the cursor is open, and the query cache. */
  datatype Decoder = Decoder(connected: bool, cache: map<string, Entry>)

  /** The cache size above which `query` purges before a registry lookup. */
  const CacheLimit: nat := 10000

  /** The codes are 8-digit strings: shorter ones are left-padded with `'0'`. */
  function CacheKey(code: string): (k: string)
    ensures |k| == if |code| < 8 then 8 else |code|
    ensures k[|k| - |code|..] == code
    ensures forall i :: 0 <= i < |k| - |code| ==> k[i] == '0'
  {
    LeftPad(code, '0', 8)
  }

  /** Padding is idempotent: a key already padded to eight characters is its own key. */
  lemma {:induction false} CacheKeyIdempotent(code: string)
    ensures CacheKey(CacheKey(code)) == CacheKey(code)
  {
    var k := CacheKey(code);
    assert |k| >= 8;
    var k2 := CacheKey(k);
    assert |k2| == |k|;
    assert k2 == k2[|k2| - |k|..];
  }

  /** One purge round: drop the entries hit fewer than `limit` times. */
  function Evict(cache: map<string, Entry>, limit: nat): (r: map<string, Entry>)
    ensures forall k :: k in r <==> k in cache && cache[k].hits >= limit
    ensures forall k :: k in r ==> r[k] == cache[k]
  {
    map k | k in cache && cache[k].hits >= limit :: cache[k]
  }

  /** The highest hit count in the cache (0 when empty). */
  ghost function MaxHits(m: map<string, Entry>): (r: nat)
    ensures forall k :: k in m ==> m[k].hits <= r
    ensures |m| > 0 ==> exists k :: k in m && m[k].hits == r
    decreases m.Keys
  {
    if |m| == 0 then 0
    else
      var k :| k in m;
      var rest := MaxHits(m - {k});
      assert forall k' :: k' in m && k' != k ==> k' in m - {k};
      if m[k].hits >= rest then m[k].hits else rest
  }

  /** The purge loop of `query`: evict with a rising limit until at most `CacheLimit`
      entries remain.  It ends because the limit overtakes every hit count. */
  function Purge(cache: map<string, Entry>, limit: nat): (r: map<string, Entry>)
    requires |cache| > CacheLimit
    decreases if limit <= MaxHits(cache) then MaxHits(cache) + 1 - limit else 0
    ensures |r| <= CacheLimit
    ensures forall k :: k in r ==> k in cache && r[k] == cache[k] && cache[k].hits >= limit
  {
    var c := Evict(cache, limit);
    if |c| <= CacheLimit then c
    else
      assert MaxHits(c) >= limit;
      assert MaxHits(c) <= MaxHits(cache);
      Purge(c, limit + 1)
  }

  /** `OrgsDecoder.query(code)` for a string code.  A code `str()` cannot encode (one
      that is not ASCII) returns `None` before the cache or the registry is touched. */
  function Query(d: Decoder, code: string, db: string -> DbAnswer): (r: (Decoder, Option<Row>))
    ensures !d.connected || code == "" || !Ascii(code) ==> r == (d, None)
    ensures d.connected && code != "" && Ascii(code) && CacheKey(code) in d.cache ==>
      var k := CacheKey(code);
      r == (d.(cache := d.cache[k := d.cache[k].(hits := d.cache[k].hits + 1)]), Some(d.cache[k].row))
    ensures d.connected && code != "" && Ascii(code) && CacheKey(code) !in d.cache ==>
      var k := CacheKey(code);
      r.1 == (if db(k).Found? then Some(db(k).row) else None)
      && r.0.connected == !db(k).DbFailed?
      && (db(k).Found? ==> k in r.0.cache && r.0.cache[k] == Entry(db(k).row, 1))
      && (!db(k).Found? ==> k !in r.0.cache)
    ensures forall k :: k in r.0.cache ==> k in d.cache || k == CacheKey(code)
    ensures |d.cache| <= CacheLimit + 1 ==> |r.0.cache| <= CacheLimit + 1
  {
    if !d.connected || code == "" || !Ascii(code) then (d, None)
    else
      var k := CacheKey(code);
      if k in d.cache then
        (d.(cache := d.cache[k := d.cache[k].(hits := d.cache[k].hits + 1)]), Some(d.cache[k].row))
      else
        var cache := if |d.cache| > CacheLimit then Purge(d.cache, 3) else d.cache;
        assert k !in cache;
        match db(k)
        case Found(row) => (Decoder(true, cache[k := Entry(row, 1)]), Some(row))
        case Missing => (Decoder(true, cache), None)
        case DbFailed => (Decoder(false, cache), None)
  }

  /** A code and the same code with a leading zero are one cache entry, up to 8 digits. */
  lemma QueryPadding(d: Decoder, code: string, db: string -> DbAnswer)
    requires code != "" && |code| < 8 && Ascii(code)
    ensures Query(d, code, db) == Query(d, "0" + code, db)
  {
    assert CacheKey(code) == CacheKey(['0'] + code);
  }

  /** Once a code is found, asking again answers the same row from the cache and counts
      the hit. */
  lemma QueryCaches(d: Decoder, code: string, db: string -> DbAnswer)
    requires d.connected && code != "" && Ascii(code) && db(CacheKey(code)).Found?
    ensures var r1 := Query(d, code, db);
      var r2 := Query(r1.0, code, db);
      r2.1 == r1.1 && r2.0.cache[CacheKey(code)].hits == r1.0.cache[CacheKey(code)].hits + 1
  {
  }

  /** The code `query` looks up: `str(code)` of an identifier value, `None` for a falsy
      one and for a string `str()` cannot encode.  A float counts under its printed
      text and `True` as `'True'`. */
  function CodeText(j: Json): (r: Option<string>)
    ensures r.Some? ==> r.value != "" && Truthy(j)
    ensures j.JStr? ==> (r.Some? <==> j.s != "" && Ascii(j.s)) && (r.Some? ==> r.value == j.s)
    ensures j.JInt? ==> (r.Some? <==> j.i != 0) && (r.Some? ==> r.value == IntToStr(j.i))
    ensures j.JNull? || j.JArr? || j.JObj? ==> r.None?
  {
    match j
    case JStr(s) => if s == "" || !Ascii(s) then None else Some(s)
    case JInt(i) => if i == 0 then None else Some(IntToStr(i))
    case JFloat(t) => if Truthy(JFloat(t)) && t != "" then Some(t) else None
    case JBool(b) => if b then Some("True") else None
    case _ => None
  }

  /** The `registryRecord` built from a row. */
  function Record(row: Row): Json {
    JObj(map["edrpou" := JStr(row.code), "name" := JStr(row.name),
             "shortName" := JStr(row.short), "location" := JStr(row.loc)])
  }

  /** Whether `patch_entity` asks the registry about an entity: the decoder is connected,
      the entity is a dict without `registryRecord`, and its identifier is UA-EDR. */
  predicate Eligible(d: Decoder, entity: Json) {
    d.connected && entity.JObj? && |entity.fields| > 0
    && "registryRecord" !in entity.fields
    && "identifier" in entity.fields && entity.fields["identifier"].JObj?
    && Get(entity.fields["identifier"], "scheme") == JStr("UA-EDR")
  }

  /** `OrgsDecoder.patch_entity(entity)`: adds `registryRecord` from the registry row of
      a UA-EDR identifier; every failure inside is swallowed. */
  function PatchEntity(d: Decoder, entity: Json, db: string -> DbAnswer): (r: (Decoder, Json))
    ensures !Eligible(d, entity) ==> r == (d, entity)
    ensures Eligible(d, entity) && CodeText(Get(entity.fields["identifier"], "id")).None? ==> r == (d, entity)
    ensures Eligible(d, entity) && CodeText(Get(entity.fields["identifier"], "id")).Some? ==>
      var q := Query(d, CodeText(Get(entity.fields["identifier"], "id")).value, db);
      r.0 == q.0
      && (q.1.None? ==> r.1 == entity)
      && (q.1.Some? ==> r.1 == JObj(entity.fields["registryRecord" := Record(q.1.value)]))
  {
    if !Eligible(d, entity) then (d, entity)
    else
      var code := CodeText(Get(entity.fields["identifier"], "id"));
      if code.None? then (d, entity)
      else
        var q := Query(d, code.value, db);
        if q.1.None? then (q.0, entity)
        else (q.0, JObj(entity.fields["registryRecord" := Record(q.1.value)]))
  }

  /** `patch_entity` is idempotent on the entity: a patched entity carries
      `registryRecord`, and an unpatched one gets the same registry answer again. */
  lemma PatchEntityIdempotent(d: Decoder, entity: Json, db: string -> DbAnswer)
    ensures var r := PatchEntity(d, entity, db);
      PatchEntity(r.0, r.1, db).1 == r.1
  {
    var r := PatchEntity(d, entity, db);
    if Eligible(d, entity) && CodeText(Get(entity.fields["identifier"], "id")).Some? {
      var code := CodeText(Get(entity.fields["identifier"], "id")).value;
      var q := Query(d, code, db);
      if q.1.None? && Eligible(r.0, r.1) && Ascii(code) {
        assert CacheKey(code) !in d.cache;
        assert CacheKey(code) !in q.0.cache;
      }
    }
  }

  // ---------------------------------------------------------------- the queue

  /** A queued organisation: `id` is its code; `dateModified` is `''`, the doc type
      `'org'` and the version 1 for every queued item. */
  datatype Queued = Queued(id: string, data: Json)

  /** `len(v)`: strings, lists and dicts have one, other values raise `TypeError`. */
  function Len(v: Json): (r: Result<nat>)
    ensures v.JStr? ==> r == Ok(|v.s|)
    ensures !v.JStr? && !v.JArr? && !v.JObj? ==> r == Raise(TypeError)
  {
    match v
    case JStr(s) => Ok(|s|)
    case JArr(xs) => Ok(|xs|)
    case JObj(m) => Ok(|m|)
    case _ => Raise(TypeError)
  }

  /** Python's `a or b`. */
  function Or(a: Json, b: Json): Json {
    if Truthy(a) then a else b
  }

  /** `d.get(key, default)` on a dict; a non-dict reads as empty. */
  function GetDefault(d: Json, key: string, default: Json): (r: Json)
    ensures Has(d, key) ==> r == d.fields[key]
    ensures !Has(d, key) ==> r == default
  {
    if Has(d, key) then d.fields[key] else default
  }

  /** The name `push` and `patch_item` take: `name`, else `name_ru`, else the
      identifier's `legalName`, else `''`. */
  function OrgName(item: Json): Json {
    Or(Or(Get(item, "name"), Get(item, "name_ru")), GetDefault(GetDefault(item, "identifier", JObj(map[])), "legalName", JStr("")))
  }

  /** The code `push` checks: an int is printed; a missing identifier, a falsy code or a
      value without a length is rejected (`None`); a container keeps its value. */
  function PushCode(item: Json): (r: Option<Json>)
    ensures r.Some? ==> r.value.JStr? || r.value.JArr? || r.value.JObj?
    ensures !Has(item, "identifier") || !Has(item.fields["identifier"], "id") ==> r == None
    ensures Has(item, "identifier") && Has(item.fields["identifier"], "id") ==>
      var c := item.fields["identifier"].fields["id"];
      (c.JInt? ==> r == if c.i == 0 then None else Some(JStr(IntToStr(c.i))))
      && (c.JStr? ==> r == Some(c))
      && (c.JArr? || c.JObj? ==> r == Some(c))
      && (c.JNull? || c.JBool? || c.JFloat? ==> r == None)
  {
    if !Has(item, "identifier") || !Has(item.fields["identifier"], "id") then None
    else match item.fields["identifier"].fields["id"]
      case JInt(i) => if i == 0 then None else Some(JStr(IntToStr(i)))
      case JStr(s) => Some(JStr(s))
      case JArr(xs) => Some(JArr(xs))
      case JObj(m) => Some(JObj(m))
      case _ => None
  }

  /** What a successful `push` returns: the queue and whether it should be flushed. */
  datatype Pushed = Pushed(queue: map<string, Queued>, flush: bool)

  /** `OrgsSource.push(item)`: rejects a code outside 5..15 characters and a name
      shorter than 3, keeps the first item queued per code, and asks for a flush once
      the queue holds `orgs_queue` items.  A list or dict code passes the length check
      and then cannot be a dict key; a name without a length raises as well. */
  function Push(queue: map<string, Queued>, item: Json, queueSize: int): (r: Result<Pushed>)
    ensures r.Ok? && r.value.queue != queue ==>
      PushCode(item).Some? && PushCode(item).value.JStr?
      && var code := PushCode(item).value.s;
      5 <= |code| <= 15 && code !in queue && r.value.queue == queue[code := Queued(code, item)]
      && Len(OrgName(item)).Ok? && Len(OrgName(item)).value >= 3
    ensures r.Ok? ==> r.value.queue == queue || |r.value.queue| == |queue| + 1
    ensures r.Ok? ==> forall k :: k in queue ==> k in r.value.queue && r.value.queue[k] == queue[k]
    ensures r.Ok? && r.value.flush ==> |r.value.queue| >= queueSize
    ensures r.Raise? ==> r.exc == TypeError
  {
    var code := PushCode(item);
    if code.None? then Ok(Pushed(queue, false))
    else
      var n := Len(code.value).value;
      if n < 5 || n > 15 then Ok(Pushed(queue, false))
      else
        var name := OrgName(item);
        if !Truthy(name) then Ok(Pushed(queue, false))
        else
          var len :- Len(name);
          if len < 3 then Ok(Pushed(queue, false))
          else if !code.value.JStr? then Raise(TypeError)
          else
            var q := if code.value.s !in queue then queue[code.value.s := Queued(code.value.s, item)] else queue;
            Ok(Pushed(q, |q| >= queueSize))
  }

  /** A well-formed organisation is queued under its code, unless that code is queued
      already, and the flush answer compares the new size with `orgs_queue`. */
  lemma PushAccepts(queue: map<string, Queued>, item: Json, queueSize: int, code: string, name: string)
    requires Has(item, "identifier") && Has(item.fields["identifier"], "id")
    requires item.fields["identifier"].fields["id"] == JStr(code) && 5 <= |code| <= 15
    requires OrgName(item) == JStr(name) && |name| >= 3
    ensures var q := if code in queue then queue else queue[code := Queued(code, item)];
      Push(queue, item, queueSize) == Ok(Pushed(q, |q| >= queueSize))
  {
  }

  /** `items()`: every queued item once, in dict order, then an empty queue. */
  function Items(queue: map<string, Queued>, order: seq<string>): (r: (map<string, Queued>, seq<Queued>))
    requires IsOrder(order, queue.Keys)
    ensures r.0 == map[] && |r.1| == |queue| == |order|
    ensures forall k :: k in queue ==> exists j :: 0 <= j < |r.1| && r.1[j] == queue[k]
    ensures forall j :: 0 <= j < |r.1| ==> r.1[j] == queue[order[j]]
  {
    assert |queue.Keys| == |order| by {
      OrderSize(order, queue.Keys);
    }
    var ys := Lookup(queue, order);
    assert forall k :: k in queue ==> exists j :: 0 <= j < |ys| && ys[j] == queue[k] by {
      forall k | k in queue ensures exists j :: 0 <= j < |ys| && ys[j] == queue[k] {
        var j :| 0 <= j < |order| && order[j] == k;
        assert ys[j] == queue[k];
      }
    }
    (map[], ys)
  }

  /** The entries of `queue` under the keys of `order`, in that order. */
  function Lookup(queue: map<string, Queued>, order: seq<string>): (r: seq<Queued>)
    requires forall j :: 0 <= j < |order| ==> order[j] in queue
    ensures |r| == |order| && forall j :: 0 <= j < |order| ==> r[j] == queue[order[j]]
  {
    if |order| == 0 then [] else [queue[order[0]]] + Lookup(queue, order[1..])
  }

  /** `OrgsSource.need_reset()`: a reset is due when it was requested and the queue is
      drained, or when a registry is configured but not open. */
  function NeedReset(shouldReset: bool, queueSize: nat, dbOpen: bool, dbConfigured: bool): (r: bool)
    ensures shouldReset && queueSize == 0 ==> r
    ensures dbConfigured && !dbOpen ==> r
    ensures r ==> (shouldReset && queueSize == 0) || (dbConfigured && !dbOpen)
  {
    (shouldReset && queueSize == 0) || (!dbOpen && dbConfigured)
  }

  /** A requested reset waits for the queue: with a usable registry (open, or none
      configured) it is not due while items are queued, it is due once `items()` has
      drained the queue, and without a request it is never due. */
  lemma NeedResetWaitsForQueue(queue: map<string, Queued>, order: seq<string>, dbOpen: bool, dbConfigured: bool)
    requires IsOrder(order, queue.Keys)
    requires dbOpen || !dbConfigured
    ensures |queue| > 0 ==> !NeedReset(true, |queue|, dbOpen, dbConfigured)
    ensures NeedReset(true, |Items(queue, order).0|, dbOpen, dbConfigured)
    ensures !NeedReset(false, |queue|, dbOpen, dbConfigured)
  {
  }

  /** The document `patch_item` builds for the orgs index. */
  datatype OrgDoc = OrgDoc(edrpou: string, location: Json, name: Json, short: Json, rank: int)

  /** What `patch_item` returns: the decoder (when one is open), the document, and which
      counter it bumped (`Some(true)` found, `Some(false)` not found). */
  datatype Patched = Patched(db: Option<Decoder>, doc: OrgDoc, found: Option<bool>)

  /** `d.get(key, default)`, where a value that is not a dict has no `get` and raises
      `AttributeError`. */
  function AttrGet(d: Json, key: string, default: Json): (r: Result<Json>)
    ensures d.JObj? <==> r.Ok?
    ensures r.Ok? ==> r.value == GetDefault(d, key, default)
    ensures r.Raise? ==> r.exc == AttributeError
  {
    if d.JObj? then Ok(GetDefault(d, key, default)) else Raise(AttributeError)
  }

  /** The name `patch_item` takes, evaluated the way Python's `or` does: the
      identifier's `legalName` is read only when `name` and `name_ru` are both falsy. */
  function OrgNameOf(data: Json): (r: Result<Json>)
    requires data.JObj?
    ensures r.Raise? <==> !Truthy(Get(data, "name")) && !Truthy(Get(data, "name_ru"))
                          && Has(data, "identifier") && !data.fields["identifier"].JObj?
    ensures r.Raise? ==> r.exc == AttributeError
    ensures r.Ok? ==> r.value == OrgName(data)
  {
    var first := Or(Get(data, "name"), Get(data, "name_ru"));
    if Truthy(first) then Ok(first)
    else
      AttrGet(GetDefault(data, "identifier", JObj(map[])), "legalName", JStr(""))
  }

  /** The item data `patch_item` can read: a dict whose `address`, when present, is a
      dict, and whose `identifier` is a dict when the name falls back to it. */
  predicate Readable(data: Json) {
    data.JObj? && (Has(data, "address") ==> data.fields["address"].JObj?)
    && OrgNameOf(data).Ok?
  }

  /** The `location` of the document: the address's `region`, `''` without one. */
  function Location(data: Json): Json {
    GetDefault(GetDefault(data, "address", JObj(map[])), "region", JStr(""))
  }

  /** `OrgsSource.patch_item(item)`: name and location come from the queued data, and
      from the registry row when the decoder knows the code; the rank starts at 1.  The
      document is built before the registry is asked, so data it cannot read raises
      `AttributeError` with the decoder untouched. */
  function PatchItem(orgsDb: Option<Decoder>, q: Queued, db: string -> DbAnswer): (r: Result<Patched>)
    ensures r.Raise? <==> !Readable(q.data)
    ensures r.Raise? ==> r.exc == AttributeError
    ensures r.Ok? ==> r.value.doc.edrpou == q.id && r.value.doc.rank == 1
    ensures r.Ok? && (orgsDb.None? || q.id == "") ==>
      (r.value.db == orgsDb && r.value.found.None?
       && r.value.doc.name == OrgName(q.data) && r.value.doc.short == JStr("")
       && r.value.doc.location == Location(q.data))
    ensures r.Ok? && orgsDb.Some? && q.id != "" ==>
      var a := Query(orgsDb.value, q.id, db);
      r.value.db == Some(a.0) && r.value.found == Some(a.1.Some?)
      && (a.1.Some? ==> r.value.doc.name == JStr(a.1.value.name) && r.value.doc.short == JStr(a.1.value.short)
                        && r.value.doc.location == JStr(a.1.value.loc))
      && (a.1.None? ==> r.value.doc.name == OrgName(q.data) && r.value.doc.short == JStr("")
                        && r.value.doc.location == Location(q.data))
  {
    var addr :- AttrGet(q.data, "address", JObj(map[]));
    var loc :- AttrGet(addr, "region", JStr(""));
    var name :- OrgNameOf(q.data);
    var base := OrgDoc(q.id, loc, name, JStr(""), 1);
    if orgsDb.None? || q.id == "" then Ok(Patched(orgsDb, base, None))
    else
      var a := Query(orgsDb.value, q.id, db);
      if a.1.Some? then
        Ok(Patched(Some(a.0), base.(name := JStr(a.1.value.name), short := JStr(a.1.value.short), location := JStr(a.1.value.loc)), Some(true)))
      else Ok(Patched(Some(a.0), base, Some(false)))
  }

  /** The UA-EDR organisation `patch_entity` would see for code `id`. */
  function EntityOf(id: string): Json {
    JObj(map["identifier" := JObj(map["scheme" := JStr("UA-EDR"), "id" := JStr(id)])])
  }

  /** `patch_item` asks the registry exactly as `patch_entity` does for an entity with
      the same UA-EDR code: it leaves the same decoder, and it counts a find exactly
      when `patch_entity` adds a `registryRecord`. */
  lemma {:induction false} PatchItemLikeEntity(d: Decoder, q: Queued, db: string -> DbAnswer)
    requires Readable(q.data)
    ensures var p := PatchItem(Some(d), q, db).value;
      var e := PatchEntity(d, EntityOf(q.id), db);
      p.db == Some(e.0) && e.1.JObj?
      && (p.found == Some(true) <==> "registryRecord" in e.1.fields)
      && (p.found.Some? <==> q.id != "")
  {
    var e := EntityOf(q.id);
    assert Get(e.fields["identifier"], "scheme") == JStr("UA-EDR");
    assert Get(e.fields["identifier"], "id") == JStr(q.id);
  }

  /** A code `str()` cannot encode is counted as not found and changes nothing in the
      decoder: `query` returns before its cache or the registry is touched. */
  lemma NonAsciiNotFound(d: Decoder, q: Queued, db: string -> DbAnswer)
    requires Readable(q.data) && !Ascii(q.id)
    ensures PatchItem(Some(d), q, db) == Ok(Patched(Some(d), PatchItem(None, q, db).value.doc, Some(false)))
  {
  }
}

=== FILE: rank_update.dfy ===
/** The organisation rank updater (openprocurement/search/update_orgs.py): counting
    procuring entities by code, the pass loop of `process_source`, and writing the
    counts back as `rank` into the orgs index (`flush_orgs_map`).

    The index is two oracles: `lookup(code)` is the stored document (`None` when the
    backend answers "not found"), and `write(n)` says whether the `n`-th write attempt
    succeeds.  `exiting(i)` is the `should_exit` flag seen before step `i`. */
module RankUpdate {
  import opened Wrappers
  import opened Strs
  import opened Json

  /** The code `process_entity` counts: `identifier.id` printed with `str`, when it is
      truthy and 5 to 15 characters long.  A missing key, a non-dict, a falsy value,
      a non-ASCII string and a bad length all reject the entity.  A float counts under
      its printed text (`123456.0`). */
  function EntityCode(entity: Json): (r: Option<string>)
    ensures r.Some? ==> 5 <= |r.value| <= 15 && Ascii(r.value)
    ensures r.Some? ==> Has(entity, "identifier") && Has(entity.fields["identifier"], "id")
    ensures Has(entity, "identifier") && Has(entity.fields["identifier"], "id") ==>
      var id := entity.fields["identifier"].fields["id"];
      && (r.Some? ==> Truthy(id))
      && (id.JStr? ==> (r.Some? <==> id.s != "" && 5 <= |id.s| <= 15 && Ascii(id.s)) && (r.Some? ==> r.value == id.s))
      && (id.JFloat? ==> (r.Some? <==> Truthy(id) && 5 <= |id.text| <= 15 && Ascii(id.text)) && (r.Some? ==> r.value == id.text))
      && (id.JInt? ==> (r.Some? <==> id.i != 0 && 5 <= |IntToStr(id.i)| <= 15) && (r.Some? ==> r.value == IntToStr(id.i)))
  {
    if !Has(entity, "identifier") || !Has(entity.fields["identifier"], "id") then None
    else
      var text := match entity.fields["identifier"].fields["id"]
        case JStr(s) => if s == "" || !Ascii(s) then None else Some(s)
        case JInt(i) => if i == 0 then None else Some(IntToStr(i))
        case JBool(b) => if b then Some("True") else None
        case JFloat(t) => if Truthy(JFloat(t)) then Some(t) else None
        case _ => None;
      if text.Some? && 5 <= |text.value| <= 15 && Ascii(text.value) then text else None
  }

  /** How often a code has been counted (0 when absent). */
  function Count(m: map<string, nat>, code: string): nat {
    if code in m then m[code] else 0
  }

  /** `process_entity`: count the entity's code, or reject it (indexing the entity as an
      org happens in between and its failure does not stop the count). */
  function ProcessEntity(m: map<string, nat>, entity: Json): (r: (map<string, nat>, bool))
    ensures r.1 <==> EntityCode(entity).Some?
    ensures forall c :: Count(r.0, c) == Count(m, c) + (if EntityCode(entity) == Some(c) then 1 else 0)
    ensures r.0.Keys == m.Keys + (if r.1 then {EntityCode(entity).value} else {})
  {
    match EntityCode(entity)
    case None => (m, false)
    case Some(c) => (m[c := Count(m, c) + 1], true)
  }

  /** Counting a run of entities in order. */
  function ProcessAll(m: map<string, nat>, es: seq<Json>): map<string, nat>
    decreases |es|
  {
    if |es| == 0 then m else ProcessAll(ProcessEntity(m, es[0]).0, es[1..])
  }

  /** How many entities of `es` carry `code`. */
  function Occurrences(es: seq<Json>, code: string): nat
    decreases |es|
  {
    if |es| == 0 then 0
    else (if EntityCode(es[0]) == Some(code) then 1 else 0) + Occurrences(es[1..], code)
  }

  /** The rank a code ends with is the number of entities carrying it. */
  lemma {:induction false} ProcessAllCounts(m: map<string, nat>, es: seq<Json>, code: string)
    ensures Count(ProcessAll(m, es), code) == Count(m, code) + Occurrences(es, code)
    decreases |es|
  {
    if |es| > 0 {
      ProcessAllCounts(ProcessEntity(m, es[0]).0, es[1..], code);
    }
  }

  /** Codes are never dropped from the map, and only counted codes are added. */
  lemma {:induction false} ProcessAllKeys(m: map<string, nat>, es: seq<Json>, code: string)
    ensures code in ProcessAll(m, es) <==> code in m || Occurrences(es, code) > 0
    decreases |es|
  {
    if |es| > 0 {
      ProcessAllKeys(ProcessEntity(m, es[0]).0, es[1..], code);
    }
  }

  // ------------------------------------------------------------ process_source

  /** One call of `source.items()` as `process_source` sees it: how many metas it
      yielded before it ended, whether the source then reports `last_skipped`, and
      whether a `get` inside it raised. */
  datatype Pass = Pass(items: nat, lastSkipped: bool, raised: bool)

  /** Beyond the recorded passes the source yields nothing and skips nothing. */
  function PassAt(passes: seq<Pass>, k: nat): Pass {
    if k < |passes| then passes[k] else Pass(0, false, false)
  }

  /** Items yielded by `n` passes from pass `k` on. */
  function Total(passes: seq<Pass>, k: nat, n: nat): nat
    decreases n
  {
    if n == 0 then 0 else PassAt(passes, k).items + Total(passes, k + 1, n - 1)
  }

  /** Whether the loop asks for another pass: before 100 items a skipping source always
      gets one; otherwise a pass must have yielded at least 5 items. */
  predicate Continues(p: Pass, before: nat) {
    !p.raised && ((before + p.items < 100 && p.lastSkipped) || p.items >= 5)
  }

  /** The outcome of `process_source`: passes started and items counted. */
  datatype Processed = Processed(ran: nat, items: nat)

  /** The pass loop of `process_source` from pass `k` with `count` items so far. */
  function ProcessSource(passes: seq<Pass>, exiting: nat -> bool, k: nat, count: nat): (r: Processed)
    decreases |passes| - k
    ensures r.items == count + Total(passes, k, r.ran)
    ensures exiting(k + r.ran)
      || (r.ran > 0 && !Continues(PassAt(passes, k + r.ran - 1), count + Total(passes, k, r.ran - 1)))
    ensures forall j | k <= j < k + r.ran :: !exiting(j)
    ensures forall j | k <= j < k + r.ran - 1 :: Continues(PassAt(passes, j), count + Total(passes, k, j - k))
    ensures k <= |passes| ==> r.ran <= |passes| - k + 1
  {
    if exiting(k) then Processed(0, count)
    else
      var p := PassAt(passes, k);
      if !Continues(p, count) then Processed(1, count + p.items)
      else
        var rest := ProcessSource(passes, exiting, k + 1, count + p.items);
        Processed(rest.ran + 1, rest.items)
  }

  /** A source that never reports `last_skipped` and keeps yielding at least 5 items
      is read pass after pass until its records run out. */
  lemma {:induction false} ProcessSourceDrains(passes: seq<Pass>, exiting: nat -> bool, k: nat, count: nat)
    requires k <= |passes|
    requires forall j :: 0 <= j < |passes| ==> passes[j].items >= 5 && !passes[j].raised
    requires forall j :: !exiting(j)
    ensures ProcessSource(passes, exiting, k, count).ran == |passes| - k + 1
    decreases |passes| - k
  {
    if k < |passes| {
      ProcessSourceDrains(passes, exiting, k + 1, count + passes[k].items);
    }
  }

  // ------------------------------------------------------------ flush_orgs_map

  /** A document found in the orgs index: `_id`, `_type`, `_version`, `_source`. */
  datatype Stored = Stored(id: string, docType: string, version: int, source: map<string, Json>)

  /** An item `flush_orgs_map` writes back. */
  datatype RankWrite = RankWrite(id: string, docType: string, version: int, data: map<string, Json>)

  /** The state and outcome of the flush loop. */
  datatype Flushed = Flushed(writes: seq<RankWrite>, iterCount: nat, updateCount: nat,
                             errorCount: nat, raised: Option<Exc>)

  /** The update for a stored document: the new rank in the source, the next version. */
  function Bump(s: Stored, rank: nat): RankWrite {
    RankWrite(s.id, s.docType, s.version + 1, s.source["rank" := JInt(rank)])
  }

  /** Whether a code's rank is written: at least 10, found, and different from the
      stored one (a stored document without `rank` raises `KeyError` instead). */
  predicate Wants(rank: nat, found: Option<Stored>) {
    rank >= 10 && found.Some? && "rank" in found.value.source
    && found.value.source["rank"] != JInt(rank)
  }

  /** `w` is the write the flush owes to `code`. */
  predicate Justified(m: map<string, nat>, lookup: string -> Option<Stored>, code: string, w: RankWrite) {
    code in m && Wants(m[code], lookup(code)) && w == Bump(lookup(code).value, m[code])
  }

  /** Every write of `ws` from index `from` on is owed to some code. */
  predicate AllJustified(m: map<string, nat>, lookup: string -> Option<Stored>, ws: seq<RankWrite>, from: nat) {
    forall j :: from <= j < |ws| ==> exists code :: code in m && Justified(m, lookup, code, ws[j])
  }

  /** The reference: the writes owed to the codes `order[i..]`, in order. */
  function Wanted(m: map<string, nat>, order: seq<string>, i: nat, lookup: string -> Option<Stored>): seq<RankWrite>
    requires i <= |order| && IsOrder(order, m.Keys)
    decreases |order| - i
  {
    if i == |order| then []
    else
      var code := order[i];
      (if Wants(m[code], lookup(code)) then [Bump(lookup(code).value, m[code])] else [])
      + Wanted(m, order, i + 1, lookup)
  }

  /** The loop of `flush_orgs_map` from the `i`-th code of the map. */
  function FlushLoop(m: map<string, nat>, order: seq<string>, i: nat, lookup: string -> Option<Stored>,
                     write: nat -> bool, exiting: nat -> bool, acc: Flushed): (r: Flushed)
    requires i <= |order| && IsOrder(order, m.Keys)
    requires acc.iterCount == i && acc.raised.None? && acc.updateCount == |acc.writes| && acc.errorCount <= 100
    decreases |order| - i
    ensures r.iterCount <= |order| && r.updateCount == |r.writes| && r.errorCount <= 101
    ensures r.raised.Some? ==> r.raised.value == KeyError
    ensures |r.writes| >= |acc.writes| && r.writes[..|acc.writes|] == acc.writes
    ensures AllJustified(m, lookup, r.writes, |acc.writes|)
  {
    if i == |order| || exiting(i) then acc
    else
      var code := order[i];
      var rank := m[code];
      var next := acc.(iterCount := i + 1);
      if rank < 10 || lookup(code).None? then FlushLoop(m, order, i + 1, lookup, write, exiting, next)
      else
        var found := lookup(code).value;
        if "rank" !in found.source then next.(raised := Some(KeyError))
        else if found.source["rank"] == JInt(rank) then FlushLoop(m, order, i + 1, lookup, write, exiting, next)
        else
          var w := Bump(found, rank);
          assert Justified(m, lookup, code, w);
          if write(acc.updateCount + acc.errorCount) then
            var r := FlushLoop(m, order, i + 1, lookup, write, exiting,
                               next.(writes := acc.writes + [w], updateCount := acc.updateCount + 1));
            assert r.writes[|acc.writes|] == (acc.writes + [w])[|acc.writes|] == w;
            r
          else if acc.errorCount + 1 > 100 then next.(errorCount := acc.errorCount + 1)
          else
            FlushLoop(m, order, i + 1, lookup, write, exiting, next.(errorCount := acc.errorCount + 1))
  }

  /** With a healthy index and no exit request, the flush writes exactly the owed
      updates, in map order, and visits every code. */
  lemma {:induction false} FlushLoopWritesWanted(m: map<string, nat>, order: seq<string>, i: nat,
      lookup: string -> Option<Stored>, write: nat -> bool, exiting: nat -> bool, acc: Flushed)
    requires i <= |order| && IsOrder(order, m.Keys)
    requires acc.iterCount == i && acc.raised.None? && acc.updateCount == |acc.writes| && acc.errorCount <= 100
    requires forall n :: write(n)
    requires forall n :: !exiting(n)
    requires forall c :: c in m && lookup(c).Some? ==> "rank" in lookup(c).value.source
    ensures var r := FlushLoop(m, order, i, lookup, write, exiting, acc);
      r.writes == acc.writes + Wanted(m, order, i, lookup) && r.iterCount == |order|
      && r.raised.None? && r.errorCount == acc.errorCount
    decreases |order| - i
  {
    if i < |order| {
      var code := order[i];
      var next := acc.(iterCount := i + 1);
      var rest := Wanted(m, order, i + 1, lookup);
      if Wants(m[code], lookup(code)) {
        var w := Bump(lookup(code).value, m[code]);
        var acc' := next.(writes := acc.writes + [w], updateCount := acc.updateCount + 1);
        assert Wanted(m, order, i, lookup) == [w] + rest;
        FlushStep(m, order, i, lookup, write, exiting, acc);
        FlushLoopWritesWanted(m, order, i + 1, lookup, write, exiting, acc');
        assert acc'.writes + rest == acc.writes + ([w] + rest);
      } else {
        assert Wanted(m, order, i, lookup) == rest;
        FlushStep(m, order, i, lookup, write, exiting, acc);
        FlushLoopWritesWanted(m, order, i + 1, lookup, write, exiting, next);
      }
    }
  }

  /** One step of the loop over a healthy index, without an exit request. */
  lemma FlushStep(m: map<string, nat>, order: seq<string>, i: nat, lookup: string -> Option<Stored>,
                  write: nat -> bool, exiting: nat -> bool, acc: Flushed)
    requires i < |order| && IsOrder(order, m.Keys)
    requires acc.iterCount == i && acc.raised.None? && acc.updateCount == |acc.writes| && acc.errorCount <= 100
    requires write(acc.updateCount + acc.errorCount) && !exiting(i)
    requires lookup(order[i]).Some? ==> "rank" in lookup(order[i]).value.source
    ensures var code := order[i];
      var next := acc.(iterCount := i + 1);
      FlushLoop(m, order, i, lookup, write, exiting, acc)
      == if Wants(m[code], lookup(code))
         then FlushLoop(m, order, i + 1, lookup, write, exiting,
                        next.(writes := acc.writes + [Bump(lookup(code).value, m[code])], updateCount := acc.updateCount + 1))
         else FlushLoop(m, order, i + 1, lookup, write, exiting, next)
  {
  }

  /** The loop before any code has been visited. */
  const Start: Flushed := Flushed([], 0, 0, 0, None)

  /** `flush_orgs_map` as written: without a current index name it returns at once;
      otherwise it runs the loop and then prints a percentage of `len(orgs_map)`,
      which divides by zero when the map is empty. */
  function FlushAsWritten(indexName: string, m: map<string, nat>, order: seq<string>,
                          lookup: string -> Option<Stored>, write: nat -> bool, exiting: nat -> bool): (r: Flushed)
    requires IsOrder(order, m.Keys)
    ensures indexName == "" ==> r == Start
    ensures indexName != "" && |m| == 0 ==> r.raised == Some(ZeroDivision)
    ensures indexName != "" && |m| > 0 ==> r == FlushLoop(m, order, 0, lookup, write, exiting, Start)
  {
    if indexName == "" then Start
    else
      var r := FlushLoop(m, order, 0, lookup, write, exiting, Start);
      if r.raised.None? && |order| == 0 then
        assert |m| == 0;
        r.(raised := Some(ZeroDivision))
      else
        OrderSize(order, m.Keys);
        r
  }

  /** The division by zero in practice: with a current orgs index, a source that yields
      no countable procuring entity makes `process_source`'s final flush raise, and the
      caller then skips every remaining source and the last flush. */
  lemma FlushEmptyMapRaises(indexName: string, lookup: string -> Option<Stored>, write: nat -> bool, exiting: nat -> bool)
    requires indexName != ""
    ensures FlushAsWritten(indexName, map[], [], lookup, write, exiting).raised == Some(ZeroDivision)
  {
  }

  /** `flush_orgs_map` with the percentage guarded by a non-empty map: the loop alone. */
  function Flush(indexName: string, m: map<string, nat>, order: seq<string>,
                 lookup: string -> Option<Stored>, write: nat -> bool, exiting: nat -> bool): (r: Flushed)
    requires IsOrder(order, m.Keys)
    ensures indexName == "" || |m| == 0 ==> r == Start
    ensures r.raised.Some? ==> r.raised.value == KeyError
    ensures r.iterCount <= |m| && r.updateCount == |r.writes| && r.errorCount <= 101
    ensures AllJustified(m, lookup, r.writes, 0)
  {
    if indexName == "" then Start
    else
      assert |m| == |order| by {
        OrderSize(order, m.Keys);
      }
      FlushLoop(m, order, 0, lookup, write, exiting, Start)
  }

  /** The corrected flush agrees with the original whenever the map is not empty. */
  lemma FlushAgrees(indexName: string, m: map<string, nat>, order: seq<string>,
                    lookup: string -> Option<Stored>, write: nat -> bool, exiting: nat -> bool)
    requires IsOrder(order, m.Keys) && |m| > 0
    ensures Flush(indexName, m, order, lookup, write, exiting) == FlushAsWritten(indexName, m, order, lookup, write, exiting)
  {
  }
}

=== FILE: search_server.dfy ===
/** The query side of the search API (openprocurement/search/search_server.py): the
    builders that turn request arguments into an Elasticsearch query body, the `/plans`
    limit, the `orgsuggest` search plan, the `/heartbeat` answer, and the index-key
    renaming applied at start-up.

    Request arguments are a multi-dict: each key maps to its values in request order.
    Python's `float()` is the parameter `toFloat` (`None` for text it rejects). */
module SearchServer {
  import opened Wrappers
  import opened Strs
  import opened Json

  type Args = map<string, seq<string>>

  /** `args.get(key)`: the first value of a key. */
  function Arg(args: Args, key: string): Option<string> {
    if key in args && |args[key]| > 0 then Some(args[key][0]) else None
  }

  /** `if not args.get(key): continue` passes: the key has a non-empty first value. */
  predicate Present(args: Args, key: string) {
    Arg(args, key).Some? && Arg(args, key).value != ""
  }

  // ---------------------------------------------------------------- clauses

  /** `match_query(query, field, type_, operator, analyzer)`; an empty string stands
      for an omitted optional argument. */
  function MatchQuery(terms: seq<string>, field: string, type_: string, operator: string, analyzer: string): (r: Json)
    ensures Has(r, "match") && Has(Get(r, "match"), field) && |Get(r, "match").fields| == 1
    ensures var q := Get(Get(r, "match"), field);
      q.JObj? && Get(q, "query") == JStr(Join(terms, " "))
      && (Has(q, "operator") <==> operator != "" && Contains(Join(terms, " "), ' '))
      && (Has(q, "operator") ==> Get(q, "operator") == JStr(operator))
      && (Has(q, "analyzer") <==> analyzer != "")
      && (Has(q, "analyzer") ==> Get(q, "analyzer") == JStr(analyzer))
      && (Has(q, "type") <==> type_ != "")
      && (forall k :: k in q.fields ==> k in {"query", "operator", "analyzer", "type"})
  {
    var qtext := Join(terms, " ");
    var q0 := map["query" := JStr(qtext)];
    var q1 := if operator != "" && Contains(qtext, ' ') then q0["operator" := JStr(operator)] else q0;
    var q2 := if analyzer != "" then q1["analyzer" := JStr(analyzer)] else q1;
    var q3 := if type_ != "" then q2["type" := JStr(type_)] else q2;
    Obj1("match", Obj1(field, JObj(q3)))
  }

  /** Two or more terms are joined with a space, so the operator is always sent. */
  lemma {:induction false} MatchQueryJoinsWithSpace(terms: seq<string>, field: string, operator: string)
    requires |terms| >= 2 && operator != ""
    ensures Has(Get(Get(MatchQuery(terms, field, "", operator, ""), "match"), field), "operator")
  {
    var qtext := Join(terms, " ");
    assert qtext == terms[0] + " " + Join(terms[1..], " ");
    assert qtext[|terms[0]|] == ' ';
  }

  /** One `prefix` clause. */
  function PrefixClause(field: string, term: string): Json {
    Obj1("prefix", Obj1(field, Obj1("prefix", JStr(term))))
  }

  /** Several clauses of which any may match; a single one is sent bare. */
  function AnyOf(body: seq<Json>): (r: Json)
    ensures |body| == 1 ==> r == body[0]
    ensures |body| != 1 ==> r == Obj1("bool", Obj1("should", JArr(body)))
  {
    if |body| == 1 then body[0] else Obj1("bool", Obj1("should", JArr(body)))
  }

  /** `prefix_query(query, field)`: one prefix clause per term. */
  function PrefixQuery(terms: seq<string>, field: string): (r: Json)
    ensures |terms| == 1 ==> r == PrefixClause(field, terms[0])
    ensures |terms| != 1 ==> r == Obj1("bool", Obj1("should", JArr(seq(|terms|, i requires 0 <= i < |terms| => PrefixClause(field, terms[i])))))
  {
    AnyOf(seq(|terms|, i requires 0 <= i < |terms| => PrefixClause(field, terms[i])))
  }

  /** The one field whose range bounds are numbers. */
  const AmountField := "value.amount"

  /** The clause `range_query` builds for one term: `a-b` splits on the first `-` into
      `gte`/`lte`; a bare term is `gte` for the amount and a prefix elsewhere.  Amounts
      go through `float()`, which raises `ValueError` on bad text. */
  function RangeClause(term: string, field: string, toFloat: string -> Option<Json>): (r: Result<Json>)
    ensures r.Raise? ==> r.exc == ValueError && field == AmountField
    ensures !Contains(term, '-') && field != AmountField ==> r == Ok(PrefixClause(field, term))
    ensures !Contains(term, '-') && field == AmountField ==>
      r == (if toFloat(term).Some? then Ok(Obj1("range", Obj1(field, Obj1("gte", toFloat(term).value)))) else Raise(ValueError))
    ensures Contains(term, '-') && field != AmountField ==>
      var parts := SplitFirst(term, '-');
      r == Ok(Obj1("range", Obj1(field, Obj2("gte", JStr(parts.0), "lte", JStr(parts.1)))))
      && parts.0 + "-" + parts.1 == term && !Contains(parts.0, '-')
  {
    if !Contains(term, '-') then
      if field == AmountField then
        match toFloat(term)
        case None => Raise(ValueError)
        case Some(v) => Ok(Obj1("range", Obj1(field, Obj1("gte", v))))
      else Ok(PrefixQuery([term], field))
    else
      var parts := SplitFirst(term, '-');
      if field == AmountField then
        match (toFloat(parts.0), toFloat(parts.1))
        case (Some(b), Some(e)) => Ok(Obj1("range", Obj1(field, Obj2("gte", b, "lte", e))))
        case _ => Raise(ValueError)
      else Ok(Obj1("range", Obj1(field, Obj2("gte", JStr(parts.0), "lte", JStr(parts.1)))))
  }

  /** The clauses of `range_query`, term by term; the first bad amount raises. */
  function RangeClauses(terms: seq<string>, field: string, toFloat: string -> Option<Json>): (r: Result<seq<Json>>)
    ensures r.Ok? ==> |r.value| == |terms| && forall i :: 0 <= i < |terms| ==> RangeClause(terms[i], field, toFloat) == Ok(r.value[i])
    ensures r.Raise? ==> r.exc == ValueError && exists i :: 0 <= i < |terms| && RangeClause(terms[i], field, toFloat).Raise?
  {
    MapAll(terms, (t: string) => RangeClause(t, field, toFloat))
  }

  /** `range_query(query, field)`. */
  function RangeQuery(terms: seq<string>, field: string, toFloat: string -> Option<Json>): (r: Result<Json>)
    ensures r.Ok? <==> RangeClauses(terms, field, toFloat).Ok?
    ensures r.Ok? ==> r.value == AnyOf(RangeClauses(terms, field, toFloat).value)
  {
    var body :- RangeClauses(terms, field, toFloat);
    Ok(AnyOf(body))
  }

  /** On a field other than the amount, a term without `-` never raises: it becomes a
      prefix clause. */
  lemma RangeQueryNoDashPrefix(term: string, field: string, toFloat: string -> Option<Json>)
    requires field != AmountField && !Contains(term, '-')
    ensures RangeQuery([term], field, toFloat) == Ok(PrefixClause(field, term))
  {
  }

  /** `dates_query(query, (op, key))`: one bound in the +2:00 time zone. */
  function DatesQuery(value: string, op: string, key: string): (r: Json)
    ensures Get(Get(Get(r, "range"), key), op) == JStr(value) || op == "time_zone"
    ensures Get(Get(Get(r, "range"), key), "time_zone") == JStr("+2:00")
  {
    Obj1("range", Obj1(key, Obj2(op, JStr(value), "time_zone", JStr("+2:00"))))
  }

  // ---------------------------------------------------------------- the body

  /** How an argument becomes a clause. */
  datatype Kind = Prefix | Exact | Range | Dates(op: string) | FullText

  /** One entry of `prefix_map`, `match_map`, `range_map`, `dates_map` or `ftext_map`. */
  datatype Rule = Rule(key: string, kind: Kind, field: string)

  /** The argument tables, group by group in the order the body is built.  Inside a
      group Python 2 visits the keys in hash order; the model fixes the listed one. */
  const Rules: seq<Rule> := [
    Rule("tid", Prefix, "tenderID"),
    Rule("pid", Prefix, "planID"),
    Rule("cpv", Prefix, "items.classification.id"),
    Rule("dkpp", Prefix, "items.additionalClassifications.id"),
    Rule("plan_cpv", Prefix, "classification.id"),
    Rule("plan_dkpp", Prefix, "additionalClassifications.id"),
    Rule("tid_exact", Exact, "tenderID"),
    Rule("pid_exact", Exact, "planID"),
    Rule("cpv_exact", Exact, "items.classification.id"),
    Rule("dkpp_exact", Exact, "items.additionalClassifications.id"),
    Rule("plan_cpv_exact", Exact, "classification.id"),
    Rule("plan_dkpp_exact", Exact, "additionalClassifications.id"),
    Rule("edrpou", Exact, "procuringEntity.identifier.id"),
    Rule("procedure", Exact, "procurementMethod"),
    Rule("proc_type", Exact, "procurementMethodType"),
    Rule("tender_procedure", Exact, "tender.procurementMethod"),
    Rule("tender_proc_type", Exact, "tender.procurementMethodType"),
    Rule("plan_procedure", Exact, "tender.procurementMethod"),
    Rule("plan_proc_type", Exact, "tender.procurementMethodType"),
    Rule("status", Exact, "status"),
    Rule("region", Range, "procuringEntity.address.postalCode"),
    Rule("value", Range, AmountField),
    Rule("auction_start", Dates("gte"), "auctionPeriod.endDate"),
    Rule("auction_end", Dates("lte"), "auctionPeriod.startDate"),
    Rule("award_start", Dates("gte"), "awardPeriod.endDate"),
    Rule("award_end", Dates("lte"), "awardPeriod.startDate"),
    Rule("enquiry_start", Dates("gte"), "enquiryPeriod.endDate"),
    Rule("enquiry_end", Dates("lte"), "enquiryPeriod.startDate"),
    Rule("tender_start", Dates("gte"), "tenderPeriod.endDate"),
    Rule("tender_end", Dates("lte"), "tenderPeriod.startDate"),
    Rule("plan_tender_start", Dates("gte"), "tender.tenderPeriod.startDate"),
    Rule("plan_tender_end", Dates("lte"), "tender.tenderPeriod.startDate"),
    Rule("query", FullText, "_all")
  ]

  /** The clause a present argument contributes: every value for prefixes, exact
      matches (`or`, whitespace analyzer), ranges and full text (`and`); the first
      value only for dates. */
  function Clause(args: Args, rule: Rule, toFloat: string -> Option<Json>): (r: Result<Json>)
    requires Present(args, rule.key)
    ensures r.Raise? ==> rule.kind == Range && r.exc == ValueError
  {
    var values := args[rule.key];
    match rule.kind
    case Prefix => Ok(PrefixQuery(values, rule.field))
    case Exact => Ok(MatchQuery(values, rule.field, "", "or", "whitespace"))
    case Range => RangeQuery(values, rule.field, toFloat)
    case Dates(op) => Ok(DatesQuery(values[0], op, rule.field))
    case FullText => Ok(MatchQuery(values, rule.field, "", "and", ""))
  }

  /** The rules whose argument is present, in order. */
  function PresentRules(args: Args, rules: seq<Rule>): (r: seq<Rule>)
    ensures |r| <= |rules|
    ensures forall j :: 0 <= j < |r| ==> r[j] in rules && Present(args, r[j].key)
    ensures (forall i :: 0 <= i < |rules| ==> !Present(args, rules[i].key)) ==> r == []
    decreases |rules|
  {
    if |rules| == 0 then []
    else
      var rest := PresentRules(args, rules[1..]);
      assert forall i :: 1 <= i < |rules| ==> rules[i] == rules[1..][i - 1];
      if Present(args, rules[0].key) then [rules[0]] + rest else rest
  }

  /** The clauses of the rules `present`, in order; the first bad amount raises. */
  function ClauseList(args: Args, present: seq<Rule>, toFloat: string -> Option<Json>): (r: Result<seq<Json>>)
    requires forall j :: 0 <= j < |present| ==> Present(args, present[j].key)
    ensures r.Ok? ==> |r.value| == |present|
    ensures r.Ok? ==> forall j :: 0 <= j < |present| ==> Clause(args, present[j], toFloat) == Ok(r.value[j])
    ensures r.Raise? ==>
      (r.exc == ValueError
       && exists j :: 0 <= j < |present| && present[j].kind == Range && Clause(args, present[j], toFloat).Raise?)
    decreases |present|
  {
    if |present| == 0 then Ok([])
    else
      var c := Clause(args, present[0], toFloat);
      if c.Raise? then Raise(c.exc)
      else
        var rest := ClauseList(args, present[1..], toFloat);
        if rest.Raise? then
          assert exists j :: 0 <= j < |present| && present[j].kind == Range && Clause(args, present[j], toFloat).Raise? by {
            var j :| 0 <= j < |present[1..]| && present[1..][j].kind == Range && Clause(args, present[1..][j], toFloat).Raise?;
            assert present[j + 1] == present[1..][j];
          }
          Raise(rest.exc)
        else
          var r := [c.value] + rest.value;
          assert forall j :: 1 <= j < |present| ==> present[j] == present[1..][j - 1] && r[j] == rest.value[j - 1];
          Ok(r)
  }

  /** The clauses of the present arguments, in rule order; the first bad amount raises. */
  function Clauses(args: Args, rules: seq<Rule>, toFloat: string -> Option<Json>): (r: Result<seq<Json>>)
    ensures r.Ok? ==> |r.value| == |PresentRules(args, rules)|
    ensures r.Ok? ==> forall j :: 0 <= j < |r.value| ==> Clause(args, PresentRules(args, rules)[j], toFloat) == Ok(r.value[j])
    ensures r.Raise? ==>
      (r.exc == ValueError
       && exists j :: 0 <= j < |PresentRules(args, rules)| && PresentRules(args, rules)[j].kind == Range)
    ensures PresentRules(args, rules) == [] ==> r == Ok([])
  {
    ClauseList(args, PresentRules(args, rules), toFloat)
  }

  /** `args.get("sort", "date") == "date"`. */
  predicate SortByDate(args: Args) {
    Arg(args, "sort").None? || Arg(args, "sort").value == "date"
  }

  /** `prepare_search_body(args)` over the argument tables `rules`: `None` without a
      recognised argument, a bare clause for one, `bool.must` over several; sorted by
      `dateModified` descending unless another sort is asked for. */
  function PrepareBody(args: Args, rules: seq<Rule>, toFloat: string -> Option<Json>): (r: Result<Option<Json>>)
    ensures r.Raise? <==> Clauses(args, rules, toFloat).Raise?
    ensures r.Raise? ==> r.exc == ValueError
    ensures r.Ok? ==> (r.value.None? <==> PresentRules(args, rules) == [])
    ensures PresentRules(args, rules) == [] ==> r == Ok(None)
    ensures r.Ok? && r.value.Some? ==>
      var b := r.value.value;
      var cs := Clauses(args, rules, toFloat).value;
      b.JObj? && Has(b, "query")
      && (Has(b, "sort") <==> SortByDate(args))
      && (Has(b, "sort") ==> Get(b, "sort") == Obj1("dateModified", Obj1("order", JStr("desc"))))
      && (|cs| == 1 ==> Get(b, "query") == cs[0])
      && (|cs| > 1 ==> Get(b, "query") == Obj1("bool", Obj1("must", JArr(cs))))
  {
    var body :- Clauses(args, rules, toFloat);
    if |body| == 0 then Ok(None)
    else
      var q := if |body| == 1 then body[0] else Obj1("bool", Obj1("must", JArr(body)));
      var b := map["query" := q];
      Ok(Some(JObj(if SortByDate(args) then b["sort" := Obj1("dateModified", Obj1("order", JStr("desc")))] else b)))
  }

  /** `prepare_search_body(args)` with the server's tables. */
  function PrepareSearchBody(args: Args, toFloat: string -> Option<Json>): Result<Option<Json>> {
    PrepareBody(args, Rules, toFloat)
  }

  /** No recognised argument means no search at all (`/tenders` answers "empty
      query"), whatever else the request carries. */
  lemma UnknownArgsGiveNoBody(args: Args, toFloat: string -> Option<Json>)
    requires forall i :: 0 <= i < |Rules| ==> Rules[i].key !in args
    ensures PrepareSearchBody(args, toFloat) == Ok(None)
  {
  }

  // ---------------------------------------------------------------- endpoints

  /** `/plans`: `int(args.get('limit') or 10)` clamped to 1..100. */
  function PlansLimit(limit: Option<string>): (r: Result<int>)
    ensures r.Ok? ==> 1 <= r.value <= 100
    ensures limit.None? || limit.value == "" ==> r == Ok(10)
    ensures limit.Some? && limit.value != "" ==>
      (r.Raise? <==> ParseInt(limit.value).Raise?)
      && (ParseInt(limit.value).Ok? && 1 <= ParseInt(limit.value).value <= 100 ==> r == ParseInt(limit.value))
      && (ParseInt(limit.value).Ok? && ParseInt(limit.value).value < 1 ==> r == Ok(1))
      && (ParseInt(limit.value).Ok? && ParseInt(limit.value).value > 100 ==> r == Ok(100))
  {
    var n :- if limit.None? || limit.value == "" then Ok(10) else ParseInt(limit.value);
    Ok(if n < 1 then 1 else if n > 100 then 100 else n)
  }

  /** Clamping is idempotent: sending back the limit the server used as the next
      request's `limit` gives the same limit. */
  lemma {:induction false} PlansLimitStable(limit: Option<string>)
    requires PlansLimit(limit).Ok?
    ensures PlansLimit(Some(IntToStr(PlansLimit(limit).value))) == PlansLimit(limit)
  {
    var n := PlansLimit(limit).value;
    ParseIntToStr(n);
  }

  /** The searches `orgsuggest` sends, or its "bad query" answer. */
  datatype Suggest = Searches(bodies: seq<Json>) | BadQuery

  /** The exact lookup by code. */
  function ExactBody(edrpou: string): Json {
    Obj2("size", JInt(1), "query", Obj1("match", Obj1("edrpou", JStr(edrpou))))
  }

  /** The full-text lookup, best ranked first. */
  function FuzzyBody(query: string, fuzziness: int): Json {
    JObj(map["size" := JInt(5),
             "query" := Obj1("match", Obj1("_all", JObj(map["query" := JStr(query), "operator" := JStr("and"),
                                                             "fuzziness" := JInt(fuzziness)]))),
             "sort" := Obj1("rank", Obj1("order", JStr("desc")))])
  }

  /** The fuzziness of the first full-text search: 1 above 8 characters, else 0. */
  function Fuzziness(query: string): (f: int)
    ensures f == 0 || f == 1
    ensures f == 1 <==> |query| > 8
  {
    if |query| > 8 then 1 else 0
  }

  /** The full-text searches: one, and a second one step fuzzier when the first found
      nothing. */
  function FullTextSearches(query: string, hits: Json -> bool): (r: seq<Json>)
    ensures 1 <= |r| <= 2 && r[0] == FuzzyBody(query, Fuzziness(query))
    ensures |r| == 2 <==> !hits(r[0])
    ensures |r| == 2 ==> r[1] == FuzzyBody(query, Fuzziness(query) + 1)
  {
    var first := FuzzyBody(query, Fuzziness(query));
    if hits(first) then [first] else [first, FuzzyBody(query, Fuzziness(query) + 1)]
  }

  /** `orgsuggest`: a short code is looked up exactly; otherwise a query of 1..50
      characters goes to the full-text searches.  `hits(body)` says whether a search
      found items. */
  function OrgSuggest(edrpou: string, query: string, hits: Json -> bool): (r: Suggest)
    ensures edrpou != "" && |edrpou| < 10 ==> r == Searches([ExactBody(edrpou)])
    ensures !(edrpou != "" && |edrpou| < 10) && (query == "" || |query| > 50) ==> r == BadQuery
    ensures !(edrpou != "" && |edrpou| < 10) && !(query == "" || |query| > 50) ==>
      r == Searches(FullTextSearches(query, hits))
  {
    if edrpou != "" && |edrpou| < 10 then Searches([ExactBody(edrpou)])
    else if query == "" || |query| > 50 then BadQuery
    else Searches(FullTextSearches(query, hits))
  }

  /** `orgsuggest` sends one or two searches: the exact lookup alone iff the code is
      short and non-empty, and otherwise the full-text search, followed by a fuzzier one
      only when the first found nothing.  A bad query sends nothing. */
  lemma OrgSuggestSearches(edrpou: string, query: string, hits: Json -> bool)
    ensures var r := OrgSuggest(edrpou, query, hits);
      (r.Searches? ==> 1 <= |r.bodies| <= 2)
      && (r.Searches? && r.bodies[0] == ExactBody(edrpou) <==> edrpou != "" && |edrpou| < 10)
      && (r.Searches? && |r.bodies| == 2 ==> !hits(r.bodies[0]) && r.bodies[1] == FuzzyBody(query, Fuzziness(query) + 1))
      && (r.BadQuery? <==> !(edrpou != "" && |edrpou| < 10) && (query == "" || |query| > 50))
  {
    var r := OrgSuggest(edrpou, query, hits);
    if r.Searches? && !(edrpou != "" && |edrpou| < 10) {
      assert FuzzyBody(query, Fuzziness(query)).fields["size"] != ExactBody(edrpou).fields["size"];
    }
  }

  /** The `/heartbeat` answer. */
  datatype BeatReply = Beat(data: map<string, Json>) | Forbidden

  /** `/heartbeat`: the right key adds the index names and document counts, a wrong
      key is refused with 403, no key gives the heartbeat alone.  Without a configured
      secret no key is right. */
  function HeartbeatEndpoint(beat: Json, key: Option<string>, secret: Option<string>,
                             names: Json, stats: Json): (r: BeatReply)
    ensures key.None? || key.value == "" ==> r == Beat(map["heartbeat" := beat])
    ensures key.Some? && key.value != "" && secret == key ==>
      r == Beat(map["heartbeat" := beat, "index_names" := names, "index_stats" := stats])
    ensures key.Some? && key.value != "" && secret != key ==> r == Forbidden
  {
    var data := map["heartbeat" := beat];
    if key.Some? && key.value != "" && secret == key then
      Beat(data["index_names" := names]["index_stats" := stats])
    else if key.Some? && key.value != "" then Forbidden
    else Beat(data)
  }

  /** The three keys of the `/heartbeat` answer are distinct. */
  lemma BeatKeysDistinct()
    ensures "index_names" != "heartbeat" && "index_stats" != "heartbeat" && "index_names" != "index_stats"
  {
    assert "index_names"[0] != "heartbeat"[0];
    assert "index_stats"[0] != "heartbeat"[0];
    assert "index_names"[6] != "index_stats"[6];
  }

  /** Only the secret discloses the index names and counts: the answer holds them iff a
      non-empty key equals the configured secret; a different non-empty key is refused. */
  lemma HeartbeatDisclosure(beat: Json, key: Option<string>, secret: Option<string>, names: Json, stats: Json)
    ensures var r := HeartbeatEndpoint(beat, key, secret, names, stats);
      (r.Beat? && "index_names" in r.data <==> key.Some? && key.value != "" && key == secret)
      && (r.Beat? ==> ("index_stats" in r.data <==> "index_names" in r.data) && r.data["heartbeat"] == beat)
      && (r.Forbidden? <==> key.Some? && key.value != "" && key != secret)
  {
    BeatKeysDistinct();
    var r := HeartbeatEndpoint(beat, key, secret, names, stats);
    if key.Some? && key.value != "" && key == secret {
      var d := map["heartbeat" := beat]["index_names" := names]["index_stats" := stats];
      assert r == Beat(d);
      assert "index_names" in d && "index_stats" in d && d["heartbeat"] == beat;
    } else if key.Some? && key.value != "" {
      assert r == Forbidden;
    } else {
      var d := map["heartbeat" := beat];
      assert r == Beat(d);
      assert "index_names" !in d && "index_stats" !in d;
    }
  }

  /** Without the right key the answer does not depend on the index names or counts. */
  lemma HeartbeatNonInterference(beat: Json, key: Option<string>, secret: Option<string>,
                                 names: Json, stats: Json, names': Json, stats': Json)
    requires !(key.Some? && key.value != "" && key == secret)
    ensures HeartbeatEndpoint(beat, key, secret, names, stats) == HeartbeatEndpoint(beat, key, secret, names', stats')
  {
  }

  // ---------------------------------------------------------------- renaming

  /** Whether the configuration renames index key `name`: it holds `rename_<name>`. */
  predicate Renames(config: map<string, string>, name: string) {
    "rename_" + name in config
  }

  /** No name of `names` is renamed. */
  predicate NoneRenamed(config: map<string, string>, names: seq<string>) {
    forall j :: 0 <= j < |names| ==> !Renames(config, names[j])
  }

  /** Every name of `names` is renamed. */
  predicate AllRenamed(config: map<string, string>, names: seq<string>) {
    forall j :: 0 <= j < |names| ==> Renames(config, names[j])
  }

  /** The index name `name` stands for under the configuration. */
  function Renamed(config: map<string, string>, name: string): string {
    if Renames(config, name) then config["rename_" + name] else name
  }

  /** Renaming one list of index keys: `rename_<name>` in the configuration replaces
      the name.  Returns the list and how many names were replaced. */
  function RenameList(config: map<string, string>, names: seq<string>): (r: (seq<string>, nat))
    ensures |r.0| == |names| && r.1 <= |names|
    ensures r.1 == 0 <==> NoneRenamed(config, names)
    ensures r.1 == |names| <==> AllRenamed(config, names)
    ensures forall i :: 0 <= i < |names| ==> r.0[i] == Renamed(config, names[i])
    decreases |names|
  {
    if |names| == 0 then ([], 0)
    else
      var rest := RenameList(config, names[1..]);
      var renamed := [Renamed(config, names[0])] + rest.0;
      assert forall i :: 1 <= i < |names| ==> names[i] == names[1..][i - 1] && renamed[i] == rest.0[i - 1];
      (renamed, rest.1 + (if Renames(config, names[0]) then 1 else 0))
  }

  /** `rename_index_names(config, lists)`: every list renamed in place, and the total
      number of renamed names, which is zero exactly when no name has an entry. */
  function RenameIndexNames(config: map<string, string>, lists: seq<seq<string>>): (r: (seq<seq<string>>, nat))
    ensures |r.0| == |lists|
    ensures forall i :: 0 <= i < |lists| ==> r.0[i] == RenameList(config, lists[i]).0
    ensures r.1 == 0 <==> forall i :: 0 <= i < |lists| ==> NoneRenamed(config, lists[i])
  {
    MapCount(lists, (names: seq<string>) => RenameList(config, names))
  }

  /** Without `rename_` entries nothing changes. */
  lemma NoRenames(config: map<string, string>, lists: seq<seq<string>>)
    requires forall k :: k in config ==> |k| < 7 || k[..7] != "rename_"
    ensures RenameIndexNames(config, lists).0 == lists
  {
    forall i | 0 <= i < |lists|
      ensures RenameList(config, lists[i]).0 == lists[i]
    {
      forall j | 0 <= j < |lists[i]|
        ensures "rename_" + lists[i][j] !in config
      {
        assert ("rename_" + lists[i][j])[..7] == "rename_";
      }
    }
  }
}

=== FILE: shdict.dfy ===
/** The simpler shared dict `shdict` (openprocurement/search/shdict.py): every
    change dumps the whole local cache, with no merge, and stamps `lastsync`. */
module ShDict {
  import opened Wrappers

  datatype Dict = Dict(
    cache: map<string, string>,
    disk: Option<map<string, string>>,
    lastsync: int,
    expire: int)

  predicate IsExpired(d: Dict, now: int) {
    now - d.lastsync > d.expire
  }

  /** `read()`: a failed read leaves both the cache and `lastsync` unchanged. */
  function Read(d: Dict, now: int): (r: Dict)
    ensures d.disk.None? ==> r == d
    ensures d.disk.Some? ==> r == d.(cache := d.disk.value, lastsync := now)
  {
    match d.disk
    case None => d
    case Some(m) => d.(cache := m, lastsync := now)
  }

  function Refresh(d: Dict, now: int): Dict {
    if IsExpired(d, now) then Read(d, now) else d
  }

  /** `write()`: dump exactly the local cache and stamp `lastsync`. */
  function Write(d: Dict, now: int): (r: Dict)
    ensures r.disk == Some(d.cache) && r.cache == d.cache && r.lastsync == now
    ensures r.expire == d.expire
  {
    d.(disk := Some(d.cache), lastsync := now)
  }

  /** `self[key] = value`: a no-op when already cached; a non-empty value sets the key,
      an empty one removes it (absent or not, without error); then the cache is written. */
  function SetItem(d: Dict, now: int, key: string, value: string): (r: Dict)
    ensures key in d.cache && d.cache[key] == value ==> r == d
    ensures !(key in d.cache && d.cache[key] == value) ==>
      && r.disk == Some(r.cache)
      && r.lastsync == now
      && r.cache == (if value != "" then d.cache[key := value] else d.cache - {key})
  {
    if key in d.cache && d.cache[key] == value then d
    else if value != "" then Write(d.(cache := d.cache[key := value]), now)
    else Write(d.(cache := d.cache - {key}), now)
  }

  /** `get(key, default)`: re-reads when expired, falls back to `default`. */
  function Get(d: Dict, now: int, key: string, default: string): (r: (Dict, string))
    ensures !IsExpired(d, now) ==> r.0 == d
    ensures IsExpired(d, now) ==> r.0 == Read(d, now)
    ensures key in r.0.cache ==> r.1 == r.0.cache[key]
    ensures key !in r.0.cache ==> r.1 == default
  {
    var d' := Refresh(d, now);
    (d', if key in d'.cache then d'.cache[key] else default)
  }

  /** `self[key]`: raises `KeyError` for a missing key instead of returning a default. */
  function GetItem(d: Dict, now: int, key: string): (r: (Dict, Result<string>))
    ensures r.0 == Refresh(d, now)
    ensures r.1.Raise? <==> key !in r.0.cache
    ensures r.1.Ok? ==> r.1.value == r.0.cache[key]
  {
    var d' := Refresh(d, now);
    (d', if key in d'.cache then Ok(d'.cache[key]) else Raise(KeyError))
  }

  /** A write stamps `lastsync`, so a lookup within `expire` seconds of a change
      answers from the cache without re-reading the file. */
  lemma {:induction false} NoReadAfterWrite(d: Dict, now: int, later: int, key: string, value: string)
    requires !(key in d.cache && d.cache[key] == value)
    requires now <= later <= now + d.expire
    ensures var d' := SetItem(d, now, key, value);
      Get(d', later, key, "").0 == d'
  {
  }

  /** A change then a lookup (at any later time) sees the change: the file holds what was written. */
  lemma {:induction false} SetThenGet(d: Dict, now: int, later: int, key: string, value: string)
    requires !(key in d.cache && d.cache[key] == value)
    ensures var d' := SetItem(d, now, key, value);
      Get(d', later, key, "").1 == value
  {
  }

  /** Unlike the merging store, a write discards keys another process put in the file. */
  lemma WriteDropsDiskOnlyKeys(d: Dict, now: int, key: string)
    requires d.disk.Some? && key in d.disk.value && key !in d.cache
    ensures key !in Write(d, now).disk.value
  {
  }
}

=== FILE: sources.dfy ===
/** The API sources (openprocurement/search/source/{tender,auction,plan,dgf_lot,asset}.py):
    the bound normalisation of `reset`, the `dateModified` window of `items`, the paging
    rules of `preload`, the bounded retries of `get` with its `dateModified` self-heal,
    the reset timers of the lot and asset sources, the file-cache admission predicate and
    the document patches.

    The upstream API is a set of oracles.  `feed[k]` is what the k-th `get_tenders()` call
    answers (beyond the end of `feed` the listing is empty); `fetch(k)` is what the k-th
    `get_tender(id)` call of one `get` answers, `None` standing for an exception.
    `should_exit`, which a signal handler sets at any moment, is an oracle `exiting(k)`
    read at the k-th check.  The clock is a parameter. */
module Sources {
  import opened Wrappers
  import opened Strs
  import opened Json

  datatype Family = Tenders | Auctions | Plans | Lots | Assets

  /** `__doc_type__` of each source. */
  function DocType(f: Family): (r: string)
    ensures r != ""
  {
    match f
    case Tenders => "tender"
    case Auctions => "auction"
    case Plans => "plan"
    case Lots => "lot"
    case Assets => "asset"
  }

  /** The lot and asset sources, which keep counters, a reset timer, a second bound and
      a document cache. */
  predicate Registry(f: Family) {
    f == Lots || f == Assets
  }

  /** A listing reference (`item`); `patch_version` adds the doc type and the version. */
  datatype Ref = Ref(id: string, dateModified: string, docType: Option<string>, version: Option<int>)

  /** `patch_version`.  `version` stands for the `mktime`-based float conversion of the
      tender, auction and plan sources and for `long_version` of the others. */
  function PatchVersion(f: Family, r: Ref, version: string -> int): (p: Ref)
    ensures p.id == r.id && p.dateModified == r.dateModified
    ensures p.docType == Some(DocType(f)) && p.version == Some(version(r.dateModified))
  {
    r.(docType := Some(DocType(f)), version := Some(version(r.dateModified)))
  }

  // ---------------------------------------------------------------- bounds and reset

  /** The normalisation `reset` applies to `<prefix>_skip_until` and `<prefix>_skip_after`:
      a non-empty bound that does not begin with `'20'` is dropped. */
  function NormBound(b: Option<string>): (r: Option<string>)
    ensures r == b || r == None
    ensures r.Some? ==> r.value == "" || StartsWith(r.value, "20")
    ensures b.Some? && (b.value == "" || StartsWith(b.value, "20")) ==> r == b
  {
    match b
    case None => None
    case Some(s) =>
      TakeTwoIs20(s);
      if s != "" && Take(s, 2) != "20" then None else b
  }

  /** The part of a source's state the modelled code reads and writes. */
  datatype Source = Source(
    family: Family,
    connected: bool,               // `self.client` is set
    skipUntil: Option<string>,
    skipAfter: Option<string>,
    lastResetTime: int,
    shouldReset: bool,
    lastSkipped: Option<string>,
    skipped: nat,                  // `stat_skipped`
    fetched: nat,                  // `stat_fetched`
    resets: nat)                   // `stat_resets`

  /** The bounds part of `reset`: the tender, auction and plan sources have no upper bound
      and no reset timer; the lot and asset sources also record the reset time, clear
      `should_reset` and count the reset. */
  function Reset(src: Source, skipUntil: Option<string>, skipAfter: Option<string>, now: int): (s: Source)
    ensures s.connected && s.family == src.family
    ensures s.skipUntil == NormBound(skipUntil)
    ensures Registry(src.family) ==>
      s.skipAfter == NormBound(skipAfter) && s.lastResetTime == now && !s.shouldReset && s.resets == src.resets + 1
    ensures !Registry(src.family) ==>
      s.skipAfter == None && s == src.(connected := true, skipUntil := s.skipUntil, skipAfter := None)
  {
    if Registry(src.family) then
      src.(connected := true, skipUntil := NormBound(skipUntil), skipAfter := NormBound(skipAfter),
           lastResetTime := now, shouldReset := false, resets := src.resets + 1)
    else
      src.(connected := true, skipUntil := NormBound(skipUntil), skipAfter := None)
  }

  // ---------------------------------------------------------------- the items window

  /** Whether `items` passes a reference on: not before `until` and not after `after`;
      a missing or empty bound filters nothing. */
  predicate InWindow(until: Option<string>, after: Option<string>, dm: string) {
    !(until.Some? && until.value != "" && Less(dm, until.value)) &&
    !(after.Some? && after.value != "" && Less(after.value, dm))
  }

  /** The tender, auction and plan sources test `skip_until > dateModified` with no
      truthiness guard (`None` sorts below every string in Python 2); that is the same
      filter, because no string sorts below `''`. */
  lemma UnguardedBound(until: Option<string>, dm: string)
    ensures InWindow(until, None, dm) <==> !(until.Some? && Less(dm, until.value))
  {
  }

  /** The references the window lets through, in order: the reference definition. */
  function Kept(until: Option<string>, after: Option<string>, refs: seq<Ref>): seq<Ref> {
    if |refs| == 0 then []
    else (if InWindow(until, after, refs[0].dateModified) then [refs[0]] else []) + Kept(until, after, refs[1..])
  }

  /** What one `items()` pass produces. */
  datatype Pass = Pass(yielded: seq<Ref>, lastSkipped: Option<string>, skipped: nat, fetched: nat)

  /** The `for` loop of `items` over the references it gets to, most recent last. */
  function Scan(f: Family, until: Option<string>, after: Option<string>, refs: seq<Ref>, version: string -> int): (p: Pass)
    decreases |refs|
    ensures p.skipped + p.fetched == |refs| && |p.yielded| == p.fetched
    ensures forall j :: 0 <= j < |p.yielded| ==>
      InWindow(until, after, p.yielded[j].dateModified) && p.yielded[j].docType == Some(DocType(f))
    ensures p.lastSkipped.None? <==> forall j :: 0 <= j < |refs| ==> InWindow(until, after, refs[j].dateModified)
    ensures |refs| > 0 && !InWindow(until, after, refs[|refs| - 1].dateModified) ==>
      p.lastSkipped == Some(refs[|refs| - 1].dateModified)
  {
    if |refs| == 0 then Pass([], None, 0, 0)
    else
      var p := Scan(f, until, after, refs[..|refs| - 1], version);
      var r := refs[|refs| - 1];
      assert forall j :: 0 <= j < |refs| - 1 ==> refs[..|refs| - 1][j] == refs[j];
      if InWindow(until, after, r.dateModified) then
        Pass(p.yielded + [PatchVersion(f, r, version)], p.lastSkipped, p.skipped, p.fetched + 1)
      else
        Pass(p.yielded, Some(r.dateModified), p.skipped + 1, p.fetched)
  }

  /** `patch_version` over a whole sequence. */
  function Versioned(f: Family, refs: seq<Ref>, version: string -> int): (r: seq<Ref>)
    ensures |r| == |refs| && forall j :: 0 <= j < |refs| ==> r[j] == PatchVersion(f, refs[j], version)
  {
    seq(|refs|, j requires 0 <= j < |refs| => PatchVersion(f, refs[j], version))
  }

  lemma {:induction false} KeptAppend(until: Option<string>, after: Option<string>, refs: seq<Ref>, r: Ref)
    ensures Kept(until, after, refs + [r]) ==
      Kept(until, after, refs) + (if InWindow(until, after, r.dateModified) then [r] else [])
    decreases |refs|
  {
    if |refs| > 0 {
      assert (refs + [r])[1..] == refs[1..] + [r];
      KeptAppend(until, after, refs[1..], r);
    }
  }

  /** `items` yields exactly the in-window references, in listing order, version-patched. */
  lemma {:induction false} ScanYieldsKept(f: Family, until: Option<string>, after: Option<string>, refs: seq<Ref>, version: string -> int)
    ensures Scan(f, until, after, refs, version).yielded == Versioned(f, Kept(until, after, refs), version)
    decreases |refs|
  {
    if |refs| > 0 {
      var init := refs[..|refs| - 1];
      var r := refs[|refs| - 1];
      assert refs == init + [r];
      ScanYieldsKept(f, until, after, init, version);
      KeptAppend(until, after, init, r);
      if InWindow(until, after, r.dateModified) {
        VersionedAppend(f, Kept(until, after, init), r, version);
      }
    }
  }

  lemma VersionedAppend(f: Family, refs: seq<Ref>, r: Ref, version: string -> int)
    ensures Versioned(f, refs + [r], version) == Versioned(f, refs, version) + [PatchVersion(f, r, version)]
  {
    var a := Versioned(f, refs + [r], version);
    var b := Versioned(f, refs, version) + [PatchVersion(f, r, version)];
    assert |a| == |b|;
    forall j | 0 <= j < |a| ensures a[j] == b[j] {
      if j < |refs| {
        assert (refs + [r])[j] == refs[j];
      }
    }
  }

  /** How many references the loop gets to before it sees `should_exit`. */
  function Consumed(exiting: nat -> bool, n: nat, j: nat): (c: nat)
    requires j <= n
    decreases n - j
    ensures j <= c <= n
    ensures forall k :: j <= k < c ==> !exiting(k)
    ensures c < n ==> exiting(c)
  {
    if j == n || exiting(j) then j else Consumed(exiting, n, j + 1)
  }

  /** `items()`: connect first if needed, reset `last_skipped`, then filter what `preload`
      returned (`preloaded`), stopping early once `should_exit` is seen.  Only the lot and
      asset sources keep the skipped/fetched counters. */
  function Items(src: Source, skipUntil: Option<string>, skipAfter: Option<string>, now: int,
                 preloaded: seq<Ref>, exiting: nat -> bool, version: string -> int): (r: (Source, seq<Ref>))
    ensures r.0.connected
    ensures var s := if src.connected then src else Reset(src, skipUntil, skipAfter, now);
      var n := Consumed(exiting, |preloaded|, 0);
      r.1 == Versioned(src.family, Kept(s.skipUntil, s.skipAfter, preloaded[..n]), version)
    ensures (forall k :: !exiting(k)) ==> |r.1| <= |preloaded|
    ensures r.0.lastSkipped.None? ==> forall j :: 0 <= j < |r.1| ==> r.1[j].docType == Some(DocType(src.family))
  {
    var s := if src.connected then src else Reset(src, skipUntil, skipAfter, now);
    var n := Consumed(exiting, |preloaded|, 0);
    var p := Scan(src.family, s.skipUntil, s.skipAfter, preloaded[..n], version);
    ScanYieldsKept(src.family, s.skipUntil, s.skipAfter, preloaded[..n], version);
    var s' := if Registry(src.family) then s.(lastSkipped := p.lastSkipped, skipped := s.skipped + p.skipped, fetched := s.fetched + p.fetched)
              else s.(lastSkipped := p.lastSkipped);
    (s', p.yielded)
  }

  // ---------------------------------------------------------------- preload

  /** One answer of the listing: a page of references, or an exception. */
  datatype Page = Page(refs: seq<Ref>) | PageError

  function PageAt(feed: seq<Page>, k: nat): Page {
    if k < |feed| then feed[k] else Page([])
  }

  /** The references of answers `k..j-1`; an exception contributes none. */
  function Gathered(feed: seq<Page>, k: nat, j: nat): seq<Ref>
    requires k <= j
    decreases j - k
  {
    if k == j then []
    else (if PageAt(feed, k).Page? then PageAt(feed, k).refs else []) + Gathered(feed, k + 1, j)
  }

  /** A page after which the paging loop asks for another. */
  predicate Full(p: Page) {
    p.Page? && |p.refs| >= 10
  }

  /** The outcome of `preload`: the references, how many listing calls it made, and how
      many client resets it did. */
  datatype Preloaded = Preloaded(refs: seq<Ref>, calls: nat, resets: nat)

  /** The tender, auction and plan `preload` loop from the k-th listing call on. */
  function PreloadFrom(feed: seq<Page>, exiting: nat -> bool, limit: int, k: nat, acc: seq<Ref>): (r: Preloaded)
    decreases if k <= |feed| then |feed| - k else 0
    ensures k < r.calls
    ensures r.resets == (if PageAt(feed, r.calls - 1).PageError? then 1 else 0)
    ensures PageAt(feed, r.calls - 1).Page? && exiting(r.calls - 1) ==> r.refs == []
    ensures !(PageAt(feed, r.calls - 1).Page? && exiting(r.calls - 1)) ==> r.refs == acc + Gathered(feed, k, r.calls)
  {
    var p := PageAt(feed, k);
    assert Gathered(feed, k, k + 1) == if p.Page? then p.refs else [];
    if p.PageError? then Preloaded(acc, k + 1, 1)
    else if exiting(k) then Preloaded([], k + 1, 0)
    else if |p.refs| == 0 then Preloaded(acc, k + 1, 0)
    else
      var acc' := acc + p.refs;
      if |p.refs| < 10 || |acc'| >= limit then Preloaded(acc', k + 1, 0)
      else
        var r := PreloadFrom(feed, exiting, limit, k + 1, acc');
        assert acc + Gathered(feed, k, r.calls) == acc' + Gathered(feed, k + 1, r.calls);
        r
  }

  /** Why the loop went on: every page but the last was full and came before any exit
      request. */
  lemma {:induction false} PreloadFromContinues(feed: seq<Page>, exiting: nat -> bool, limit: int, k: nat, acc: seq<Ref>)
    ensures var r := PreloadFrom(feed, exiting, limit, k, acc);
      forall j :: k <= j < r.calls - 1 ==> Full(PageAt(feed, j)) && !exiting(j)
    decreases if k <= |feed| then |feed| - k else 0
  {
    var p := PageAt(feed, k);
    var r := PreloadFrom(feed, exiting, limit, k, acc);
    if p.Page? && !exiting(k) && |p.refs| >= 10 && |acc + p.refs| < limit {
      var acc' := acc + p.refs;
      assert r == PreloadFrom(feed, exiting, limit, k + 1, acc');
      PreloadFromContinues(feed, exiting, limit, k + 1, acc');
      forall j | k <= j < r.calls - 1 ensures Full(PageAt(feed, j)) && !exiting(j) {
        if j == k {
          assert PageAt(feed, j) == p;
        }
      }
    } else {
      assert r.calls == k + 1;
    }
  }

  /** What came before the last page stayed under `limit`. */
  lemma {:induction false} PreloadFromUnderLimit(feed: seq<Page>, exiting: nat -> bool, limit: int, k: nat, acc: seq<Ref>)
    ensures var r := PreloadFrom(feed, exiting, limit, k, acc);
      r.calls - 1 > k ==> |acc| + |Gathered(feed, k, r.calls - 1)| < limit
    decreases if k <= |feed| then |feed| - k else 0
  {
    var p := PageAt(feed, k);
    var r := PreloadFrom(feed, exiting, limit, k, acc);
    if p.Page? && !exiting(k) && |p.refs| >= 10 && |acc + p.refs| < limit {
      var acc' := acc + p.refs;
      assert r == PreloadFrom(feed, exiting, limit, k + 1, acc');
      if r.calls - 1 > k + 1 {
        PreloadFromUnderLimit(feed, exiting, limit, k + 1, acc');
        assert |Gathered(feed, k, r.calls - 1)| == |p.refs| + |Gathered(feed, k + 1, r.calls - 1)|;
      } else {
        assert |Gathered(feed, k, k + 1)| == |p.refs| + |Gathered(feed, k + 1, k + 1)| == |p.refs|;
      }
    } else {
      assert r.calls == k + 1;
    }
  }

  /** Why the loop stopped: the last page raised, came with an exit request, was short,
      or brought the total to `limit`. */
  lemma {:induction false} PreloadFromStops(feed: seq<Page>, exiting: nat -> bool, limit: int, k: nat, acc: seq<Ref>)
    ensures var r := PreloadFrom(feed, exiting, limit, k, acc);
      PageAt(feed, r.calls - 1).PageError? || exiting(r.calls - 1) || !Full(PageAt(feed, r.calls - 1))
      || |acc| + |Gathered(feed, k, r.calls)| >= limit
    decreases if k <= |feed| then |feed| - k else 0
  {
    var p := PageAt(feed, k);
    var r := PreloadFrom(feed, exiting, limit, k, acc);
    if p.Page? && !exiting(k) && |p.refs| >= 10 && |acc + p.refs| < limit {
      var acc' := acc + p.refs;
      assert r == PreloadFrom(feed, exiting, limit, k + 1, acc');
      PreloadFromStops(feed, exiting, limit, k + 1, acc');
      assert |Gathered(feed, k, r.calls)| == |p.refs| + |Gathered(feed, k + 1, r.calls)|;
    } else {
      assert r.calls == k + 1;
      assert |Gathered(feed, k, k + 1)| == if p.Page? then |p.refs| else 0;
    }
  }

  /** `preload()` of the tender, auction and plan sources: pages accumulate until an empty
      page, a page shorter than 10 or `<prefix>_preload` references; an exception resets
      the client and keeps what was gathered; `should_exit` after a fetch returns `[]`. */
  function Preload(feed: seq<Page>, exiting: nat -> bool, limit: int): (r: Preloaded)
    ensures r.calls >= 1 && r.resets <= 1
    ensures PageAt(feed, r.calls - 1).Page? && exiting(r.calls - 1) ==> r.refs == []
    ensures !(PageAt(feed, r.calls - 1).Page? && exiting(r.calls - 1)) ==> r.refs == Gathered(feed, 0, r.calls)
    ensures forall j :: 0 <= j < r.calls - 1 ==> Full(PageAt(feed, j)) && !exiting(j)
    ensures r.calls > 1 ==> |Gathered(feed, 0, r.calls - 1)| < limit
    ensures PageAt(feed, r.calls - 1).PageError? || exiting(r.calls - 1) || !Full(PageAt(feed, r.calls - 1))
      || |Gathered(feed, 0, r.calls)| >= limit
  {
    PreloadFromContinues(feed, exiting, limit, 0, []);
    PreloadFromUnderLimit(feed, exiting, limit, 0, []);
    PreloadFromStops(feed, exiting, limit, 0, []);
    PreloadFrom(feed, exiting, limit, 0, [])
  }

  /** A listing that fails at once yields nothing and costs one reset. */
  lemma PreloadErrorStops(feed: seq<Page>, exiting: nat -> bool, limit: int)
    requires |feed| > 0 && feed[0].PageError?
    ensures Preload(feed, exiting, limit) == Preloaded([], 1, 1)
  {
  }

  /** The lot and asset `preload` loop from the k-th listing call on, after `failures`
      exceptions: an exception resets the client and retries; the fourth gives up. */
  function PreloadRetry(feed: seq<Page>, exiting: nat -> bool, limit: int, k: nat, failures: nat, acc: seq<Ref>): (r: Preloaded)
    requires failures <= 4
    decreases if k <= |feed| then |feed| - k else 0
    ensures k <= r.calls && failures <= r.resets <= 4
    ensures r.refs == acc + Gathered(feed, k, r.calls)
    ensures r.resets - failures <= r.calls - k
    ensures forall j :: k <= j < r.calls - 1 ==> !exiting(j) && (PageAt(feed, j).PageError? || Full(PageAt(feed, j)))
  {
    if failures > 3 || exiting(k) then Preloaded(acc, k, failures)
    else
      var p := PageAt(feed, k);
      if p.PageError? then
        var r := PreloadRetry(feed, exiting, limit, k + 1, failures + 1, acc);
        assert Gathered(feed, k, r.calls) == Gathered(feed, k + 1, r.calls);
        r
      else if |p.refs| == 0 then Preloaded(acc, k + 1, failures)
      else
        var acc' := acc + p.refs;
        if |p.refs| < 10 || |acc'| >= limit then Preloaded(acc', k + 1, failures)
        else
          var r := PreloadRetry(feed, exiting, limit, k + 1, failures, acc');
          assert acc + Gathered(feed, k, r.calls) == acc' + Gathered(feed, k + 1, r.calls);
          r
  }

  /** The first page of the descending "fast" client, when there is one and it answers
      with a non-empty page; its failures are swallowed. */
  function FastRefs(fast: Option<Page>): (r: seq<Ref>)
    ensures fast.Some? && fast.value.Page? ==> r == fast.value.refs
    ensures !(fast.Some? && fast.value.Page?) ==> r == []
  {
    match fast
    case Some(Page(refs)) => refs
    case _ => []
  }

  /** `preload()` of the lot and asset sources. */
  function PreloadRegistry(fast: Option<Page>, feed: seq<Page>, exiting: nat -> bool, limit: int): (r: Preloaded)
    ensures r.refs == FastRefs(fast) + Gathered(feed, 0, r.calls)
    ensures r.resets <= 4 && r.resets <= r.calls
  {
    PreloadRetry(feed, exiting, limit, 0, 0, FastRefs(fast))
  }

  /** A dead listing: four exceptions in a row end the lot and asset preload with the fast
      page alone, after four resets. */
  lemma {:induction false} PreloadRegistryGivesUp(fast: Option<Page>, feed: seq<Page>, exiting: nat -> bool, limit: int)
    requires |feed| >= 4 && forall j :: 0 <= j < 4 ==> feed[j].PageError? && !exiting(j)
    ensures PreloadRegistry(fast, feed, exiting, limit) == Preloaded(FastRefs(fast), 4, 4)
  {
    var a := FastRefs(fast);
    assert PreloadRetry(feed, exiting, limit, 4, 4, a) == Preloaded(a, 4, 4);
    assert PreloadRetry(feed, exiting, limit, 3, 3, a) == Preloaded(a, 4, 4);
    assert PreloadRetry(feed, exiting, limit, 2, 2, a) == Preloaded(a, 4, 4);
    assert PreloadRetry(feed, exiting, limit, 1, 1, a) == Preloaded(a, 4, 4);
  }

  // ---------------------------------------------------------------- get

  /** A fetched document: `data.id`, `data.dateModified` and the other fields of `data`. */
  datatype Doc = Doc(id: string, dateModified: string, fields: map<string, Json>)

  /** What `get` returns: the document (absent when `should_exit` stopped a plan fetch
      before it began) and its `meta`. */
  datatype Got = Got(doc: Option<Doc>, meta: Ref)

  /** The outcome of the fetch loop: the result, the attempts made, the client resets,
      and whether `should_exit` ended the loop before a fetch succeeded. */
  datatype Fetch = Fetch(result: Result<Got>, attempts: nat, resets: nat, exited: bool)

  /** The checks inside the fetch `try`: the id matches and the document is not older than
      the reference.  The plan source checks nothing. */
  predicate Accepts(f: Family, item: Ref, d: Doc) {
    f == Plans || (d.id == item.id && LessEq(item.dateModified, d.dateModified))
  }

  /** After a failure with `rc` earlier failures: re-raise.  The lot and asset sources
      also re-raise the second failure under `ignore_errors`. */
  predicate GivesUp(f: Family, rc: nat, ignoreErrors: bool) {
    rc > 3 || (Registry(f) && ignoreErrors && rc > 0)
  }

  /** Whether the client is reset after the `failures`-th failure. */
  predicate ResetsAfter(f: Family, failures: nat) {
    if Registry(f) then failures > 2 else failures > 1
  }

  /** How many resets the failures after the first `rc` can still cause: one after each
      failure from the second on (tender, auction, plan) or from the third on (lot, asset),
      and at most four failures in all. */
  function ResetBudget(f: Family, rc: nat): nat {
    if Registry(f) then (if rc < 2 then 2 else if rc < 4 then 4 - rc else 0)
    else (if rc < 1 then 3 else if rc < 4 then 4 - rc else 0)
  }

  /** A retry spends at most the budget it leaves behind. */
  lemma BudgetStep(f: Family, rc: nat)
    requires rc < 4
    ensures ResetBudget(f, rc + 1) + (if ResetsAfter(f, rc + 1) then 1 else 0) <= ResetBudget(f, rc)
  {
  }

  /** The `dateModified` self-heal: a reference older than its document takes the
      document's date and is re-versioned. */
  function Heal(f: Family, item: Ref, d: Doc, version: string -> int): (m: Ref)
    ensures m.id == item.id && m.dateModified == d.dateModified
    ensures item.dateModified == d.dateModified ==> m == item
    ensures item.dateModified != d.dateModified ==>
      m == item.(dateModified := d.dateModified, docType := Some(DocType(f)), version := Some(version(d.dateModified)))
  {
    if item.dateModified != d.dateModified then PatchVersion(f, item.(dateModified := d.dateModified), version)
    else item
  }

  /** What `get` does with an accepted document: attach `meta`, then the per-source patch. */
  function Finish(f: Family, item: Ref, d: Doc, version: string -> int): (r: Result<Got>)
    ensures r.Ok? ==> r.value.doc.Some? && r.value.doc.value.id == d.id && r.value.doc.value.dateModified == d.dateModified
    ensures r.Ok? && f != Plans ==> r.value.meta == Heal(f, item, d, version)
    ensures f == Plans ==> r == Ok(Got(Some(d), item))
    ensures f == Auctions || f == Assets || f == Plans ==> r.Ok? && r.value.doc == Some(d)
    ensures r.Raise? ==> r.exc == TypeError || r.exc == AttributeError || r.exc == KeyError
  {
    match f
    case Plans => Ok(Got(Some(d), item))
    case Tenders =>
      var fields :- PatchTender(d.fields);
      Ok(Got(Some(d.(fields := fields)), Heal(f, item, d, version)))
    case Lots =>
      var fields :- PatchLot(d.fields);
      Ok(Got(Some(d.(fields := fields)), Heal(f, item, d, version)))
    case _ => Ok(Got(Some(d), Heal(f, item, d, version)))
  }

  /** The document the loop variable holds after attempts `rc` to `n - 1`, starting from
      `held`: the last document a fetch returned, accepted or not. */
  function Held(fetch: nat -> Option<Doc>, rc: nat, n: nat, held: Option<Doc>): Option<Doc>
    decreases n - rc
  {
    if n <= rc then held else Held(fetch, rc + 1, n, if fetch(rc).Some? then fetch(rc) else held)
  }

  /** `Held` is the document of the last attempt whose fetch returned one, or the
      starting value when none did. */
  lemma {:induction false} HeldIsLastFetched(fetch: nat -> Option<Doc>, rc: nat, n: nat, held: Option<Doc>)
    ensures var h := Held(fetch, rc, n, held);
      && (h.None? <==> held.None? && forall k :: rc <= k < n ==> fetch(k).None?)
      && ((exists k :: rc <= k < n && fetch(k).Some?) ==>
            exists j :: rc <= j < n && fetch(j) == h && forall k :: j < k < n ==> fetch(k).None?)
      && ((forall k :: rc <= k < n ==> fetch(k).None?) ==> h == held)
    decreases n - rc
  {
    if rc < n {
      var held' := if fetch(rc).Some? then fetch(rc) else held;
      HeldIsLastFetched(fetch, rc + 1, n, held');
      var h := Held(fetch, rc, n, held);
      assert h == Held(fetch, rc + 1, n, held');
      if exists k :: rc <= k < n && fetch(k).Some? {
        if exists k :: rc + 1 <= k < n && fetch(k).Some? {
        } else {
          assert fetch(rc).Some?;
          assert h == fetch(rc);
        }
      }
    }
  }

  /** What the loop leaves behind when `should_exit` stops it: the plan loop assigned
      nothing, so only `meta` is set; the tender and auction loops keep the last fetched
      document, even a rejected one; the lot and asset loops reset it to `{}` after each
      failure.  An empty document has no `data`, which raises `KeyError`. */
  function ExitResult(f: Family, item: Ref, held: Option<Doc>): (r: Result<Got>)
    ensures f == Plans ==> r == Ok(Got(None, item))
    ensures Registry(f) ==> r == Raise(KeyError)
    ensures f == Tenders || f == Auctions ==>
      (r.Raise? <==> held.None?) && (r.Raise? ==> r.exc == KeyError) && (r.Ok? ==> r.value == Got(held, item))
  {
    if f == Plans then Ok(Got(None, item))
    else if Registry(f) || held.None? then Raise(KeyError)
    else Ok(Got(held, item))
  }

  /** The retry loop of `get` from the attempt after `rc` failures, with `held` the last
      document fetched so far; the loop leaves with the accepted document, which `GetDoc`
      then patches, or with what `should_exit` left behind. */
  function GetFrom(f: Family, item: Ref, fetch: nat -> Option<Doc>, exiting: nat -> bool, ignoreErrors: bool,
                   rc: nat, resets: nat, held: Option<Doc>): (r: Fetch)
    requires rc <= 4
    decreases 4 - rc
    ensures rc <= r.attempts <= 5 && resets <= r.resets <= resets + (r.attempts - rc)
    ensures !r.exited && r.result.Ok? ==>
      r.attempts > rc && fetch(r.attempts - 1).Some? && Accepts(f, item, fetch(r.attempts - 1).value)
      && r.result.value == Got(fetch(r.attempts - 1), item)
    ensures !r.exited && r.result.Raise? ==>
      r.attempts > rc && r.result.exc == (if fetch(r.attempts - 1).None? then Transport else AssertionError)
    ensures r.exited ==> r.attempts <= 4 && exiting(r.attempts) && (r.result.Raise? ==> r.result.exc == KeyError)
  {
    if exiting(rc) then Fetch(ExitResult(f, item, held), rc, resets, true)
    else
      var a := fetch(rc);
      if a.Some? && Accepts(f, item, a.value) then Fetch(Ok(Got(a, item)), rc + 1, resets, false)
      else if GivesUp(f, rc, ignoreErrors) then Fetch(Raise(if a.None? then Transport else AssertionError), rc + 1, resets, false)
      else GetFrom(f, item, fetch, exiting, ignoreErrors, rc + 1, if ResetsAfter(f, rc + 1) then resets + 1 else resets,
                   if a.Some? then a else held)
  }

  /** A loop left by `should_exit` ends with what the loop variable held: the last
      document a fetch returned, or the starting value when none did. */
  lemma {:induction false} GetFromExit(f: Family, item: Ref, fetch: nat -> Option<Doc>, exiting: nat -> bool,
                                       ignoreErrors: bool, rc: nat, resets: nat, held: Option<Doc>)
    requires rc <= 4
    ensures var r := GetFrom(f, item, fetch, exiting, ignoreErrors, rc, resets, held);
      r.exited ==> r.result == ExitResult(f, item, Held(fetch, rc, r.attempts, held))
    decreases 4 - rc
  {
    if Failed(f, item, fetch, exiting, rc) && !GivesUp(f, rc, ignoreErrors) {
      var next := if ResetsAfter(f, rc + 1) then resets + 1 else resets;
      var held' := if fetch(rc).Some? then fetch(rc) else held;
      GetFromStep(f, item, fetch, exiting, ignoreErrors, rc, resets, held);
      GetFromExit(f, item, fetch, exiting, ignoreErrors, rc + 1, next, held');
      var r := GetFrom(f, item, fetch, exiting, ignoreErrors, rc, resets, held);
      if r.exited {
        assert Held(fetch, rc, r.attempts, held) == Held(fetch, rc + 1, r.attempts, held');
      }
    } else {
      GetFromStops(f, item, fetch, exiting, ignoreErrors, rc, resets, held);
    }
  }

  /** Attempt `j` failed: no exit was requested and the fetch raised or its document
      was rejected. */
  predicate Failed(f: Family, item: Ref, fetch: nat -> Option<Doc>, exiting: nat -> bool, j: nat) {
    !exiting(j) && (fetch(j).None? || !Accepts(f, item, fetch(j).value))
  }

  /** One failed attempt that does not re-raise hands the loop on to the next attempt. */
  lemma GetFromStep(f: Family, item: Ref, fetch: nat -> Option<Doc>, exiting: nat -> bool, ignoreErrors: bool,
                    rc: nat, resets: nat, held: Option<Doc>)
    requires rc <= 4 && Failed(f, item, fetch, exiting, rc) && !GivesUp(f, rc, ignoreErrors)
    ensures rc < 4
    ensures GetFrom(f, item, fetch, exiting, ignoreErrors, rc, resets, held)
         == GetFrom(f, item, fetch, exiting, ignoreErrors, rc + 1,
                    if ResetsAfter(f, rc + 1) then resets + 1 else resets,
                    if fetch(rc).Some? then fetch(rc) else held)
  {
  }

  /** An attempt that exits, is accepted or re-raises ends the loop there, without a
      further reset. */
  lemma GetFromStops(f: Family, item: Ref, fetch: nat -> Option<Doc>, exiting: nat -> bool, ignoreErrors: bool,
                     rc: nat, resets: nat, held: Option<Doc>)
    requires rc <= 4 && !(Failed(f, item, fetch, exiting, rc) && !GivesUp(f, rc, ignoreErrors))
    ensures var r := GetFrom(f, item, fetch, exiting, ignoreErrors, rc, resets, held);
      && r.resets == resets && r.exited == exiting(rc)
      && r.attempts == (if exiting(rc) then rc else rc + 1)
      && (exiting(rc) ==> r.result == ExitResult(f, item, held))
      && (!exiting(rc) && r.result.Raise? ==> Failed(f, item, fetch, exiting, rc) && GivesUp(f, rc, ignoreErrors))
  {
  }

  /** The resets of one `get`: one after each failure from the second on (tender,
      auction, plan) or from the third on (lot, asset). */
  lemma {:induction false} LoopResets(f: Family, item: Ref, fetch: nat -> Option<Doc>, exiting: nat -> bool,
                                      ignoreErrors: bool, rc: nat, resets: nat, held: Option<Doc>)
    requires rc <= 4
    ensures GetFrom(f, item, fetch, exiting, ignoreErrors, rc, resets, held).resets <= resets + ResetBudget(f, rc)
    decreases 4 - rc
  {
    if Failed(f, item, fetch, exiting, rc) && !GivesUp(f, rc, ignoreErrors) {
      var next := if ResetsAfter(f, rc + 1) then resets + 1 else resets;
      var held' := if fetch(rc).Some? then fetch(rc) else held;
      GetFromStep(f, item, fetch, exiting, ignoreErrors, rc, resets, held);
      LoopResets(f, item, fetch, exiting, ignoreErrors, rc + 1, next, held');
      BudgetStep(f, rc);
    } else {
      GetFromStops(f, item, fetch, exiting, ignoreErrors, rc, resets, held);
    }
  }

  /** A transport or check failure escapes only from the fifth attempt, or from the
      second under `ignore_errors` in the lot and asset sources. */
  lemma {:induction false} LoopRaisesLate(f: Family, item: Ref, fetch: nat -> Option<Doc>, exiting: nat -> bool,
                                          ignoreErrors: bool, rc: nat, resets: nat, held: Option<Doc>)
    requires rc <= 4
    ensures var r := GetFrom(f, item, fetch, exiting, ignoreErrors, rc, resets, held);
      r.result.Raise? && (r.result.exc == Transport || r.result.exc == AssertionError) ==>
        r.attempts == 5 || (Registry(f) && ignoreErrors && r.attempts == (if rc == 0 then 2 else rc + 1))
    decreases 4 - rc
  {
    if Failed(f, item, fetch, exiting, rc) && !GivesUp(f, rc, ignoreErrors) {
      var next := if ResetsAfter(f, rc + 1) then resets + 1 else resets;
      var held' := if fetch(rc).Some? then fetch(rc) else held;
      assert Registry(f) && ignoreErrors ==> rc == 0;
      GetFromStep(f, item, fetch, exiting, ignoreErrors, rc, resets, held);
      LoopRaisesLate(f, item, fetch, exiting, ignoreErrors, rc + 1, next, held');
    } else {
      GetFromStops(f, item, fetch, exiting, ignoreErrors, rc, resets, held);
    }
  }

  /** Every attempt before the last one failed. */
  lemma {:induction false} LoopRetriesOnlyFailures(f: Family, item: Ref, fetch: nat -> Option<Doc>, exiting: nat -> bool,
                                                   ignoreErrors: bool, rc: nat, resets: nat, held: Option<Doc>)
    requires rc <= 4
    ensures var r := GetFrom(f, item, fetch, exiting, ignoreErrors, rc, resets, held);
      forall j :: rc <= j < r.attempts - 1 ==> Failed(f, item, fetch, exiting, j)
    decreases 4 - rc
  {
    if Failed(f, item, fetch, exiting, rc) && !GivesUp(f, rc, ignoreErrors) {
      var next := if ResetsAfter(f, rc + 1) then resets + 1 else resets;
      var held' := if fetch(rc).Some? then fetch(rc) else held;
      GetFromStep(f, item, fetch, exiting, ignoreErrors, rc, resets, held);
      LoopRetriesOnlyFailures(f, item, fetch, exiting, ignoreErrors, rc + 1, next, held');
      var r := GetFrom(f, item, fetch, exiting, ignoreErrors, rc, resets, held);
      forall j | rc <= j < r.attempts - 1
        ensures Failed(f, item, fetch, exiting, j)
      {
        if j > rc {
          assert rc + 1 <= j;
        }
      }
    } else {
      GetFromStops(f, item, fetch, exiting, ignoreErrors, rc, resets, held);
    }
  }

  /** `get(item)`: the lot and asset sources first try the file cache (`cached`, the
      result of `cache_get`), whose document is not checked; then up to five fetches.
      The accepted document goes through `Finish`, and so does a document the tender
      and auction loops were left holding when `should_exit` stopped them. */
  function GetDoc(f: Family, item: Ref, cached: Option<Doc>, fetch: nat -> Option<Doc>, exiting: nat -> bool,
               ignoreErrors: bool, version: string -> int): (r: Fetch)
    ensures r.attempts <= 5
    ensures r.result.Ok? && r.result.value.doc.Some? && f != Plans ==>
      r.result.value.meta.dateModified == r.result.value.doc.value.dateModified && r.result.value.meta.id == item.id
    ensures r.result.Ok? && f == Plans ==> r.result.value.meta == item
    ensures Registry(f) && cached.Some? ==> r == Fetch(Finish(f, item, cached.value, version), 0, 0, false)
    ensures !(Registry(f) && cached.Some?) && !r.exited && r.result.Ok? ==>
      r.attempts > 0 && fetch(r.attempts - 1).Some? && Accepts(f, item, fetch(r.attempts - 1).value)
      && r.result == Finish(f, item, fetch(r.attempts - 1).value, version)
    ensures r.exited ==>
      && exiting(r.attempts)
      && var h := Held(fetch, 0, r.attempts, None);
         r.result == (if (f == Tenders || f == Auctions) && h.Some? then Finish(f, item, h.value, version)
                      else ExitResult(f, item, h))
  {
    if Registry(f) && cached.Some? then Fetch(Finish(f, item, cached.value, version), 0, 0, false)
    else
      GetFromExit(f, item, fetch, exiting, ignoreErrors, 0, 0, None);
      var l := GetFrom(f, item, fetch, exiting, ignoreErrors, 0, 0, None);
      if l.result.Ok? && l.result.value.doc.Some? then l.(result := Finish(f, item, l.result.value.doc.value, version))
      else l
  }

  /** `should_exit` after a rejected fetch: the tender and auction sources return the
      rejected document, with `meta.dateModified` healed to its date even when that date
      is older than the listing's. */
  lemma ExitKeepsRejected(f: Family, item: Ref, d: Doc, fetch: nat -> Option<Doc>, exiting: nat -> bool,
                          ignoreErrors: bool, version: string -> int)
    requires f == Tenders || f == Auctions
    requires fetch(0) == Some(d) && !Accepts(f, item, d) && !exiting(0) && exiting(1)
    ensures var r := GetDoc(f, item, None, fetch, exiting, ignoreErrors, version);
      r.exited && r.attempts == 1 && r.result == Finish(f, item, d, version)
  {
    assert Held(fetch, 0, 1, None) == Some(d);
  }

  /** A dead upstream: the tender, auction and plan sources give up after five attempts
      and three resets; the lot and asset sources after five attempts and two resets, or
      after two attempts and no reset under `ignore_errors`. */
  lemma GetGivesUp(f: Family, item: Ref, fetch: nat -> Option<Doc>, exiting: nat -> bool,
                   ignoreErrors: bool, version: string -> int)
    requires forall k :: fetch(k).None? && !exiting(k)
    ensures var r := GetDoc(f, item, None, fetch, exiting, ignoreErrors, version);
      r.result == Raise(Transport) &&
      (if Registry(f) && ignoreErrors then r.attempts == 2 && r.resets == 0
       else r.attempts == 5 && r.resets == (if Registry(f) then 2 else 3))
  {
    LoopGivesUp(f, item, fetch, exiting, ignoreErrors);
  }

  /** The retry loop alone against a dead upstream. */
  lemma LoopGivesUp(f: Family, item: Ref, fetch: nat -> Option<Doc>, exiting: nat -> bool, ignoreErrors: bool)
    requires forall k :: fetch(k).None? && !exiting(k)
    ensures var r := GetFrom(f, item, fetch, exiting, ignoreErrors, 0, 0, None);
      r.result == Raise(Transport) &&
      (if Registry(f) && ignoreErrors then r.attempts == 2 && r.resets == 0
       else r.attempts == 5 && r.resets == (if Registry(f) then 2 else 3))
  {
    DeadFrom(f, item, fetch, exiting, ignoreErrors, 0, 0);
  }

  /** A dead upstream from the attempt after `rc` failures: every remaining failure
      re-raises or retries, and the resets still to come are the whole budget. */
  lemma {:induction false} DeadFrom(f: Family, item: Ref, fetch: nat -> Option<Doc>, exiting: nat -> bool,
                                    ignoreErrors: bool, rc: nat, resets: nat)
    requires rc <= 4 && forall k :: fetch(k).None? && !exiting(k)
    ensures var r := GetFrom(f, item, fetch, exiting, ignoreErrors, rc, resets, None);
      r.result == Raise(Transport) && !r.exited &&
      (if Registry(f) && ignoreErrors then r.attempts == (if rc == 0 then 2 else rc + 1) && r.resets == resets
       else r.attempts == 5 && r.resets == resets + ResetBudget(f, rc))
    decreases 4 - rc
  {
    if !GivesUp(f, rc, ignoreErrors) {
      GetFromStep(f, item, fetch, exiting, ignoreErrors, rc, resets, None);
      DeadFrom(f, item, fetch, exiting, ignoreErrors, rc + 1, if ResetsAfter(f, rc + 1) then resets + 1 else resets);
    }
  }

  /** The sequential `get_all` of the tender source: `get` each reference in order,
      stopping at the first exception.  With ten or more references and a concurrency of
      two or more it takes the `gevent` path, whose module is never imported. */
  function GetAll(refs: seq<Ref>, concurrency: int, get: Ref -> Result<Got>): (r: (seq<Got>, Option<Exc>))
    ensures |refs| >= 10 && concurrency >= 2 ==> r == ([], Some(NameError))
    ensures |refs| < 10 || concurrency < 2 ==>
      |r.0| <= |refs| &&
      (forall j :: 0 <= j < |r.0| ==> get(refs[j]) == Ok(r.0[j])) &&
      (r.1.None? <==> |r.0| == |refs|) &&
      (r.1.Some? ==> get(refs[|r.0|]) == Raise(r.1.value))
  {
    if |refs| >= 10 && concurrency >= 2 then ([], Some(NameError))
    else MapUntilRaise(refs, get)
  }

  // ---------------------------------------------------------------- document patches

  /** One award or contract of `patch_tender`: an active one gets `activeDate := date`
      (`None` when it has no date); an entry that is not a dict has no `.get`. */
  function MarkActive(x: Json): (r: Result<Json>)
    ensures x.JObj? <==> r.Ok?
    ensures r.Raise? ==> r.exc == AttributeError
    ensures r.Ok? ==>
      r.value.JObj?
      && r.value.fields.Keys == x.fields.Keys + (if Get(x, "status") == JStr("active") then {"activeDate"} else {})
      && (forall k :: k in x.fields && k != "activeDate" ==> r.value.fields[k] == x.fields[k])
      && (Get(x, "status") == JStr("active") ==> r.value.fields["activeDate"] == Get(x, "date"))
      && (Get(x, "status") != JStr("active") ==> r.value == x)
  {
    if !x.JObj? then Raise(AttributeError)
    else if Get(x, "status") == JStr("active") then Ok(JObj(x.fields["activeDate" := Get(x, "date")]))
    else Ok(x)
  }

  function MarkAll(xs: seq<Json>): (r: Result<seq<Json>>)
    ensures r.Ok? <==> forall j :: 0 <= j < |xs| ==> xs[j].JObj?
    ensures r.Raise? ==> r.exc == AttributeError
    ensures r.Ok? ==> |r.value| == |xs| && forall j :: 0 <= j < |xs| ==> MarkActive(xs[j]) == Ok(r.value[j])
  {
    if |xs| == 0 then Ok([])
    else
      var head :- MarkActive(xs[0]);
      var tail :- MarkAll(xs[1..]);
      Ok([head] + tail)
  }

  /** The `awards` or `contracts` loop of `patch_tender` on the fields of `data`.  A list
      value is patched entry by entry.  An empty dict or string iterates nothing; a
      non-empty one yields string keys or characters, whose `.get` raises
      `AttributeError`; a value that cannot be iterated raises `TypeError`. */
  function PatchList(data: map<string, Json>, key: string): (r: Result<map<string, Json>>)
    ensures key !in data ==> r == Ok(data)
    ensures r.Raise? ==> r.exc == AttributeError || r.exc == TypeError
    ensures key in data && !data[key].JArr? ==>
      r == (match data[key]
            case JObj(m) => if |m| == 0 then Ok(data) else Raise(AttributeError)
            case JStr(t) => if t == "" then Ok(data) else Raise(AttributeError)
            case _ => Raise(TypeError))
    ensures key in data && data[key].JArr? && r.Ok? ==>
      r.value.Keys == data.Keys && r.value[key].JArr?
      && (forall k :: k in data && k != key ==> r.value[k] == data[k])
      && MarkAll(data[key].items) == Ok(r.value[key].items)
  {
    if key !in data then Ok(data)
    else match data[key]
      case JArr(xs) =>
        var ys :- MarkAll(xs);
        Ok(data[key := JArr(ys)])
      case JObj(m) => if |m| == 0 then Ok(data) else Raise(AttributeError)
      case JStr(t) => if t == "" then Ok(data) else Raise(AttributeError)
      case _ => Raise(TypeError)
  }

  /** `TenderSource.patch_tender`. */
  function PatchTender(data: map<string, Json>): (r: Result<map<string, Json>>)
    ensures r.Raise? ==> r.exc == AttributeError || r.exc == TypeError
    ensures r.Ok? ==>
      r.value.Keys == data.Keys
      && forall k :: k in data && k != "awards" && k != "contracts" ==> r.value[k] == data[k]
  {
    var d :- PatchList(data, "awards");
    PatchList(d, "contracts")
  }

  lemma MarkActiveIdempotent(x: Json)
    requires x.JObj?
    ensures MarkActive(MarkActive(x).value) == MarkActive(x)
  {
    var y := MarkActive(x).value;
    if Get(x, "status") == JStr("active") {
      assert y.fields["activeDate" := Get(y, "date")] == y.fields;
    }
  }

  lemma {:induction false} MarkAllIdempotent(xs: seq<Json>)
    requires MarkAll(xs).Ok?
    ensures MarkAll(MarkAll(xs).value) == MarkAll(xs)
    decreases |xs|
  {
    if |xs| > 0 {
      MarkActiveIdempotent(xs[0]);
      MarkAllIdempotent(xs[1..]);
      var ys := MarkAll(xs).value;
      assert ys[1..] == MarkAll(xs[1..]).value;
    }
  }

  lemma PatchListIdempotent(data: map<string, Json>, key: string)
    requires PatchList(data, key).Ok?
    ensures PatchList(PatchList(data, key).value, key) == PatchList(data, key)
  {
    if key in data && data[key].JArr? {
      MarkAllIdempotent(data[key].items);
      var d := PatchList(data, key).value;
      assert d[key := JArr(MarkAll(d[key].items).value)] == d;
    }
  }

  /** Patching a tender twice changes nothing more: `activeDate` is recomputed from the
      same `date`. */
  lemma PatchTenderIdempotent(data: map<string, Json>)
    requires PatchTender(data).Ok?
    ensures PatchTender(PatchTender(data).value) == PatchTender(data)
  {
    var d1 := PatchList(data, "awards").value;
    var d2 := PatchList(d1, "contracts").value;
    PatchListIdempotent(data, "awards");
    PatchListIdempotent(d1, "contracts");
    assert PatchList(d2, "awards") == Ok(d2) by {
      if "awards" in data && data["awards"].JArr? {
        assert d2["awards"] == d1["awards"];
        MarkAllIdempotent(data["awards"].items);
        assert d2["awards"] == JArr(MarkAll(data["awards"].items).value);
        assert d2["awards" := JArr(MarkAll(d2["awards"].items).value)] == d2;
      }
    }
  }

  /** `isinstance(value[0], dict)` for a truthy value: a string's first character is not
      a dict, a dict has no key `0`, and numbers cannot be indexed. */
  function FirstIsDict(v: Json): (r: Result<bool>)
    requires Truthy(v)
    ensures v.JArr? ==> r == Ok(v.items[0].JObj?)
    ensures v.JStr? ==> r == Ok(false)
    ensures !v.JArr? && !v.JStr? ==> r.Raise?
  {
    match v
    case JArr(items) => Ok(items[0].JObj?)
    case JStr(_) => Ok(false)
    case JObj(_) => Raise(KeyError)
    case _ => Raise(TypeError)
  }

  /** Whether `patch_lot` moves `field` to `refsField`. */
  predicate Moves(data: map<string, Json>, field: string, refsField: string) {
    field in data && Truthy(data[field]) && refsField !in data && FirstIsDict(data[field]) == Ok(false)
  }

  /** One half of `patch_lot`: a truthy old-style `field` (a list of ids, not of dicts)
      moves to `refsField` unless that is already present. */
  function MoveRefs(data: map<string, Json>, field: string, refsField: string): (r: Result<map<string, Json>>)
    requires field != refsField
    ensures Moves(data, field, refsField) ==> r == Ok((data - {field})[refsField := data[field]])
    ensures r.Ok? && !Moves(data, field, refsField) ==> r.value == data
    ensures r.Raise? ==> field in data && refsField !in data && !data[field].JArr? && !data[field].JStr?
    ensures r.Raise? ==> r.exc == KeyError || r.exc == TypeError
  {
    if field in data && Truthy(data[field]) && refsField !in data then
      var isDict :- FirstIsDict(data[field]);
      if isDict then Ok(data) else Ok((data - {field})[refsField := data[field]])
    else Ok(data)
  }

  /** `DgfLotSource.patch_lot`. */
  function PatchLot(data: map<string, Json>): (r: Result<map<string, Json>>)
    ensures r.Raise? ==> r.exc == KeyError || r.exc == TypeError
  {
    var d :- MoveRefs(data, "assets", "assetsRefs");
    MoveRefs(d, "auctions", "auctionsRefs")
  }

  /** A patched lot is a fixed point of `patch_lot`. */
  lemma PatchLotIdempotent(data: map<string, Json>)
    requires PatchLot(data).Ok?
    ensures PatchLot(PatchLot(data).value) == PatchLot(data)
  {
  }

  /** `patch_lot` only renames: no value is lost or invented. */
  lemma PatchLotRenames(data: map<string, Json>)
    requires PatchLot(data).Ok?
    ensures var r := PatchLot(data).value;
      (forall k :: k in data && k != "assets" && k != "auctions" ==> k in r && r[k] == data[k])
      && ("assets" in data && "assets" !in r ==> r["assetsRefs"] == data["assets"])
      && ("auctions" in data && "auctions" !in r ==> r["auctionsRefs"] == data["auctions"])
  {
  }

  // ---------------------------------------------------------------- cache and reset timers

  /** The default `<prefix>_cache_allow` list, `'complete,cancelled,unsuccessful'` split on commas. */
  const DefaultCacheAllow: seq<string> := ["complete", "cancelled", "unsuccessful"]

  /** `cache_allow(data)`: only a document in an allow-listed (final) status that was last
      modified strictly before the cutoff date (`<prefix>_cache_minage` days ago) is cached.
      A document without a status raises. */
  function CacheAllow(d: Option<Doc>, allow: seq<string>, cutoff: string): (r: Result<bool>)
    ensures d.None? ==> r == Ok(false)
    ensures d.Some? && "status" !in d.value.fields ==> r == Raise(KeyError)
    ensures r == Ok(true) <==>
      d.Some? && "status" in d.value.fields && d.value.fields["status"].JStr?
      && d.value.fields["status"].s in allow && Less(d.value.dateModified, cutoff)
  {
    if d.None? then Ok(false)
    else if "status" !in d.value.fields then Raise(KeyError)
    else match d.value.fields["status"]
      case JStr(s) => Ok(s in allow && Less(d.value.dateModified, cutoff))
      case _ => Ok(false)
  }

  /** A later cutoff admits everything an earlier one does. */
  lemma CacheAllowMonotone(d: Option<Doc>, allow: seq<string>, c1: string, c2: string)
    requires CacheAllow(d, allow, c1) == Ok(true) && LessEq(c1, c2)
    ensures CacheAllow(d, allow, c2) == Ok(true)
  {
    if c1 != c2 {
      LessTransitive(d.value.dateModified, c1, c2);
    }
  }

  /** With the default list a document that is still active is never cached. */
  lemma ActiveNeverCached(d: Doc, cutoff: string)
    requires "status" in d.fields && d.fields["status"] == JStr("active")
    ensures CacheAllow(Some(d), DefaultCacheAllow, cutoff) == Ok(false)
  {
  }

  /** `DgfLotSource.need_reset`: `elapsed` is the time since the last reset, `reseteach`
      the configured hours (a float, jittered when above 1) and `hour` the local hour. */
  function LotNeedReset(shouldReset: bool, elapsed: int, reseteach: real, resethour: int, hour: int): (r: bool)
    ensures shouldReset ==> r
    ensures !shouldReset && elapsed < 3600 ==> !r
    ensures !shouldReset && elapsed >= 3600 ==>
      (r <==> (reseteach != 0.0 && elapsed as real > 3600.0 * reseteach) || (resethour != 0 && hour == resethour))
  {
    if shouldReset then true
    else if elapsed < 3600 then false
    else if reseteach != 0.0 && elapsed as real > 3600.0 * reseteach then true
    else resethour != 0 && hour == resethour
  }

  /** `AssetSource.need_reset`; a `None` answer counts as false. */
  function AssetNeedReset(shouldReset: bool, elapsed: int, reseteach: real, resethour: int, hour: int): (r: bool)
    ensures shouldReset ==> r
    ensures elapsed as real > 3600.0 * reseteach ==> r
    ensures r <==> shouldReset || elapsed as real > 3600.0 * reseteach || (elapsed > 3600 && hour == resethour)
  {
    if shouldReset then true
    else if elapsed as real > 3600.0 * reseteach then true
    else if elapsed > 3600 then hour == resethour
    else false
  }

  /** Unlike the lot source, the asset source has no one-hour grace period: with the
      default `asset_reseteach` of 0 it resets whenever any time has passed, while the lot
      source with its defaults never resets on its own. */
  lemma ResetTimerDefaults(elapsed: int, hour: int)
    requires elapsed > 0
    ensures AssetNeedReset(false, elapsed, 0.0, 0, hour)
    ensures !LotNeedReset(false, elapsed, 0.0, 0, hour)
  {
  }
}

=== FILE: strs.dfy ===
/** String helpers with Python 2 `str` semantics: ordering, slicing by prefix,
    `rsplit(sep, 1)`, `int()` and `str()` of integers, joining and padding. */
module Strs {
  import opened Wrappers

  /** Python's `a < b` on strings: lexicographic by character code, a proper
      prefix sorting first. */
  predicate Less(a: string, b: string)
    decreases |a|
  {
    if |b| == 0 then false
    else if |a| == 0 then true
    else if a[0] != b[0] then a[0] < b[0]
    else Less(a[1..], b[1..])
  }

  /** Python's `a <= b` on strings. */
  predicate LessEq(a: string, b: string) {
    a == b || Less(a, b)
  }

  lemma {:induction false} LessIrreflexive(a: string)
    ensures !Less(a, a)
    decreases |a|
  {
    if |a| > 0 {
      LessIrreflexive(a[1..]);
    }
  }

  lemma {:induction false} LessTransitive(a: string, b: string, c: string)
    requires Less(a, b) && Less(b, c)
    ensures Less(a, c)
    decreases |a|
  {
    if |a| > 0 && a[0] == b[0] && b[0] == c[0] {
      LessTransitive(a[1..], b[1..], c[1..]);
    }
  }

  /** Exactly one of `a < b`, `a == b`, `b < a` holds: `Less` is a strict total order. */
  lemma {:induction false} LessTrichotomy(a: string, b: string)
    ensures Less(a, b) || a == b || Less(b, a)
    ensures !(Less(a, b) && Less(b, a))
    decreases |a|
  {
    if |a| > 0 && |b| > 0 && a[0] == b[0] {
      LessTrichotomy(a[1..], b[1..]);
      if a[1..] == b[1..] {
        assert a == [a[0]] + a[1..] && b == [b[0]] + b[1..];
      }
    }
  }

  /** `s[:n]` in Python: the first `n` characters, or all of `s` when shorter. */
  function Take(s: string, n: nat): (r: string)
    ensures |r| == if |s| < n then |s| else n
    ensures forall i :: 0 <= i < |r| ==> r[i] == s[i]
  {
    if |s| < n then s else s[..n]
  }

  predicate StartsWith(s: string, p: string) {
    |p| <= |s| && s[..|p|] == p
  }

  lemma TakeTwoIs20(s: string)
    ensures Take(s, 2) == "20" <==> StartsWith(s, "20")
  {
  }

  /** Position of the last occurrence of `c` in `s`. */
  function LastIndex(s: string, c: char): (r: Option<nat>)
    ensures r.Some? ==> r.value < |s| && s[r.value] == c
    ensures r.Some? ==> forall j :: r.value < j < |s| ==> s[j] != c
    ensures r.None? ==> forall j :: 0 <= j < |s| ==> s[j] != c
  {
    if |s| == 0 then None
    else if s[|s| - 1] == c then Some(|s| - 1)
    else LastIndex(s[..|s| - 1], c)
  }

  /** `prefix, suffix = s.rsplit(sep, 1)`: raises `ValueError` when `sep` is absent
      because the one-element result cannot be unpacked into two names. */
  function RSplitOnce(s: string, c: char): (r: Result<(string, string)>)
    ensures r.Raise? <==> (forall j :: 0 <= j < |s| ==> s[j] != c)
    ensures r.Ok? ==> r.value.0 + [c] + r.value.1 == s
    ensures r.Ok? ==> forall j :: 0 <= j < |r.value.1| ==> r.value.1[j] != c
  {
    match LastIndex(s, c)
    case None => Raise(ValueError)
    case Some(k) =>
      assert s[..k] + [c] + s[k + 1..] == s;
      Ok((s[..k], s[k + 1..]))
  }

  lemma {:induction false} RSplitOfJoin(p: string, c: char, x: string)
    requires forall j :: 0 <= j < |x| ==> x[j] != c
    ensures RSplitOnce(p + [c] + x, c) == Ok((p, x))
  {
    var s := p + [c] + x;
    assert s[|p|] == c;
    assert forall j :: |p| < j < |s| ==> s[j] == x[j - |p| - 1];
    var k := LastIndex(s, c).value;
    assert s[..k] == p;
    assert s[k + 1..] == x;
  }

  /** `str()` of a Python 2 unicode string succeeds only on ASCII text. */
  predicate Ascii(s: string) {
    forall i :: 0 <= i < |s| ==> s[i] < 128 as char
  }

  predicate IsDigit(ch: char) {
    '0' <= ch <= '9'
  }

  predicate AllDigits(s: string) {
    forall i :: 0 <= i < |s| ==> IsDigit(s[i])
  }

  function DigitValue(ch: char): nat
    requires IsDigit(ch)
  {
    (ch as int - '0' as int) as nat
  }

  function DigitChar(d: nat): (ch: char)
    requires d < 10
    ensures IsDigit(ch) && DigitValue(ch) == d
  {
    ('0' as int + d) as char
  }

  /** The value of a decimal digit string, most significant digit first. */
  function DigitsValue(s: string): nat
    requires AllDigits(s)
  {
    if |s| == 0 then 0 else DigitsValue(s[..|s| - 1]) * 10 + DigitValue(s[|s| - 1])
  }

  /** Python's `int(s)` on a plain decimal literal with an optional sign;
      anything else raises `ValueError`. */
  function ParseInt(s: string): (r: Result<int>)
    ensures r.Ok? ==> |s| > 0
    ensures AllDigits(s) && |s| > 0 ==> r == Ok(DigitsValue(s))
  {
    if |s| > 0 && (s[0] == '-' || s[0] == '+') then
      var body := s[1..];
      if |body| > 0 && AllDigits(body) then
        Ok(if s[0] == '-' then -(DigitsValue(body) as int) else DigitsValue(body))
      else Raise(ValueError)
    else if |s| > 0 && AllDigits(s) then Ok(DigitsValue(s))
    else Raise(ValueError)
  }

  /** Python's `str(n)` for a non-negative integer. */
  function NatToStr(n: nat): (r: string)
    ensures |r| > 0 && AllDigits(r)
  {
    if n < 10 then [DigitChar(n)] else NatToStr(n / 10) + [DigitChar(n % 10)]
  }

  /** Printing then parsing a non-negative integer gives it back. */
  lemma {:induction false} ParseNatToStr(n: nat)
    ensures DigitsValue(NatToStr(n)) == n
    ensures ParseInt(NatToStr(n)) == Ok(n)
  {
    if n >= 10 {
      ParseNatToStr(n / 10);
      var s := NatToStr(n);
      assert s[..|s| - 1] == NatToStr(n / 10);
    }
  }

  /** Python's `str(i)` for any integer. */
  function IntToStr(i: int): (r: string)
    ensures |r| > 0 && forall j :: 0 <= j < |r| ==> IsDigit(r[j]) || r[j] == '-'
  {
    if i < 0 then "-" + NatToStr(-i) else NatToStr(i)
  }

  /** Printing then parsing any integer gives it back. */
  lemma {:induction false} ParseIntToStr(i: int)
    ensures ParseInt(IntToStr(i)) == Ok(i)
  {
    if i < 0 {
      ParseNatToStr(-i);
      assert IntToStr(i)[1..] == NatToStr(-i);
    } else {
      ParseNatToStr(i);
    }
  }

  /** `','.join(parts)` and friends. */
  function Join(parts: seq<string>, sep: string): string {
    if |parts| == 0 then ""
    else if |parts| == 1 then parts[0]
    else parts[0] + sep + Join(parts[1..], sep)
  }

  /** `s.find(ch) >= 0`. */
  predicate Contains(s: string, ch: char) {
    exists i :: 0 <= i < |s| && s[i] == ch
  }

  /** `t in s` on two strings: `t` occurs in `s` at some offset. */
  predicate Infix(t: string, s: string) {
    StartsWith(s, t) || (|s| > 0 && Infix(t, s[1..]))
  }

  /** A string shorter than `t` cannot contain it. */
  lemma {:induction false} ShortNotInfix(t: string, s: string)
    requires |s| < |t|
    ensures !Infix(t, s)
  {
    if |s| > 0 {
      ShortNotInfix(t, s[1..]);
    }
  }

  /** `while len(code) < n: code = pad + code`. */
  function LeftPad(s: string, pad: char, n: nat): (r: string)
    ensures |r| == if |s| < n then n else |s|
    ensures r[|r| - |s|..] == s
    ensures forall i :: 0 <= i < |r| - |s| ==> r[i] == pad
    decreases n - |s|
  {
    if |s| < n then
      var t := [pad] + s;
      var r := LeftPad(t, pad, n);
      assert r[|r| - |t|..] == t;
      assert r[|r| - |s|..] == t[1..] == s;
      assert r[|r| - |t|] == t[0] == pad;
      r
    else s
  }

  /** Python's `s.split(sep, 1)` into the part before and after the first `sep`,
      for a string that contains `sep`. */
  function SplitFirst(s: string, c: char): (r: (string, string))
    requires Contains(s, c)
    ensures r.0 + [c] + r.1 == s
    ensures forall j :: 0 <= j < |r.0| ==> r.0[j] != c
  {
    if s[0] == c then ("", s[1..])
    else
      var rest := SplitFirst(s[1..], c);
      assert [s[0]] + rest.0 + [c] + rest.1 == s;
      ([s[0]] + rest.0, rest.1)
  }
}

=== FILE: wrappers.dfy ===
/** Failure-carrying wrappers shared by every module of the model. */
module Wrappers {

  /** Python's `None` versus a present value. */
  datatype Option<+T> = None | Some(value: T) {

    /** The value, or `default` when absent (Python's `d.get(k, default)`). */
    function GetOr(default: T): T {
      match this
      case Some(v) => v
      case None => default
    }
  }

  /** The exceptions the modelled code raises or catches. */
  datatype Exc =
    | KeyError        // missing dict key, `pop` without default
    | ValueError      // unpacking, `int()` of a non-number, explicit `raise ValueError`
    | AssertionError  // failed `assert` in the source
    | ZeroDivision    // division by zero in a progress message
    | TypeError       // an operation applied to a value of the wrong kind
    | AttributeError  // `.get` on a value that is not a dict
    | NameError       // a name the module never imported
    | IOError         // a file that cannot be opened
    | Transport       // a backend or upstream request that failed

  /** Either a value or a raised exception. */
  datatype Result<+T> = Ok(value: T) | Raise(exc: Exc) {
    predicate IsFailure() { Raise? }

    function PropagateFailure<U>(): Result<U>
      requires Raise?
    {
      Raise(exc)
    }

    function Extract(): T
      requires Ok?
    {
      value
    }
  }

  /** The order a Python 2 dict iterates its keys in, which the code does not choose:
      `order` lists each key of `keys` exactly once. */
  predicate IsOrder<K>(order: seq<K>, keys: set<K>) {
    && (forall k :: 0 <= k < |order| ==> order[k] in keys)
    && (forall key :: key in keys ==> key in order)
    && (forall k, l :: 0 <= k < l < |order| ==> order[k] != order[l])
  }

  /** An order lists as many keys as the set holds. */
  lemma {:induction false} OrderSize<K>(order: seq<K>, keys: set<K>)
    requires IsOrder(order, keys)
    ensures |order| == |keys|
    decreases |order|
  {
    if |order| != 0 {
      var last := order[|order| - 1];
      var init := order[..|order| - 1];
      assert forall k :: 0 <= k < |init| ==> init[k] != last;
      assert IsOrder(init, keys - {last}) by {
        forall key | key in keys - {last} ensures key in init {
          var k :| 0 <= k < |order| && order[k] == key;
          assert k < |order| - 1;
          assert init[k] == key;
        }
      }
      OrderSize(init, keys - {last});
    }
  }

  /** A `for` loop that applies `f` to each element in turn and stops at the first
      exception: the results gathered so far, and the exception if one was raised. */
  function MapUntilRaise<A, B>(xs: seq<A>, f: A -> Result<B>): (r: (seq<B>, Option<Exc>))
    ensures |r.0| <= |xs|
    ensures forall j :: 0 <= j < |r.0| ==> f(xs[j]) == Ok(r.0[j])
    ensures r.1.None? <==> |r.0| == |xs|
    ensures r.1.Some? ==> f(xs[|r.0|]) == Raise(r.1.value)
  {
    if |xs| == 0 then ([], None)
    else match f(xs[0])
      case Raise(e) => ([], Some(e))
      case Ok(y) =>
        var rest := MapUntilRaise(xs[1..], f);
        var ys := [y] + rest.0;
        assert forall j :: 1 <= j < |ys| ==> xs[j] == xs[1..][j - 1] && ys[j] == rest.0[j - 1];
        (ys, rest.1)
  }

  /** A list built by a loop whose element expression can raise: every result, or the
      first exception. */
  function MapAll<A, B>(xs: seq<A>, f: A -> Result<B>): (r: Result<seq<B>>)
    ensures r.Ok? ==> |r.value| == |xs| && forall i :: 0 <= i < |xs| ==> f(xs[i]) == Ok(r.value[i])
    ensures r.Raise? ==> exists i :: 0 <= i < |xs| && f(xs[i]) == Raise(r.exc)
  {
    var done := MapUntilRaise(xs, f);
    if done.1.Some? then Raise(done.1.value) else Ok(done.0)
  }

  /** A loop that transforms each element and totals a count per element. */
  function MapCount<A, B>(xs: seq<A>, f: A -> (B, nat)): (r: (seq<B>, nat))
    ensures |r.0| == |xs| && forall i :: 0 <= i < |xs| ==> r.0[i] == f(xs[i]).0
    ensures r.1 == 0 <==> forall i :: 0 <= i < |xs| ==> f(xs[i]).1 == 0
    decreases |xs|
  {
    if |xs| == 0 then ([], 0)
    else
      var head := f(xs[0]);
      var rest := MapCount(xs[1..], f);
      var ys := [head.0] + rest.0;
      assert forall i :: 1 <= i < |xs| ==> xs[i] == xs[1..][i - 1] && ys[i] == rest.0[i - 1];
      (ys, head.1 + rest.1)
  }
}

=== FILE: write_engine.dfy ===
/** The single-item write path of `IndexEngine` (openprocurement/search/engine.py):
    external-version writes against the backend, `test_exists`, and the bounded
    retry loop of `index_item`.

    The backend is a map from (index, doc_type, id) to the stored version and
    body.  A write carrying a version not above the stored one is rejected with a
    conflict, which the client reports as an exception like any other failure. */
module WriteEngine {
  import opened Wrappers
  import opened Json

  datatype DocKey = DocKey(index: string, docType: string, id: string)
  datatype Stored = Stored(version: int, data: Json)
  type Backend = map<DocKey, Stored>

  /** The `meta` part of an envelope, with its optional `ignore_exists` flag. */
  datatype Meta = Meta(id: string, docType: string, version: int, ignoreExists: bool)
  datatype Item = Item(meta: Meta, data: Json)

  function KeyOf(index: string, m: Meta): DocKey {
    DocKey(index, m.docType, m.id)
  }

  /** Versioned put with `version_type='external'`: `None` is a version conflict. */
  function ExtWrite(b: Backend, index: string, it: Item): (r: Option<Backend>)
    ensures var k := KeyOf(index, it.meta);
      r.Some? <==> (k !in b || b[k].version < it.meta.version)
    ensures r.Some? ==> r.value == b[KeyOf(index, it.meta) := Stored(it.meta.version, it.data)]
  {
    var k := KeyOf(index, it.meta);
    if k !in b || b[k].version < it.meta.version then Some(b[k := Stored(it.meta.version, it.data)])
    else None
  }

  /** The backend after a write whose conflict is ignored. */
  function Apply(b: Backend, index: string, it: Item): Backend {
    var w := ExtWrite(b, index, it);
    if w.Some? then w.value else b
  }

  /** `test_exists`: `None` when the document is absent, otherwise whether the
      stored version is at least the envelope's. */
  function TestExists(b: Backend, index: string, m: Meta): (r: Option<bool>)
    ensures r.None? <==> KeyOf(index, m) !in b
    ensures r.Some? ==> (r.value <==> b[KeyOf(index, m)].version >= m.version)
  {
    var k := KeyOf(index, m);
    if k in b then Some(b[k].version >= m.version) else None
  }

  /** `if self.test_exists(...)`: the document is stored at this version or later. */
  predicate Exists(b: Backend, index: string, m: Meta) {
    TestExists(b, index, m) == Some(true)
  }

  /** Stored versions only ever grow, and no document disappears. */
  predicate Grows(b: Backend, b': Backend) {
    forall k :: k in b ==> k in b' && b'[k].version >= b[k].version
  }

  lemma GrowsTransitive(b1: Backend, b2: Backend, b3: Backend)
    requires Grows(b1, b2) && Grows(b2, b3)
    ensures Grows(b1, b3)
  {
  }

  /** Once stored at or above a version, a document stays so. */
  lemma ExistsStable(b: Backend, b': Backend, index: string, m: Meta)
    requires Grows(b, b') && Exists(b, index, m)
    ensures Exists(b', index, m)
  {
  }

  /** Writing the same envelope twice leaves the backend as writing it once. */
  lemma ApplyIdempotent(b: Backend, index: string, it: Item)
    ensures Apply(Apply(b, index, it), index, it) == Apply(b, index, it)
    ensures Grows(b, Apply(b, index, it))
  {
  }

  /** Two versions of one document end with the newer payload whichever arrives first. */
  lemma ApplyOrderIrrelevant(b: Backend, index: string, older: Item, newer: Item)
    requires KeyOf(index, older.meta) == KeyOf(index, newer.meta)
    requires older.meta.version < newer.meta.version
    ensures Apply(Apply(b, index, older), index, newer) == Apply(Apply(b, index, newer), index, older)
    ensures var k := KeyOf(index, newer.meta);
      k !in b || b[k].version < newer.meta.version ==>
        Apply(Apply(b, index, newer), index, older)[k] == Stored(newer.meta.version, newer.data)
  {
  }

  /** How one write attempt went: `Lost` never reached the backend; `Applied` was
      processed and answered; `TimedOut` was processed but its answer was lost. */
  datatype Attempt = Lost | Applied | TimedOut

  /** What `index_item` does: returns the backend response (`Indexed`), returns
      `None` (`Skipped`), or re-raises the last error (`Raised`). */
  datatype WriteResult = Indexed | Skipped | Raised

  datatype Outcome = Outcome(result: WriteResult, backend: Backend, attempts: nat)

  /** The `while True` loop of the single-item path from retry count `rc` on;
      `att(n)` is how the attempt made with `retry_count == n` goes. */
  function IndexFrom(b: Backend, index: string, it: Item, ignoreErrors: bool,
                     att: nat -> Attempt, rc: nat): (r: Outcome)
    requires rc <= 4
    ensures rc < r.attempts <= 5
    ensures Grows(b, r.backend)
    ensures r.backend == b || r.backend == b[KeyOf(index, it.meta) := Stored(it.meta.version, it.data)]
    ensures r.result == Indexed ==>
      KeyOf(index, it.meta) in r.backend &&
      r.backend[KeyOf(index, it.meta)] == Stored(it.meta.version, it.data)
    ensures ignoreErrors && rc <= 2 ==> r.result != Raised && r.attempts <= 3
    ensures r.result == Raised ==> r.attempts == 5
    ensures r.result != Raised && !ignoreErrors ==> Exists(r.backend, index, it.meta)
    ensures Exists(b, index, it.meta) ==>
      r.backend == b && r.attempts == rc + 1 &&
      (r.result == Skipped || (rc == 4 && !it.meta.ignoreExists && r.result == Raised))
    decreases 4 - rc
  {
    var a := att(rc);
    var w := if a == Lost then None else ExtWrite(b, index, it);
    var b1 := if w.Some? then w.value else b;
    if a == Applied && w.Some? then Outcome(Indexed, b1, rc + 1)
    else if it.meta.ignoreExists && Exists(b1, index, it.meta) then Outcome(Skipped, b1, rc + 1)
    else if rc > 3 then Outcome(Raised, b1, rc + 1)
    else if rc + 1 > 2 && ignoreErrors then Outcome(Skipped, b1, rc + 1)
    else if Exists(b1, index, it.meta) then Outcome(Skipped, b1, rc + 1)
    else IndexFrom(b1, index, it, ignoreErrors, att, rc + 1)
  }

  /** `index_item(index_name, item, ignore_bulk=True, ignore_errors)`. */
  function IndexItem(b: Backend, index: string, it: Item, ignoreErrors: bool, att: nat -> Attempt): (r: Outcome)
    ensures 1 <= r.attempts <= 5
    ensures Grows(b, r.backend)
    ensures ignoreErrors ==> r.result != Raised && r.attempts <= 3
    ensures r.result != Raised && !ignoreErrors ==> Exists(r.backend, index, it.meta)
  {
    IndexFrom(b, index, it, ignoreErrors, att, 0)
  }

  /** After a failed attempt that leaves the document stored at or above the
      envelope's version, the loop returns `None` instead of trying again
      (the last attempt re-raises unless `ignore_exists` is set). */
  lemma {:induction false} StopsWhenStored(b: Backend, index: string, it: Item, ignoreErrors: bool,
                                           att: nat -> Attempt, rc: nat)
    requires rc <= 3
    requires !(att(rc) == Applied && ExtWrite(b, index, it).Some?)
    requires var w := if att(rc) == Lost then None else ExtWrite(b, index, it);
      Exists(if w.Some? then w.value else b, index, it.meta)
    ensures IndexFrom(b, index, it, ignoreErrors, att, rc).result == Skipped
    ensures IndexFrom(b, index, it, ignoreErrors, att, rc).attempts == rc + 1
  {
  }

  /** A backend that never answers makes the loop try exactly five times and re-raise,
      unless errors are ignored, in which case it gives up after the third attempt. */
  lemma {:induction false} DeadBackend(b: Backend, index: string, it: Item, ignoreErrors: bool, att: nat -> Attempt)
    requires forall n :: att(n) == Lost
    requires !Exists(b, index, it.meta)
    ensures var r := IndexItem(b, index, it, ignoreErrors, att);
      r.backend == b &&
      (if ignoreErrors then r.result == Skipped && r.attempts == 3
       else r.result == Raised && r.attempts == 5)
  {
    var r1 := IndexFrom(b, index, it, ignoreErrors, att, 1);
    var r2 := IndexFrom(b, index, it, ignoreErrors, att, 2);
    var r3 := IndexFrom(b, index, it, ignoreErrors, att, 3);
    var r4 := IndexFrom(b, index, it, ignoreErrors, att, 4);
    assert att(0) == Lost && att(1) == Lost && att(2) == Lost && att(3) == Lost && att(4) == Lost;
  }
}
